=== FILE: README.md ===
# Report and chat backend: a verified model

This project models the deterministic core of a FastAPI backend. The backend
writes research reports and answers chat questions, with citations. Around the
LLM and search calls it runs these steps:

- **Report research.**
  - Each search backend (web, internal index, uploaded files, URLs from the
    report's additional information) returns hits.
  - The hits become `ChunkModel` records, which are de-duplicated on
    `(content, source)`.
  - The LLM scores them in batches of 10, five batches at a time. The replies
    are sorted stably by score and the top `top` are selected, each with its
    score written back.
  - `initiate_research` gathers the four searches into a response.
    `generate_section_chunks` keeps the five best chunks for a section.
- **Report synthesis.** The LLM writes the report with `<citation>id</citation>`
  markers. The content is stored with its markers, and up to five retries are
  made when an attempt raises. A report is read back through a validator that
  strips the markers.
- **Chat.** A QA agent streams tool outputs and a final answer. The cited ids
  in the answer are resolved against the tool outputs seen so far, and the
  matching chunks are saved.
- **Utilities.** Citation extraction, NUL cleansing, URL extraction, the Azure
  AI Search text sanitiser, file-extension dispatch and path building, and the
  300-character chat content limit.

The LLM, the search backends, `unicode_escape` decoding, uuid generation and
the file system are parameters of the model (oracle functions). An exception
is an `Err` of `Outcomes.Result`. `asyncio.gather` is `Outcomes.Gather`: it
succeeds when every task succeeds, and keeps task order.

Files, one module each:

- `outcomes.dfy` — `Option`, `Result`, `Gather`, `Flatten`.
- `text.dfy` — Python's whitespace, `strip` and `replace`.
- `string_util.dfy` — `StringUtil`.
- `azure_search.dfy` — the search result sanitiser and mapping.
- `chunks.dfy` — `ChunkModel`, the type tags, and de-duplication.
- `sorting.dfy` — stable `sorted(..., reverse=True)` and slicing.
- `rerank.dfy`, `rerank_facts.dfy`, `rerank_honest.dfy`, `rerank_ids.dfy` — LLM reranking.
- `research.dfy` — mappers, fan-out, `initiate_research`, sections and custom queries.
- `synthesis.dfy` — report generation and its retry.
- `report_model.dfy`, `report_schema.dfy` — the report record and the response models.
- `chat.dfy`, `chat_schema.dfy` — the chat stream and chat request models.

Where the code and its own documentation disagree, the model follows the code:

- The docstring of `extract_chunks_and_content` shows an empty marker yielding
  a uuid. The code yields the empty string (`StringUtil.EmptyMarker`).
- The docstrings of the search methods promise that the configuration is
  honoured. `run_internal_search` ignores it, because the update is commented
  out (`Research.RunInternalSearch`).
- `run_custom_query` is documented as returning the reranked chunks. It returns
  the search results instead. The model returns them too, with the scores that
  the reranking wrote into the shared chunk objects (`Research.RunCustomQuery`).

## Model

| member | source | states |
|---|---|---|
| Outcomes.Gather | backend/app/services/report.py:380 | gathering succeeds iff every task succeeds; the values are the tasks' values, in task order |
| Outcomes.FlattenMember | backend/app/services/report.py:383-384 | an element is in the extended list iff it is in one of the batch results |
| Outcomes.FlattenLength | backend/app/services/report.py:383-384 | when every batch result holds at most `bound` entries, the extended list holds at most `batches * bound` |
| Outcomes.FlattenSize | backend/app/services/report.py:383-384 | extending by every batch result gives exactly as many entries as the batches hold together |
| Text.RemoveChar | backend/app/utils/string.py:8 | `replace(c, '')` leaves no `c`, keeps every other character, and shortens by the number of `c`s |
| Text.RemoveCharAppend | backend/app/utils/string.py:8 | removal distributes over concatenation |
| Text.KeepAscii | backend/app/utils/vector_retriever/azureaisearch.py:50 | encoding to ASCII with `ignore` keeps only ASCII characters, drawn from the input, and changes ASCII text not at all |
| Text.KeepAsciiAppend | backend/app/utils/vector_retriever/azureaisearch.py:50 | the ASCII filter works character by character: it distributes over concatenation |
| Text.KeepAsciiDrops | backend/app/utils/vector_retriever/azureaisearch.py:50 | a non-ASCII character is dropped; with `KeepAsciiAppend`, exactly the non-ASCII characters are removed |
| Text.StripIsTrimmedSlice | backend/app/utils/string.py:41 | `strip()` is a slice of the input with only whitespace cut on either side, and starts and ends with non-whitespace |
| Text.StripUntrimmed | backend/app/utils/string.py:41 | text with no surrounding whitespace is returned unchanged by `strip()` |
| StringUtil.Distinct | backend/app/utils/string.py:38-45 | `list(set(...))` has no repeats and exactly the input's values |
| StringUtil.FindClose | backend/app/utils/string.py:35 | the non-greedy `(.*?)` stops at the first `</citation>`, with no newline before it; none is found only when no newline-free stretch reaches one |
| StringUtil.MarkerSplit | backend/app/utils/string.py:35 | a match is the open tag, a captured id without newline or `</citation>`, and the close tag |
| StringUtil.TokenizeRender | backend/app/utils/string.py:35-41 | the left-to-right scan into plain characters and markers loses nothing: rendering it gives the input back |
| StringUtil.RenderTokenize | backend/app/utils/string.py:35-41 | text built from well-formed pieces scans back into those pieces |
| StringUtil.TokenizeCapturable | backend/app/utils/string.py:35 | every captured id holds no newline and no `</citation>` |
| StringUtil.ExtractChunksAndContent | backend/app/utils/string.py:35-46 | the citations have no repeats and are exactly the captured ids; each id is capturable; the content is no longer than the input |
| StringUtil.ExtractRendered | backend/app/utils/string.py:35-46 | for text made of plain characters and markers: the content is the stripped plain text, and the citations are the distinct ids |
| StringUtil.ExtractWithoutMarkers | backend/app/utils/string.py:35-46 | input without `<citation>` gives its stripped self and no citations |
| StringUtil.EmptyMarker | backend/app/utils/string.py:22-46 | `<citation></citation>` yields the citation `""` and is removed from the content |
| StringUtil.ExtractSingleCitation | backend/app/utils/string.py:35-46 | one cited claim yields exactly that id, and the claim without the marker, stripped |
| StringUtil.CleanseText | backend/app/utils/string.py:7-8 | `None` stays `None`; the result has no NUL, loses exactly the NULs, and text without NUL is unchanged |
| StringUtil.CleanseTextIdempotent | backend/app/utils/string.py:7-8 | cleansing twice is cleansing once |
| StringUtil.CleanseTextAppend | backend/app/utils/string.py:7-8 | cleansing distributes over concatenation |
| StringUtil.ExtractUrlSpans | backend/app/utils/string.py:11-15 | every match is a whitespace-free, right-maximal stretch that the URL pattern accepts and that starts with `http://`, `https://` or `www.`; matches do not overlap and are in order |
| StringUtil.ExtractUrls | backend/app/utils/string.py:11-15 | each returned url is the text of its match, and the pattern accepts it: a prefix, then an alphanumeric label (inner dashes allowed) and a `.` followed by at least two more characters |
| StringUtil.ExtractUrlsWord | backend/app/utils/string.py:11-15 | completeness: a pattern-matching word, preceded by text with no URL prefix and followed by whitespace or the end, is the first url returned |
| StringUtil.ExtractUrlsSole | backend/app/utils/string.py:11-15 | if, in addition, no URL prefix follows it, that word is the only url returned |
| StringUtil.ExtractUrlsExample | backend/app/utils/string.py:11-15 | `"see https://example.com"` yields exactly `["https://example.com"]` |
| StringUtil.NoUrlPrefixNoUrls | backend/app/utils/string.py:11-15 | text in which no URL prefix occurs yields no urls |
| AzureSearch.ParamEnd | backend/app/utils/vector_retriever/azureaisearch.py:41 | the greedy `[0-9;]*` run ends at the first character outside it |
| AzureSearch.CsiLength | backend/app/utils/vector_retriever/azureaisearch.py:41 | a matched escape sequence starts `ESC [` and has at least three characters |
| AzureSearch.RemoveAnsi | backend/app/utils/vector_retriever/azureaisearch.py:41 | the result is no longer than the input, and every character in it occurs in the input |
| AzureSearch.RemoveAnsiKeeps | backend/app/utils/vector_retriever/azureaisearch.py:41 | a character that starts no escape sequence is kept, and removal goes on right after it; with `RemoveAnsiSequence`, removal deletes exactly the sequences |
| AzureSearch.RemoveAnsiNoEsc | backend/app/utils/vector_retriever/azureaisearch.py:41 | text without ESC is unchanged |
| AzureSearch.RemoveAnsiSequence | backend/app/utils/vector_retriever/azureaisearch.py:41 | a full `ESC [ params letter` sequence disappears and nothing else does |
| AzureSearch.CollapseSpaces | backend/app/utils/vector_retriever/azureaisearch.py:44 | the result holds no whitespace but single spaces, is no longer than the input, and starts with a space only if the input starts with whitespace |
| AzureSearch.CollapseKeeps | backend/app/utils/vector_retriever/azureaisearch.py:44 | a non-whitespace character is kept as it is |
| AzureSearch.CollapseRun | backend/app/utils/vector_retriever/azureaisearch.py:44 | a whole run of whitespace becomes exactly one space, and the rest is collapsed on its own |
| AzureSearch.CollapseSingleSpaced | backend/app/utils/vector_retriever/azureaisearch.py:44 | text whose only whitespace is single spaces is unchanged |
| AzureSearch.CollapseIdempotent | backend/app/utils/vector_retriever/azureaisearch.py:44 | collapsing twice is collapsing once |
| AzureSearch.CleanResultContent | backend/app/utils/vector_retriever/azureaisearch.py:34-58 | it fails iff escape decoding fails; the result is all ASCII, with no backslash and no NUL |
| AzureSearch.CleanPlainUnchanged | backend/app/utils/vector_retriever/azureaisearch.py:34-58 | clean printable ASCII passes through unchanged |
| AzureSearch.ToResponse | backend/app/utils/vector_retriever/azureaisearch.py:103-111 | a result maps iff both texts decode and a caption exists; source and score are copied, and both texts are cleaned |
| AzureSearch.MapResults | backend/app/utils/vector_retriever/azureaisearch.py:103-111 | the list maps iff every result does, one response per result, in order |
| Chunks.ParseTypeTag | backend/app/enums/chunk_enum.py:4-8 | the four type tags are distinct, and each reads back as its type |
| Chunks.NewChunk | backend/app/database/agent/chunk/model.py:38-48 | both scores default to 0, and every optional text field and both ids default to `None` |
| Chunks.FirstPositionsBelow | backend/app/services/report.py:393-410 | the kept positions increase, and a position below `n` is kept iff its key has not occurred before it |
| Chunks.Dedup | backend/app/services/report.py:393-410 | the first chunk of each key is kept, in order; the keys are pairwise distinct; every input key is covered |
| Chunks.DedupIdempotent | backend/app/services/report.py:393-410 | de-duplicating twice is de-duplicating once |
| Chunks.DedupNoDupIdentity | backend/app/services/report.py:393-410 | a list whose keys are distinct is unchanged |
| Chunks.DedupDropsRepeat | backend/app/services/report.py:393-410 | of two chunks with one key, only the first is kept |
| Sorting.SortDesc | backend/app/services/report.py:388-390 | `sorted(..., reverse=True)` is non-increasing, a permutation of its input, and stable for each key value |
| Sorting.PyPrefix | backend/app/services/report.py:572 | `xs[:n]` has `min(n, len)` elements, or `len + n` of them for negative `n`, and is a prefix |
| Sorting.SortedPrefixIsTop | backend/app/services/report.py:1204-1205 | a prefix of the sorted list is the top `n` by key: sorted, drawn from the input, and none left out scores higher |
| Sorting.SplitSorted | backend/app/services/report.py:572 | a cut of a sorted list keys nothing after it above anything before it |
| Rerank.Chunked | backend/app/services/report.py:366 | the batches flatten back to the input, none is empty, and all but the last hold exactly 10 |
| Rerank.WaveRequests | backend/app/services/report.py:377-379 | batch `i` of a wave starts its ids at `start + 10 * i` |
| Rerank.BatchRequest | backend/app/services/report.py:253-259 | the chunk at index `j` of a batch is sent as id `start + j + 1` with its content |
| Rerank.IdFor | backend/app/services/report.py:369-377 | sent ids are at least 1, and with `start_index` fixed at 0 at most 50 |
| RerankFacts.ScoreWavesGathers | backend/app/services/report.py:370-384 | the wave loop succeeds iff every request it sends is answered, and returns all replies concatenated in request order |
| Rerank.SortField | backend/app/services/report.py:573-576 | replies are ranked by `score` iff the section title is empty, else by `section_relevance_score` |
| Rerank.OrderChunksByLlm | backend/app/services/report.py:330-391 | it succeeds iff every wave succeeds and every reply has the sort field; a failed wave's error is the result's, and otherwise a missing field raises `KeyError`; the result is a sorted permutation of all replies |
| Rerank.PyIndex | backend/app/services/report.py:574-577 | list indexing accepts `-n <= i < n`; negative indices count from the end |
| Rerank.ResolveWrites | backend/app/services/report.py:572-577 | each selected reply resolves iff it has both fields and an index in range; it writes its score to the chunk its id names |
| Rerank.ApplyWrites | backend/app/services/report.py:572-577 | after the writes to the shared chunk objects, each chunk holds the last score written to it, and nothing else changes |
| Rerank.GetTopChunksWith | backend/app/services/report.py:545-579 | the chunks are the de-duplicated ones with only scores changed; as many picks as the sliced replies; pick `t` is the chunk that the `t`-th sliced reply's id names, as `chunks[id - 1]` |
| Rerank.GetTopChunks | backend/app/services/report.py:545-579 | as written: the chunks are the de-duplicated ones with only scores changed; each pick is the updated chunk at its position; at most `top` picks |
| Rerank.Select | backend/app/services/report.py:572-578 | the picks are the updated chunks named by the writes, in write order |
| RerankFacts.SentItemsNumbering | backend/app/services/report.py:363-384 | every chunk is sent exactly once, in order; as written chunk `k` is sent as `k % 50 + 1`, and with advancing starts as `k + 1` |
| RerankFacts.IdsRepeatAfterFifty | backend/app/services/report.py:369-377 | as written, with more than 50 chunks, chunks 0 and 50 are both sent as id 1 |
| RerankFacts.OneWaveSame | backend/app/services/report.py:369-384 | with at most five batches there is one wave, so the fixed start and the advancing start give the same replies |
| RerankFacts.OrderSameWhenSmall | backend/app/services/report.py:330-391 | with at most 50 chunks, ranking as written equals ranking with advancing ids |
| RerankFacts.GetTopSameWhenSmall | backend/app/services/report.py:545-579 | with at most 50 distinct chunks, `get_top_chunks` as written equals the corrected one |
| RerankFacts.AdvancingIdsUnique | backend/app/services/report.py:369-384 | with advancing starts, chunk `k` is sent as id `k + 1` |
| RerankHonest.ScoreChunksFaithful | backend/app/services/report.py:363-384 | under an LLM that answers each item with its judged score, the collected replies are one per chunk, in chunk order |
| RerankHonest.OrderFaithful | backend/app/services/report.py:386-391 | under that LLM sorting cannot fail, and it permutes the per-chunk replies |
| RerankHonest.HonestTopChunks | backend/app/services/report.py:545-579 | with advancing ids and that LLM: `min(top, n)` picks, each chunk at most once, each with its own score, in non-increasing order; every unpicked chunk is untouched and scores no higher |
| RerankHonest.HonestTopChunksAsWritten | backend/app/services/report.py:545-579 | as written, with at most 50 distinct chunks and that LLM, the same guarantees as `HonestTopChunks` hold |
| RerankHonest.LateChunksNeverPicked | backend/app/services/report.py:545-579 | as written, under that LLM, no chunk at position 50 or later is ever picked or rescored |
| RerankIds.ScoreWavesIds | backend/app/services/report.py:370-384 | under an LLM that returns exactly the ids it is sent, in any order and with any scores, every wave succeeds and the collected replies carry exactly the ids sent |
| RerankIds.OrderIds | backend/app/services/report.py:363-391 | under that LLM, with advancing ids, the sorted replies carry the ids `1..n`, each once, and the score field |
| RerankIds.IdSelect | backend/app/services/report.py:572-578 | sorted replies with distinct ids in range pick distinct chunks, each with its reply's score, in non-increasing order, and leave every other chunk as it was |
| RerankIds.IdsTopChunks | backend/app/services/report.py:545-579 | under that LLM, with advancing ids: `min(top, n)` distinct picks, changed only in score, in non-increasing score order; unpicked chunks untouched |
| RerankIds.IdsTopChunksAsWritten | backend/app/services/report.py:545-579 | under that LLM, as written, with at most 50 distinct chunks: the same guarantees, so the output has no repeated chunk |
| RerankHonest.SelectDistinct | backend/app/services/report.py:572-578 | writes to distinct chunks give each named chunk its score and leave the rest unchanged |
| RerankHonest.LastScoreDistinct | backend/app/services/report.py:574-576 | with no repeated target, every written score is the one that stays |
| Research.QueryChunks | backend/app/services/report.py:412-543 | one chunk per distinct `(content, source)` of the hits, with the query, type tag and report id; each chunk is built from one hit |
| Research.RunRagQuery | backend/app/services/report.py:153-168 | an internal-index error, or a result that fails to map, gives `[]`; otherwise the mapped results |
| Research.RunFileQuery | backend/app/services/report.py:183-194 | a file-search error gives `[]` |
| Research.RunWebSearchQuery | backend/app/services/report.py:412-441 | it fails iff the web search fails; chunks are de-duplicated, of type WEB, with `source = url` and content in all three text fields |
| Research.RunInternalSearchQuery | backend/app/services/report.py:443-480 | it never fails; chunks are INTERNAL, with the vector score and the highlights as captions |
| Research.RunCustomFileQuery | backend/app/services/report.py:482-511 | it never fails; chunks are FILE, with the document's source and page content |
| Research.RunUrlSearchQuery | backend/app/services/report.py:513-543 | it fails iff the URL search fails; chunks are URL, with `source = url` and the highlight as content |
| Research.Collect | backend/app/services/report.py:636-642 | it fails iff a query fails; otherwise the result is what each query returned, concatenated in query order; a chunk is in the result iff some query returned it |
| Research.FanOut | backend/app/services/report.py:619-648 | a query error comes first, then a `section_info` error; at most `top_total` chunks, each drawn from the collected chunks |
| Research.CollectSize | backend/app/services/report.py:636-642 | when each query returns at most `m` chunks, the collected list has at most `queries * m` |
| Research.FanOutHonest | backend/app/services/report.py:619-648 | when the collected list holds at most 50 chunks and the LLM answers with its judged scores, the fan-out returns the honestly ranked top chunks of the de-duplicated collection |
| Research.FanOutShaped | backend/app/services/report.py:619-648 | the chunks kept after reranking have the type and fields of their search |
| Research.Effective | backend/app/services/report.py:619-624 | a key given in `config` overrides its default; a missing key keeps it (`top_total` 5, `top_each_query` 5, `number_of_queries` 3) |
| Research.QueriesOr | backend/app/services/report.py:626-635 | non-empty given queries are used as they are; `None` and `[]` are replaced by the generated ones, so an empty query list only comes from the generator |
| Research.SectionOf | backend/app/services/report.py:702 | reading `config['section_info']` raises `KeyError` iff the key is absent (the same read recurs at lines 759, 815 and 872) |
| Research.RunWebSearch | backend/app/services/report.py:599-648 | with the configured sizes, the result is the query writer's error, or the fan-out of the web runner over the queries, reranked without a section; at most `top_total` WEB chunks |
| Research.RunWebSearchForSection | backend/app/services/report.py:650-705 | the fan-out of the web runner over the queries written for the section, with the configured sizes and `section_info`; at most `top_total` WEB chunks, and only when `section_info` is present |
| Research.RunInternalSearch | backend/app/services/report.py:708-762 | the fan-out of the internal runner over the queries, with 3 generated queries, 5 chunks per query and 5 in all, whatever the configuration; a missing `section_info` raises `KeyError` once the queries exist |
| Research.InternalSearchHonest | backend/app/services/report.py:708-762 | under an LLM that answers with its judged scores, with at most 50 chunks collected, the internal search returns the honestly ranked top 5 of what its queries brought back, whatever the configuration |
| Research.RunCustomFileSearch | backend/app/services/report.py:764-818 | the fan-out of the file runner over the queries, with the configured sizes; at most `top_total` FILE chunks; a missing `section_info` raises `KeyError` once the queries exist |
| Research.RunUrlSearch | backend/app/services/report.py:820-875 | the fan-out of the URL runner over the queries, answered from the given urls with the configured sizes; at most `top_total` URL chunks, and only when `section_info` is present |
| Research.Enumerate | backend/app/services/report.py:1066-1083 | a task is indexed iff it is present, and every index points at its task |
| Research.ResearchPlan | backend/app/services/report.py:1066-1083 | the tasks are internal, web, then file only with files and url only with urls; internal is at 0 and web at 1 |
| Research.RunTasks | backend/app/services/report.py:1086 | the gather succeeds iff every task does, with results in task order |
| Research.ReportUrls | backend/app/services/report.py:1039 | a missing additional information raises `TypeError`; every url is whitespace-free with a URL prefix |
| Research.ResearchResults | backend/app/services/report.py:1016-1085 | the plan is the one for the files and urls found; every planned task's result is what its search returned, with the shared queries and an empty section; a query-writer error is passed on; a file search iff there are files; a url search iff urls were found |
| Research.InitiateResearch | backend/app/services/report.py:1016-1109 | it succeeds iff the searches do; each list is its search's chunks converted in order, and empty for a search that did not run; internal holds at most 5 and web at most `top_total`; every response has its list's type tag |
| Research.RespondKinds | backend/app/services/report.py:1093-1103 | every response in each list carries that list's type tag |
| Research.RespondLists | backend/app/services/report.py:1093-1103 | each list of the response is the converted results at its task's index, and empty when the task is absent |
| Research.ShapedResponses | backend/app/routers/report/schema.py:37-44 | shaped chunks always validate as `ChunkResponseModel`, one response each, with their type tag |
| Research.SectionTask | backend/app/services/report.py:1140-1200 | internal, file and url run the same searches as in `initiate_research`; web is the fan-out over queries written for the section; each yields chunks of its own type, at most 5 |
| Research.SectionCandidates | backend/app/services/report.py:1140-1203 | every planned search succeeded, and the candidates are their results joined in task order; at most 20, each shaped as one search's type |
| Research.GenerateSectionChunks | backend/app/services/report.py:1140-1205 | it succeeds iff the searches do; the result is the 5 top-scored candidates, highest first |
| Research.CustomQueryChunks | backend/app/services/report.py:581-591 | internal and file never fail; web fails iff its search does; url needs additional information and a working URL search; the chunks have distinct keys |
| Research.RunCustomQuery | backend/app/services/report.py:581-597 | it succeeds iff search and reranking do; it returns the search's chunks, one for one, in order, as the reranking updated them |
| Research.CustomQueryScores | backend/app/services/report.py:583-597 | under an LLM that returns the ids it was sent, with at most 50 chunks found, the result is the search's list with each pick at its position and every other chunk unchanged |
| Synthesis.Store | backend/app/services/report.py:996-1005 | the update stores every input chunk id in order, the raw content with its markers, and the extracted citations; nothing else changes |
| Synthesis.FirstSuccessFrom | backend/app/services/report.py:956-1014 | the first successful attempt within the limit, or none when all attempts fail |
| Synthesis.AsWrittenFrom | backend/app/services/report.py:956-1014 | as written, a call returns a report iff its own attempt succeeds or it is the last retry |
| Synthesis.AsWritten | backend/app/services/report.py:956-1014 | as written, the top-level call returns a report iff the first attempt succeeds |
| Synthesis.AsWrittenState | backend/app/services/report.py:956-1014 | whatever is returned, the stored report is the first successful attempt's, or unchanged |
| Synthesis.AtMostSixAttempts | backend/app/services/report.py:1008-1014 | only attempts 0 to 5 affect the outcome |
| Synthesis.StoredButNotReturned | backend/app/services/report.py:1008-1014 | as written, a failed first attempt followed by a success stores the report but returns `None` |
| Synthesis.CitationsNotChecked | backend/app/services/report.py:998-1005 | citations are stored even when they name no input chunk |
| Synthesis.GenerateReport | backend/app/services/report.py:956-1014 | the corrected retry returns the report of the first successful attempt, or the unchanged report; it agrees with the state the code as written leaves |
| Reports.NewReport | backend/app/database/agent/report/model.py:31-37 | a new report has no content, and empty citations and chunk ids |
| ReportSchema.ValidateReportContent | backend/app/routers/report/schema.py:16-21 | `None` and `""` pass unchanged; other content is replaced by its extracted content, which is stripped and no longer |
| ReportSchema.ValidateCitedClaim | backend/app/routers/report/schema.py:16-21 | a stored cited claim is read back without its marker |
| ReportSchema.ToReportResponse | backend/app/routers/report/schema.py:7-21 | validation fails iff there is no tenant; citations are exposed exactly as stored |
| ReportSchema.CitationsIndependentOfContent | backend/app/routers/report/schema.py:10-21 | the exposed citations do not depend on the content |
| ReportSchema.DefaultGenerateReportRequest | backend/app/routers/report/schema.py:23-25 | `auto_select` defaults to true and `chunk_ids` to `[]` |
| ReportSchema.ToChunkResponse | backend/app/routers/report/schema.py:37-44 | a chunk validates iff captions, source and content are present |
| ReportSchema.ToChunkResponses | backend/app/routers/report/schema.py:37-44 | a list validates iff each chunk does, one response each |
| ReportSchema.EmptyResearchResponse | backend/app/routers/report/schema.py:46-50 | all four lists default to empty |
| FileUtil.Basename | backend/app/utils/file.py:22 | `os.path.basename` is the suffix after the last `/` |
| FileUtil.BasenameOfJoin | backend/app/utils/file.py:57-65 | the basename of `dir/ + name` (the path built at line 22) is `name` |
| FileUtil.Extension | backend/app/utils/file.py:44 | the extension is empty or a `.`-led suffix without `/` |
| FileUtil.ExtensionOfPlainName | backend/app/utils/file.py:44 | `name.ext` has the extension `.ext` |
| FileUtil.SelectLoaderAsWritten | backend/app/utils/file.py:43-53 | as written: `.txt`, `.pdf`, `.docx` and `.pptx` select their loaders, and nothing else selects one |
| FileUtil.DocUploadLoadsNothing | backend/app/utils/file.py:49-53 | as written, a `.doc` file loads nothing |
| FileUtil.SelectLoader | backend/app/utils/file.py:43-53 | corrected: `.doc` also selects the Word loader |
| FileUtil.SelectLoaderCorrection | backend/app/utils/file.py:49 | the correction changes only `.doc` files |
| FileUtil.ReplaceSourceToFilename | backend/app/utils/file.py:15-24 | same count and order; each source becomes its basename and each content loses its NULs |
| FileUtil.ReplaceSourceIdempotent | backend/app/utils/file.py:15-24 | post-processing twice is post-processing once |
| FileUtil.LoadFileAsDocuments | backend/app/utils/file.py:43-53 | an unknown extension gives `[]`; otherwise one document per loaded one |
| FileUtil.SavedFilePath | backend/app/utils/file.py:57-65 | the saved path is prefix, then path, then file name |
| FileUtil.SavedSourceIsFileName | backend/app/utils/file.py:57-65 | a document loaded from a saved upload gets the uploaded file's name as its source (the file is saved by lines 12-24) |
| ChatSchema.ValidateContent | backend/app/websockets/chat/schema.py:12-16 | content is accepted unchanged iff it has at most 300 characters; otherwise a validation error |
| ChatSchema.NewQAMessage | backend/app/websockets/chat/schema.py:7-16 | a message validates iff its content fits; `files` defaults to `None` |
| ChatSchema.NewQARequest | backend/app/websockets/chat/schema.py:28-31 | `data` and `config` default to `None` |
| ChatSchema.NewQAChatRequest | backend/app/routers/chat/schema.py:5-13 | a chat request validates iff its content fits |
| Chat.ChatPath | backend/app/services/chat.py:92-97 | the index and file paths are `/chat/{type}/{session_id}/` |
| Chat.ChatPathInjective | backend/app/services/chat.py:92-97 | chat types without `/` and different sessions never share a path |
| Chat.IndexCheckPath | backend/app/services/chat.py:47 | the checked path is `./static/faiss-indexes` followed by the index path |
| Chat.AgentStore | backend/app/services/chat.py:47-58 | the agent gets the session index iff the checked path exists |
| Chat.Route | backend/app/services/chat.py:247-256 | a tool output is appended, in order, to the one list its tool name selects; other tools change nothing |
| Chat.FirstMatch | backend/app/services/chat.py:169-172 | the first object whose uuid is the id, or none when none has it |
| Chat.Resolve | backend/app/services/chat.py:167-241 | an id resolves iff some collected object has it; web wins over internal, over file, over url; the first match in its list is saved with that list's type, the session id and no report id |
| Chat.ResolveAll | backend/app/services/chat.py:167-241 | one chunk per cited id that resolves, ids that match nothing skipped; distinct ids give chunks with distinct uuids |
| Chat.SaveCitations | backend/app/services/chat.py:162-241 | at most one chunk per cited id, each for a cited id, each with the session id |
| Chat.Step | backend/app/services/chat.py:152-256 | one event only extends what was saved and collected; a tool output adds its objects to the lists, a chain end saves only chunks its answer cites, with the session id; other events save nothing |
| Chat.Stream | backend/app/services/chat.py:147-256 | from empty lists, the collected lists hold exactly as many objects as the tool outputs carried, and every saved chunk has the session id |
| Chat.StreamGrows | backend/app/services/chat.py:147-256 | later events never change what earlier events saved or collected |
| Chat.CitationBeforeToolIsSkipped | backend/app/services/chat.py:147-256 | an answer citing an id before its tool output arrives saves nothing; after it, the chunk is saved |

## Left out

- I/O: database writes (`add_chunk`, `add_message`, report updates), files, Langfuse tracing and logging are not modelled. The values they would persist are the model's results.
- The LLM prompts, `json.loads` of the replies, and the query-writing calls are oracle parameters returning `Result`. Their texts are not modelled.
- Embedding and upload (`embed_uploaded_file(s)`) and the loaders' parsing are left out: they are calls into libraries whose code is not part of this model.
- `chat_with_report`, `generate_template`, `generate_section` and `generate_report_v2` are left out: they are LLM calls with no deterministic logic of their own.
- Scores are integers, not floats: the code only compares and copies them.
- `len` counts code points, and a Dafny `char` is a Unicode scalar value, so the 300-character contracts hold for all text. Strings are not normalised.
- `UUID(...)` parsing of ids is not modelled: ids are strings, and a malformed id would raise where the model succeeds.
- The order of `list(set(...))` is unspecified in Python. The model lists citations in first-occurrence order, and no contract depends on that order.
- `self.chunks.extend(...)` and the mutable default `config: dict = {}` shared between calls are not modelled: each call gets its configuration as a value.
- The member values of `ToolNameEnum` and `QARequestTypeEnum` are not part of this model. Tool outputs are told apart by a constructor per tool.
- The message that replaces the chain-end event (`QAAgentStreamingEvent`) and the stream's yields are left out: they forward data and decide nothing.
- StringUtil.ExtractUrlsWord: completeness is stated for the first url, and for a sole url (`ExtractUrlsSole`); later matches in a text are covered only by the soundness contracts of `ExtractUrlSpans`.
- Outcomes.Gather: the error reported is that of the first failed task in list order. `asyncio.gather` raises the first exception in time, which depends on scheduling. No contract of the model depends on which error is chosen.

## Findings

| source | as written | input that shows it | evidently intended | confidence | as-written member | corrected member |
|---|---|---|---|---|---|---|
| backend/app/utils/file.py:49 | `ext == "doc"`: `splitext` returns `.doc`, so a Word `.doc` file matches nothing | `report.doc` → `[]` | `ext == ".doc"` loads it with the Word loader | high, not executed | FileUtil.DocUploadLoadsNothing | FileUtil.SelectLoader |
| backend/app/services/report.py:369 | `start_index` is never advanced, so every wave numbers its chunks from 1 again | 51 chunks: chunks 0 and 50 are both sent as id 1; chunk 50 can never be picked | `start_index += 50` after each wave, so ids are positions | high, not executed | RerankHonest.LateChunksNeverPicked | RerankHonest.HonestTopChunks |
| backend/app/services/report.py:1012 | the retry's result is not returned, so the caller gets `None` | attempt 0 raises, attempt 1 succeeds: the report is stored but `None` is returned | `return await self.generate_report_from_chunks(chunks, retrying + 1)` | high, not executed | Synthesis.StoredButNotReturned | Synthesis.GenerateReport |

=== FILE: azure_search.dfy ===
/** The result cleaning of the Azure AI Search retriever
    (backend/app/utils/vector_retriever/azureaisearch.py): the text sanitiser
    `__clean_result_content__` and the mapping of raw search documents to
    `AzureAISearchResponse` records done by `run`.

    The search call itself is outside the model: its raw documents are an
    input. Python's `unicode_escape` codec is an input too, as a partial
    function (`None` where the codec raises).
 */
module AzureSearch {
  import opened Outcomes
  import opened Text

  const Esc: char := '\U{1b}'
  const Backslash: char := '\\'

  // ---------------------------------------------------------------------------
  // Step 1: re.sub(r'\x1b\[[0-9;]*[a-zA-Z]', '', text)
  // ---------------------------------------------------------------------------

  predicate IsCsiParam(c: char) {
    IsAsciiDigit(c) || c == ';'
  }

  /** End of the `[0-9;]*` run starting at `p`. */
  function ParamEnd(t: string, p: nat): (q: nat)
    requires p <= |t|
    ensures p <= q <= |t|
    ensures forall k :: p <= k < q ==> IsCsiParam(t[k])
    ensures q == |t| || !IsCsiParam(t[q])
    decreases |t| - p
  {
    if p < |t| && IsCsiParam(t[p]) then ParamEnd(t, p + 1) else p
  }

  /** Length of the escape sequence the pattern matches at the start of `t`,
      if any. The greedy `[0-9;]*` cannot give characters back usefully: a
      digit or `;` is never a letter. */
  function CsiLength(t: string): (n: Option<nat>)
    ensures n.Some? ==> 3 <= n.value <= |t| && t[0] == Esc && t[1] == '['
  {
    if |t| >= 2 && t[0] == Esc && t[1] == '[' then
      var q := ParamEnd(t, 2);
      if q < |t| && IsAsciiLetter(t[q]) then Some(q + 1) else None
    else None
  }

  /** Escape sequences removed in one left-to-right pass. */
  function RemoveAnsi(t: string): (r: string)
    ensures |r| <= |t|
    ensures forall k :: 0 <= k < |r| ==> r[k] in t
    decreases |t|
  {
    if |t| == 0 then []
    else match CsiLength(t)
      case Some(n) => RemoveAnsi(t[n..])
      case None => [t[0]] + RemoveAnsi(t[1..])
  }

  /** Text without ESC has no escape sequence to remove. */
  lemma {:induction false} RemoveAnsiNoEsc(t: string)
    requires Esc !in t
    ensures RemoveAnsi(t) == t
    decreases |t|
  {
    if |t| > 0 {
      assert t[0] != Esc;
      assert Esc !in t[1..];
      RemoveAnsiNoEsc(t[1..]);
    }
  }

  /** A character that does not start an escape sequence is kept, and the
      pass goes on right after it. */
  lemma RemoveAnsiKeeps(c: char, t: string)
    requires CsiLength([c] + t).None?
    ensures RemoveAnsi([c] + t) == [c] + RemoveAnsi(t)
  {
    assert ([c] + t)[1..] == t;
  }

  /** A complete sequence at the front disappears and nothing else does. */
  lemma RemoveAnsiSequence(params: string, final: char, rest: string)
    requires forall k :: 0 <= k < |params| ==> IsCsiParam(params[k])
    requires IsAsciiLetter(final)
    ensures RemoveAnsi([Esc, '['] + params + [final] + rest) == RemoveAnsi(rest)
  {
    var t := [Esc, '['] + params + [final] + rest;
    ParamRun(t, params);
    assert t[|params| + 2] == final;
    assert t[|params| + 3..] == rest;
  }

  lemma ParamRun(t: string, params: string)
    requires |t| >= |params| + 3
    requires t[2..|params| + 2] == params
    requires forall k :: 0 <= k < |params| ==> IsCsiParam(params[k])
    requires !IsCsiParam(t[|params| + 2])
    ensures ParamEnd(t, 2) == |params| + 2
  {
    ParamRunFrom(t, params, 0);
  }

  lemma {:induction false} ParamRunFrom(t: string, params: string, i: nat)
    requires |t| >= |params| + 3 && i <= |params|
    requires t[2..|params| + 2] == params
    requires forall k :: 0 <= k < |params| ==> IsCsiParam(params[k])
    requires !IsCsiParam(t[|params| + 2])
    ensures ParamEnd(t, 2 + i) == |params| + 2
    decreases |params| - i
  {
    if i < |params| {
      assert t[2 + i] == params[i];
      ParamRunFrom(t, params, i + 1);
    }
  }

  // ---------------------------------------------------------------------------
  // Step 2: re.sub(r'\s+', ' ', text)
  // ---------------------------------------------------------------------------

  /** End of the whitespace run starting at `p`. */
  function SpaceEnd(t: string, p: nat): (q: nat)
    requires p <= |t|
    ensures p <= q <= |t|
    ensures q == |t| || !IsSpace(t[q])
    decreases |t| - p
  {
    if p < |t| && IsSpace(t[p]) then SpaceEnd(t, p + 1) else p
  }

  /** Whitespace only as single `' '` characters. */
  predicate SingleSpaced(r: string) {
    && (forall k :: 0 <= k < |r| ==> IsSpace(r[k]) ==> r[k] == ' ')
    && (forall k :: 0 <= k < |r| - 1 ==> !(r[k] == ' ' && r[k + 1] == ' '))
  }

  /** Every whitespace run replaced by one space. */
  function CollapseSpaces(t: string): (r: string)
    ensures SingleSpaced(r)
    ensures |r| > 0 && r[0] == ' ' ==> |t| > 0 && IsSpace(t[0])
    ensures |r| <= |t|
    decreases |t|
  {
    if |t| == 0 then []
    else if IsSpace(t[0]) then
      var q := SpaceEnd(t, 0);
      var rest := CollapseSpaces(t[q..]);
      assert q == |t| || !IsSpace(t[q..][0]);
      [' '] + rest
    else [t[0]] + CollapseSpaces(t[1..])
  }

  /** A non-whitespace character is kept as it is. */
  lemma CollapseKeeps(c: char, t: string)
    requires !IsSpace(c)
    ensures CollapseSpaces([c] + t) == [c] + CollapseSpaces(t)
  {
    assert ([c] + t)[1..] == t;
  }

  /** A whole whitespace run becomes exactly one `' '`, and collapsing goes on
      with what follows the run. */
  lemma CollapseRun(w: string, t: string)
    requires |w| > 0 && AllSpace(w)
    requires |t| == 0 || !IsSpace(t[0])
    ensures CollapseSpaces(w + t) == [' '] + CollapseSpaces(t)
  {
    SpaceRunFrom(w, t, 0);
    assert (w + t)[0] == w[0];
    assert (w + t)[|w|..] == t;
  }

  lemma {:induction false} SpaceRunFrom(w: string, t: string, i: nat)
    requires i <= |w| && AllSpace(w)
    requires |t| == 0 || !IsSpace(t[0])
    ensures SpaceEnd(w + t, i) == |w|
    decreases |w| - i
  {
    if i < |w| {
      assert (w + t)[i] == w[i];
      SpaceRunFrom(w, t, i + 1);
    } else if |t| > 0 {
      assert (w + t)[i] == t[0];
    }
  }

  /** Collapsing is idempotent: collapsed text has nothing left to collapse. */
  lemma {:induction false} CollapseSingleSpaced(t: string)
    requires SingleSpaced(t)
    ensures CollapseSpaces(t) == t
    decreases |t|
  {
    if |t| > 0 {
      if IsSpace(t[0]) {
        assert t[0] == ' ';
        assert SpaceEnd(t, 0) == 1 by {
          assert |t| == 1 || !IsSpace(t[1]);
          assert SpaceEnd(t, 1) == 1;
        }
      }
      CollapseSingleSpaced(t[1..]);
    }
  }

  lemma CollapseIdempotent(t: string)
    ensures CollapseSpaces(CollapseSpaces(t)) == CollapseSpaces(t)
  {
    CollapseSingleSpaced(CollapseSpaces(t));
  }

  // ---------------------------------------------------------------------------
  // The whole sanitiser
  // ---------------------------------------------------------------------------

  /** `bytes.decode('unicode_escape')` applied to the UTF-8 encoding of its
      argument: `None` where Python raises `UnicodeDecodeError`. */
  type EscapeDecoder = string -> Option<string>

  /** What the codec is known to do on text it has nothing to decode in:
      printable ASCII without a backslash comes back unchanged. */
  ghost predicate KeepsPlainAscii(decode: EscapeDecoder) {
    forall s: string :: PlainAscii(s) ==> decode(s) == Some(s)
  }

  predicate Printable(c: char) {
    ' ' <= c <= '~'
  }

  predicate PlainAscii(s: string) {
    forall k :: 0 <= k < |s| ==> Printable(s[k]) && s[k] != Backslash
  }

  /** `AzureAISearchVectorRetriever.__clean_result_content__`: escape
      sequences removed, whitespace runs collapsed, escapes decoded (which
      may fail), non-ASCII dropped, then backslashes and NULs removed. */
  function CleanResultContent(text: string, decode: EscapeDecoder): (r: Option<string>)
    ensures r.None? <==> decode(CollapseSpaces(RemoveAnsi(text))).None?
    ensures r.Some? ==> forall k :: 0 <= k < |r.value| ==> IsAscii(r.value[k])
    ensures r.Some? ==> Backslash !in r.value && '\0' !in r.value
  {
    match decode(CollapseSpaces(RemoveAnsi(text)))
    case None => None
    case Some(decoded) =>
      var ascii := KeepAscii(decoded);
      var noBackslash := RemoveChar(ascii, Backslash);
      var r := RemoveChar(noBackslash, '\0');
      assert forall k :: 0 <= k < |r| ==> r[k] in noBackslash && r[k] in ascii;
      Some(r)
  }

  /** Text that is already clean (printable ASCII, no backslash, whitespace
      only as single spaces) passes through unchanged. */
  lemma CleanPlainUnchanged(text: string, decode: EscapeDecoder)
    requires KeepsPlainAscii(decode)
    requires PlainAscii(text) && SingleSpaced(text)
    ensures CleanResultContent(text, decode) == Some(text)
  {
    assert Esc !in text by {
      assert forall k :: 0 <= k < |text| ==> Printable(text[k]);
    }
    RemoveAnsiNoEsc(text);
    CollapseSingleSpaced(text);
    assert decode(text) == Some(text);
    assert forall k :: 0 <= k < |text| ==> IsAscii(text[k]);
    assert Backslash !in text;
    RemoveCharAbsent(text, Backslash);
    assert '\0' !in text by {
      assert forall k :: 0 <= k < |text| ==> Printable(text[k]);
    }
    RemoveCharAbsent(text, '\0');
  }

  // ---------------------------------------------------------------------------
  // run: raw search documents to AzureAISearchResponse
  // ---------------------------------------------------------------------------

  /** One raw search document: `FilePath`, `Content`, the texts of
      `@search.captions`, and `@search.reranker_score`. */
  datatype RawDocument = RawDocument(filePath: string, content: string, captions: seq<string>, rerankerScore: int)

  /** `AzureAISearchResponse` */
  datatype SearchResponse = SearchResponse(score: int, source: string, content: string, highlights: string)

  /** One raw document to a response: both texts cleaned; the first caption
      is the highlight (an `IndexError` when there is none). */
  function ToResponse(d: RawDocument, decode: EscapeDecoder): (r: Result<SearchResponse>)
    ensures r.Ok? <==> CleanResultContent(d.content, decode).Some? && |d.captions| > 0
                       && CleanResultContent(d.captions[0], decode).Some?
    ensures r.Ok? ==> r.value.source == d.filePath && r.value.score == d.rerankerScore
    ensures r.Ok? ==> r.value.content == CleanResultContent(d.content, decode).value
    ensures r.Ok? ==> r.value.highlights == CleanResultContent(d.captions[0], decode).value
  {
    match CleanResultContent(d.content, decode)
    case None => Err(DecodeError)
    case Some(content) =>
      if |d.captions| == 0 then Err(IndexError)
      else match CleanResultContent(d.captions[0], decode)
        case None => Err(DecodeError)
        case Some(highlights) => Ok(SearchResponse(d.rerankerScore, d.filePath, content, highlights))
  }

  /** The list comprehension of `run`: every document mapped in order; any
      failing document makes the whole call raise. */
  function MapResults(docs: seq<RawDocument>, decode: EscapeDecoder): (r: Result<seq<SearchResponse>>)
    ensures r.Ok? <==> forall i :: 0 <= i < |docs| ==> ToResponse(docs[i], decode).Ok?
    ensures r.Ok? ==> |r.value| == |docs|
    ensures r.Ok? ==> forall i :: 0 <= i < |docs| ==> r.value[i] == ToResponse(docs[i], decode).value
  {
    var rs := seq(|docs|, i requires 0 <= i < |docs| => ToResponse(docs[i], decode));
    assert forall i :: 0 <= i < |docs| ==> rs[i] == ToResponse(docs[i], decode);
    Gather(rs)
  }
}

=== FILE: chat.dfy ===
/** The chat service (backend/app/services/chat.py): where a session's index
    and files live, and how the QA stream turns the tool outputs it has seen
    into saved chunks for the ids the final answer cites.

    The agent's stream is an input: a sequence of events, each a finished
    tool call with its output, the end of the chain with the answer text, or
    anything else.
 */
module Chat {
  import opened Outcomes
  import opened Chunks
  import StringUtil

  // ---------------------------------------------------------------------------
  // Paths
  // ---------------------------------------------------------------------------

  /** The directory the existence check of the session index looks under. */
  const IndexRoot: string := "./static/faiss-indexes"

  /** `__get_index_path__` and `__get_file_path__`, which build the same path:
      `/chat/{type}/{session_id}/`. */
  function ChatPath(sessionId: string, kind: string): (p: string)
    ensures |p| == |kind| + |sessionId| + 8
    ensures p[..6] == "/chat/" && p[6..6 + |kind|] == kind && p[6 + |kind|] == '/'
    ensures p[7 + |kind|..|p| - 1] == sessionId && p[|p| - 1] == '/'
  {
    "/chat/" + kind + "/" + sessionId + "/"
  }

  /** The path whose existence decides whether the agent gets the session's
      vector store. */
  function IndexCheckPath(sessionId: string, kind: string): (p: string)
    ensures |p| == |IndexRoot| + |ChatPath(sessionId, kind)|
    ensures p[..|IndexRoot|] == IndexRoot && p[|IndexRoot|..] == ChatPath(sessionId, kind)
  {
    IndexRoot + ChatPath(sessionId, kind)
  }

  /** The vector store handed to the QA agent: the session's index, read from
      `ChatPath`, when `onDisk` reports its `IndexCheckPath`; none otherwise.
      The file system is the `onDisk` parameter. */
  function AgentStore(sessionId: string, kind: string, onDisk: string -> bool): (r: Option<string>)
    ensures r.Some? <==> onDisk(IndexCheckPath(sessionId, kind))
    ensures r.Some? ==> IndexCheckPath(sessionId, kind) == IndexRoot + r.value
  {
    if onDisk(IndexCheckPath(sessionId, kind)) then Some(ChatPath(sessionId, kind)) else None
  }

  /** Different sessions (or chat types without `/`) never share a path. */
  lemma ChatPathInjective(s1: string, k1: string, s2: string, k2: string)
    requires '/' !in k1 && '/' !in k2
    requires ChatPath(s1, k1) == ChatPath(s2, k2)
    ensures s1 == s2 && k1 == k2
  {
  }

  // ---------------------------------------------------------------------------
  // Tool outputs
  // ---------------------------------------------------------------------------

  /** One object of the Tavily tool's output. */
  datatype WebObject = WebObject(uuid: string, query: string, url: string, content: string)

  /** One object of the Azure AI Search tool's output. */
  datatype InternalObject = InternalObject(uuid: string, query: string, score: int, source: string,
                                           content: string, highlights: string)

  /** One object of the FAISS tool's output (`metadata['source']`, `page_content`). */
  datatype FileObject = FileObject(uuid: string, query: string, source: string, pageContent: string)

  /** One object of the Exa tool's output. */
  datatype UrlObject = UrlObject(uuid: string, query: string, url: string, highlight: string)

  /** A `TOOL_END` output, read according to the tool's name. */
  datatype ToolOutput =
    | TavilyOutput(webObjects: seq<WebObject>)
    | AzureOutput(internalObjects: seq<InternalObject>)
    | FaissOutput(fileObjects: seq<FileObject>)
    | ExaOutput(urlObjects: seq<UrlObject>)
    | OtherTool(name: string)

  datatype Event = ChainEnd(output: string) | ToolEnd(tool: ToolOutput) | OtherEvent

  /** The four lists the stream collects tool outputs into. */
  datatype Collected = Collected(web: seq<WebObject>, internal: seq<InternalObject>,
                                 file: seq<FileObject>, url: seq<UrlObject>)

  function Size(c: Collected): nat {
    |c.web| + |c.internal| + |c.file| + |c.url|
  }

  function OutputSize(t: ToolOutput): nat {
    match t
    case TavilyOutput(os) => |os|
    case AzureOutput(os) => |os|
    case FaissOutput(os) => |os|
    case ExaOutput(os) => |os|
    case OtherTool(_) => 0
  }

  /** A `TOOL_END` event: the output is appended, in order, to the one list
      its tool's name selects; other tools change nothing. */
  function Route(c: Collected, t: ToolOutput): (r: Collected)
    ensures Size(r) == Size(c) + OutputSize(t)
    ensures c.web <= r.web && c.internal <= r.internal && c.file <= r.file && c.url <= r.url
    ensures r.web != c.web ==> t.TavilyOutput?
    ensures r.internal != c.internal ==> t.AzureOutput?
    ensures r.file != c.file ==> t.FaissOutput?
    ensures r.url != c.url ==> t.ExaOutput?
  {
    match t
    case TavilyOutput(os) => c.(web := c.web + os)
    case AzureOutput(os) => c.(internal := c.internal + os)
    case FaissOutput(os) => c.(file := c.file + os)
    case ExaOutput(os) => c.(url := c.url + os)
    case OtherTool(_) => c
  }

  // ---------------------------------------------------------------------------
  // Resolving a cited id
  // ---------------------------------------------------------------------------

  /** The position of the first element whose uuid is `id`. */
  function FirstMatch<T>(xs: seq<T>, uuid: T -> string, id: string): (r: Option<nat>)
    ensures r.None? <==> forall j :: 0 <= j < |xs| ==> uuid(xs[j]) != id
    ensures r.Some? ==> r.value < |xs| && uuid(xs[r.value]) == id
                        && forall j :: 0 <= j < r.value ==> uuid(xs[j]) != id
  {
    if |xs| == 0 then None
    else if uuid(xs[0]) == id then Some(0)
    else match FirstMatch(xs[1..], uuid, id)
      case None => None
      case Some(i) => Some(i + 1)
  }

  function WebUuid(o: WebObject): string { o.uuid }
  function InternalUuid(o: InternalObject): string { o.uuid }
  function FileUuid(o: FileObject): string { o.uuid }
  function UrlUuid(o: UrlObject): string { o.uuid }

  /** The `ChunkModel` saved for a web object. */
  function WebChunk(o: WebObject, session: string): Chunk {
    Chunk(o.uuid, Web, o.query, 0, 0, Some(o.url), Some(o.content), Some(o.content), Some(o.content), None, Some(session))
  }

  /** The `ChunkModel` saved for an internal object. */
  function InternalChunk(o: InternalObject, session: string): Chunk {
    Chunk(o.uuid, Internal, o.query, 0, o.score, Some(o.source), Some(o.content), Some(o.highlights), Some(o.highlights),
          None, Some(session))
  }

  /** The `ChunkModel` saved for a file object. */
  function FileChunk(o: FileObject, session: string): Chunk {
    Chunk(o.uuid, File, o.query, 0, 0, Some(o.source), Some(o.pageContent), Some(o.pageContent), Some(o.pageContent),
          None, Some(session))
  }

  /** The `ChunkModel` saved for a url object. */
  function UrlChunk(o: UrlObject, session: string): Chunk {
    Chunk(o.uuid, Url, o.query, 0, 0, Some(o.url), Some(o.highlight), Some(o.highlight), Some(o.highlight), None, Some(session))
  }

  /** `id` is the uuid of some object of the list. */
  ghost predicate Names<T>(xs: seq<T>, uuid: T -> string, id: string) {
    exists j :: 0 <= j < |xs| && uuid(xs[j]) == id
  }

  /** `i` is the first position of the list holding `id`. */
  ghost predicate FirstAt<T>(xs: seq<T>, uuid: T -> string, id: string, i: nat) {
    i < |xs| && uuid(xs[i]) == id && forall j :: 0 <= j < i ==> uuid(xs[j]) != id
  }

  /** The four searches over the lists for one cited id: web first, then
      internal, file and url; the first object with that uuid is saved, with
      the type of its list and the session's id. */
  function Resolve(c: Collected, id: string, session: string): (r: Option<Chunk>)
    ensures r.None? <==> !Names(c.web, WebUuid, id) && !Names(c.internal, InternalUuid, id)
                         && !Names(c.file, FileUuid, id) && !Names(c.url, UrlUuid, id)
    ensures r.Some? ==> r.value.uuid == id && r.value.sessionId == Some(session) && r.value.reportId.None?
    ensures Names(c.web, WebUuid, id) ==>
              exists i: nat :: FirstAt(c.web, WebUuid, id, i) && r == Some(WebChunk(c.web[i], session))
    ensures !Names(c.web, WebUuid, id) && Names(c.internal, InternalUuid, id) ==>
              exists i: nat :: FirstAt(c.internal, InternalUuid, id, i) && r == Some(InternalChunk(c.internal[i], session))
    ensures !Names(c.web, WebUuid, id) && !Names(c.internal, InternalUuid, id) && Names(c.file, FileUuid, id) ==>
              exists i: nat :: FirstAt(c.file, FileUuid, id, i) && r == Some(FileChunk(c.file[i], session))
    ensures !Names(c.web, WebUuid, id) && !Names(c.internal, InternalUuid, id) && !Names(c.file, FileUuid, id)
            && Names(c.url, UrlUuid, id) ==>
              exists i: nat :: FirstAt(c.url, UrlUuid, id, i) && r == Some(UrlChunk(c.url[i], session))
  {
    match FirstMatch(c.web, WebUuid, id)
    case Some(i) => Some(WebChunk(c.web[i], session))
    case None =>
      match FirstMatch(c.internal, InternalUuid, id)
      case Some(i) => Some(InternalChunk(c.internal[i], session))
      case None =>
        match FirstMatch(c.file, FileUuid, id)
        case Some(i) => Some(FileChunk(c.file[i], session))
        case None =>
          match FirstMatch(c.url, UrlUuid, id)
          case Some(i) => Some(UrlChunk(c.url[i], session))
          case None => None
  }

  /** The loop over the cited ids: one saved chunk per id that resolves, in
      id order; ids nothing resolves are skipped. */
  function ResolveAll(c: Collected, ids: seq<string>, session: string): (saved: seq<Chunk>)
    ensures |saved| <= |ids|
    ensures forall k :: 0 <= k < |saved| ==> saved[k].uuid in ids && Resolve(c, saved[k].uuid, session) == Some(saved[k])
    ensures forall id :: id in ids && Resolve(c, id, session).Some? ==> Resolve(c, id, session).value in saved
    ensures NoDup(ids) ==> forall k, l :: 0 <= k < l < |saved| ==> saved[k].uuid != saved[l].uuid
  {
    if |ids| == 0 then []
    else
      var rest := ResolveAll(c, ids[1..], session);
      var res := id => Resolve(c, id, session);
      ConsResolved(ids, res, rest);
      match Resolve(c, ids[0], session)
      case None => rest
      case Some(chunk) => [chunk] + rest
  }

  /** The step of `ResolveAll`, for any resolver that keeps the id it was
      asked for: the head id's chunk, when it resolves, goes in front of what
      the other ids saved. */
  lemma ConsResolved(ids: seq<string>, res: string -> Option<Chunk>, rest: seq<Chunk>)
    requires |ids| > 0
    requires res(ids[0]).Some? ==> res(ids[0]).value.uuid == ids[0]
    requires |rest| <= |ids| - 1
    requires forall k :: 0 <= k < |rest| ==> rest[k].uuid in ids[1..] && res(rest[k].uuid) == Some(rest[k])
    requires forall id :: id in ids[1..] && res(id).Some? ==> res(id).value in rest
    requires NoDup(ids[1..]) ==> forall k, l :: 0 <= k < l < |rest| ==> rest[k].uuid != rest[l].uuid
    ensures var saved := if res(ids[0]).Some? then [res(ids[0]).value] + rest else rest;
            && |saved| <= |ids|
            && (forall k :: 0 <= k < |saved| ==> saved[k].uuid in ids && res(saved[k].uuid) == Some(saved[k]))
            && (forall id :: id in ids && res(id).Some? ==> res(id).value in saved)
            && (NoDup(ids) ==> forall k, l :: 0 <= k < l < |saved| ==> saved[k].uuid != saved[l].uuid)
  {
    var saved := if res(ids[0]).Some? then [res(ids[0]).value] + rest else rest;
    ConsSavedResolved(ids, res, rest, saved);
    ConsSavedCovers(ids, res, rest, saved);
    if NoDup(ids) {
      NoDupTail(ids);
      ConsSavedDistinct(ids, res, rest, saved);
    }
  }

  lemma ConsSavedResolved(ids: seq<string>, res: string -> Option<Chunk>, rest: seq<Chunk>, saved: seq<Chunk>)
    requires |ids| > 0
    requires res(ids[0]).Some? ==> res(ids[0]).value.uuid == ids[0]
    requires forall k :: 0 <= k < |rest| ==> rest[k].uuid in ids[1..] && res(rest[k].uuid) == Some(rest[k])
    requires saved == if res(ids[0]).Some? then [res(ids[0]).value] + rest else rest
    ensures forall k :: 0 <= k < |saved| ==> saved[k].uuid in ids && res(saved[k].uuid) == Some(saved[k])
  {
    var tail := ids[1..];
    assert ids == [ids[0]] + tail;
    forall k | 0 <= k < |saved|
      ensures saved[k].uuid in ids && res(saved[k].uuid) == Some(saved[k])
    {
      if res(ids[0]).Some? && k == 0 {
        assert saved[k] == res(ids[0]).value;
      } else {
        var j := if res(ids[0]).Some? then k - 1 else k;
        assert saved[k] == rest[j];
        assert rest[j].uuid in tail;
      }
    }
  }

  lemma ConsSavedCovers(ids: seq<string>, res: string -> Option<Chunk>, rest: seq<Chunk>, saved: seq<Chunk>)
    requires |ids| > 0
    requires forall id :: id in ids[1..] && res(id).Some? ==> res(id).value in rest
    requires saved == if res(ids[0]).Some? then [res(ids[0]).value] + rest else rest
    ensures forall id :: id in ids && res(id).Some? ==> res(id).value in saved
  {
    var tail := ids[1..];
    assert ids == [ids[0]] + tail;
    forall id | id in ids && res(id).Some?
      ensures res(id).value in saved
    {
      if id != ids[0] {
        assert id in tail;
      }
    }
  }

  lemma NoDupTail(ids: seq<string>)
    requires |ids| > 0 && NoDup(ids)
    ensures ids[0] !in ids[1..] && NoDup(ids[1..])
  {
    var tail := ids[1..];
    forall i, j | 0 <= i < j < |tail| ensures tail[i] != tail[j] {
      assert tail[i] == ids[i + 1] && tail[j] == ids[j + 1];
    }
    forall i | 0 <= i < |tail| ensures tail[i] != ids[0] {
      assert tail[i] == ids[i + 1];
    }
  }

  lemma ConsSavedDistinct(ids: seq<string>, res: string -> Option<Chunk>, rest: seq<Chunk>, saved: seq<Chunk>)
    requires |ids| > 0 && ids[0] !in ids[1..]
    requires res(ids[0]).Some? ==> res(ids[0]).value.uuid == ids[0]
    requires forall k :: 0 <= k < |rest| ==> rest[k].uuid in ids[1..]
    requires forall k, l :: 0 <= k < l < |rest| ==> rest[k].uuid != rest[l].uuid
    requires saved == if res(ids[0]).Some? then [res(ids[0]).value] + rest else rest
    ensures forall k, l :: 0 <= k < l < |saved| ==> saved[k].uuid != saved[l].uuid
  {
    forall k, l | 0 <= k < l < |saved|
      ensures saved[k].uuid != saved[l].uuid
    {
      if res(ids[0]).Some? {
        if k == 0 {
          assert saved[l] == rest[l - 1];
          assert rest[l - 1].uuid in ids[1..];
        } else {
          assert saved[k] == rest[k - 1] && saved[l] == rest[l - 1];
        }
      }
    }
  }

  /** A `CHAIN_END` event: the chunks saved for the ids the answer cites. */
  function SaveCitations(c: Collected, output: string, session: string): (saved: seq<Chunk>)
    ensures forall k, l :: 0 <= k < l < |saved| ==> saved[k].uuid != saved[l].uuid
    ensures forall k :: 0 <= k < |saved| ==> saved[k].uuid in StringUtil.ExtractChunksAndContent(output).citations
    ensures forall k :: 0 <= k < |saved| ==> saved[k].sessionId == Some(session)
  {
    ResolveAll(c, StringUtil.ExtractChunksAndContent(output).citations, session)
  }

  // ---------------------------------------------------------------------------
  // The stream
  // ---------------------------------------------------------------------------

  /** What the stream has collected and saved so far. */
  datatype StreamState = StreamState(collected: Collected, saved: seq<Chunk>)

  /** The chunks a stream has saved all carry its session id. */
  predicate SessionSaved(saved: seq<Chunk>, session: string) {
    forall k :: 0 <= k < |saved| ==> saved[k].sessionId == Some(session)
  }

  /** How many objects the tool outputs among `events` carry. */
  function ToolTotal(events: seq<Event>): nat
    decreases |events|
  {
    if |events| == 0 then 0
    else
      var e := events[|events| - 1];
      ToolTotal(events[..|events| - 1]) + (if e.ToolEnd? then OutputSize(e.tool) else 0)
  }

  /** One event: a tool output is routed into the collected lists, a chain
      end saves the chunks its answer cites, anything else changes nothing. */
  function Step(s: StreamState, e: Event, session: string): (r: StreamState)
    ensures s.saved <= r.saved
    ensures s.collected.web <= r.collected.web && s.collected.internal <= r.collected.internal
    ensures s.collected.file <= r.collected.file && s.collected.url <= r.collected.url
    ensures Size(r.collected) == Size(s.collected) + (if e.ToolEnd? then OutputSize(e.tool) else 0)
    ensures !e.ChainEnd? ==> r.saved == s.saved
    ensures e.ChainEnd? ==> forall k :: |s.saved| <= k < |r.saved| ==>
              r.saved[k].sessionId == Some(session)
              && r.saved[k].uuid in StringUtil.ExtractChunksAndContent(e.output).citations
  {
    match e
    case ChainEnd(output) => s.(saved := s.saved + SaveCitations(s.collected, output, session))
    case ToolEnd(t) => s.(collected := Route(s.collected, t))
    case OtherEvent => s
  }

  /** The `async for` over the agent's events, from empty lists. */
  function Stream(events: seq<Event>, session: string): (r: StreamState)
    ensures Size(r.collected) == ToolTotal(events)
    ensures SessionSaved(r.saved, session)
    decreases |events|
  {
    if |events| == 0 then StreamState(Collected([], [], [], []), [])
    else Step(Stream(events[..|events| - 1], session), events[|events| - 1], session)
  }

  lemma StreamSnoc(events: seq<Event>, e: Event, session: string)
    ensures Stream(events + [e], session) == Step(Stream(events, session), e, session)
  {
    assert (events + [e])[..|events|] == events;
  }

  /** One event only adds to what has been collected and saved. */
  lemma StepGrows(s: StreamState, e: Event, session: string)
    ensures s.saved <= Step(s, e, session).saved
    ensures s.collected.web <= Step(s, e, session).collected.web
    ensures s.collected.internal <= Step(s, e, session).collected.internal
    ensures s.collected.file <= Step(s, e, session).collected.file
    ensures s.collected.url <= Step(s, e, session).collected.url
  {
  }

  /** Events only ever add to what has been collected and saved: nothing a
      later event does changes what an earlier chain end saved. */
  lemma {:induction false} StreamGrows(a: seq<Event>, b: seq<Event>, session: string)
    ensures Stream(a, session).saved <= Stream(a + b, session).saved
    ensures Stream(a, session).collected.web <= Stream(a + b, session).collected.web
    ensures Stream(a, session).collected.internal <= Stream(a + b, session).collected.internal
    ensures Stream(a, session).collected.file <= Stream(a + b, session).collected.file
    ensures Stream(a, session).collected.url <= Stream(a + b, session).collected.url
    decreases |b|
  {
    if |b| > 0 {
      var init := b[..|b| - 1];
      StreamGrows(a, init, session);
      assert a + b == (a + init) + [b[|b| - 1]];
      StreamSnoc(a + init, b[|b| - 1], session);
      StepGrows(Stream(a + init, session), b[|b| - 1], session);
    } else {
      assert a + b == a;
    }
  }

  /** A chain end resolves its ids against the tool outputs before it only:
      an answer citing `id` before any tool has produced `id` saves nothing,
      whatever comes after. */
  lemma CitationBeforeToolIsSkipped(claim: string, id: string, o: WebObject, session: string)
    requires '<' !in claim && '<' !in id && '\n' !in id && o.uuid == id
    ensures Stream([ChainEnd(claim + StringUtil.Open + id + StringUtil.Close), ToolEnd(TavilyOutput([o]))], session).saved == []
    ensures Stream([ToolEnd(TavilyOutput([o])), ChainEnd(claim + StringUtil.Open + id + StringUtil.Close)], session).saved
            == [WebChunk(o, session)]
  {
    var answer := claim + StringUtil.Open + id + StringUtil.Close;
    CitedOnce(claim, id);
    var empty := StreamState(Collected([], [], [], []), []);
    var tool := ToolEnd(TavilyOutput([o]));
    var c := Collected([o], [], [], []);
    assert Stream([], session) == empty;
    StreamSnoc([], ChainEnd(answer), session);
    StreamSnoc([], tool, session);
    assert Resolve(empty.collected, id, session).None?;
    assert ResolveAll(empty.collected, [id], session) == [];
    StreamSnoc([ChainEnd(answer)], tool, session);
    assert [ChainEnd(answer)] + [tool] == [ChainEnd(answer), tool];
    assert FirstAt(c.web, WebUuid, id, 0);
    assert ResolveAll(c, [id], session) == [WebChunk(o, session)];
    StreamSnoc([tool], ChainEnd(answer), session);
    assert [tool] + [ChainEnd(answer)] == [tool, ChainEnd(answer)];
  }

  lemma CitedOnce(claim: string, id: string)
    requires '<' !in claim && '<' !in id && '\n' !in id
    ensures StringUtil.ExtractChunksAndContent(claim + StringUtil.Open + id + StringUtil.Close).citations == [id]
  {
    StringUtil.ExtractSingleCitation(claim, id, "");
    assert claim + StringUtil.Open + id + StringUtil.Close + "" == claim + StringUtil.Open + id + StringUtil.Close;
  }
}

=== FILE: chat_schema.dfy ===
/** The chat request shapes (backend/app/websockets/chat/schema.py and
    backend/app/routers/chat/schema.py): both validate the chat content with
    the same 300-character limit.
 */
module ChatSchema {
  import opened Outcomes

  /** The longest accepted content, in characters. */
  const MaxContentLength: nat := 300

  /** `content_length`: content longer than the limit is rejected, anything
      else is returned as it is. */
  function ValidateContent(v: string): (r: Result<string>)
    ensures r.Ok? <==> |v| <= MaxContentLength
    ensures r.Ok? ==> r.value == v
    ensures r.Err? ==> r.error.ValidationError?
  {
    if |v| > MaxContentLength then Err(ValidationError("content length cannot exceed 300 characters"))
    else Ok(v)
  }

  /** `QAMessageSchema` */
  datatype QAMessage = QAMessage(content: string, files: Option<seq<string>>, tenantId: string)

  /** `QAMessageSchema(content=..., tenant_id=...)`: validated content, no files. */
  function NewQAMessage(content: string, tenantId: string): (r: Result<QAMessage>)
    ensures r.Ok? <==> |content| <= MaxContentLength
    ensures r.Ok? ==> r.value.content == content && r.value.files.None? && r.value.tenantId == tenantId
  {
    var v :- ValidateContent(content);
    Ok(QAMessage(v, None, tenantId))
  }

  /** `QARequestTypeEnum`; its members are not part of this model. */
  type QARequestType = string

  /** `QARequestSchema`: the configuration dict is kept as text keys and values. */
  datatype QARequest = QARequest(kind: QARequestType, data: Option<QAMessage>, config: Option<map<string, string>>)

  /** `QARequestSchema(type=...)`: no message and no configuration. */
  function NewQARequest(kind: QARequestType): (r: QARequest)
    ensures r.kind == kind && r.data.None? && r.config.None?
  {
    QARequest(kind, None, None)
  }

  /** `QAChatRequestModel` */
  datatype QAChatRequest = QAChatRequest(content: string, tenantId: string)

  /** `QAChatRequestModel(content=..., tenant_id=...)` */
  function NewQAChatRequest(content: string, tenantId: string): (r: Result<QAChatRequest>)
    ensures r.Ok? <==> |content| <= MaxContentLength
    ensures r.Ok? ==> r.value.content == content && r.value.tenantId == tenantId
  {
    var v :- ValidateContent(content);
    Ok(QAChatRequest(v, tenantId))
  }
}

=== FILE: chunks.dfy ===
/** Research chunks (backend/app/database/agent/chunk/model.py) and the
    order-preserving removal of repeated chunks done by
    `ReportFlowService.__remove_multiple_chunks__`
    (backend/app/services/report.py).
 */
module Chunks {
  import opened Outcomes

  /** `ChunkTypeEnum` */
  datatype ChunkType = Internal | Web | File | Url

  /** The value stored in a chunk's `type` column. */
  function TypeTag(t: ChunkType): (tag: string)
    ensures |tag| >= 3
  {
    match t
    case Internal => "INTERNAL"
    case Web => "WEB"
    case File => "FILE"
    case Url => "URL"
  }

  /** `ChunkTypeEnum(value)`: the member with that value, if any. */
  function ParseChunkType(tag: string): (t: Option<ChunkType>)
    ensures t.Some? ==> TypeTag(t.value) == tag
  {
    if tag == "INTERNAL" then Some(Internal)
    else if tag == "WEB" then Some(Web)
    else if tag == "FILE" then Some(File)
    else if tag == "URL" then Some(Url)
    else None
  }

  /** Every type's tag parses back to it, so no two types share a tag. */
  lemma ParseTypeTag(t: ChunkType)
    ensures ParseChunkType(TypeTag(t)) == Some(t)
  {
  }

  /** `ChunkModel`. Scores are the model's stand-in for Python floats; the
      `uuid` is the value the row is created with. */
  datatype Chunk = Chunk(
    uuid: string,
    kind: ChunkType,
    query: string,
    llmScore: int,
    vectorScore: int,
    source: Option<string>,
    content: Option<string>,
    captionsText: Option<string>,
    captionsHighlights: Option<string>,
    reportId: Option<string>,
    sessionId: Option<string>)

  /** A chunk built with only its required fields given: both scores take the
      column default 0, every optional text field is `None`. */
  function NewChunk(uuid: string, kind: ChunkType, query: string): (c: Chunk)
    ensures c.llmScore == 0 && c.vectorScore == 0
    ensures c.source.None? && c.content.None? && c.captionsText.None? && c.captionsHighlights.None?
    ensures c.reportId.None? && c.sessionId.None?
    ensures c.uuid == uuid && c.kind == kind && c.query == query
  {
    Chunk(uuid, kind, query, 0, 0, None, None, None, None, None, None)
  }

  // ---------------------------------------------------------------------------
  // Keys
  // ---------------------------------------------------------------------------

  /** Two chunks are repeats of each other when content and source agree. */
  type ChunkKey = (Option<string>, Option<string>)

  function Key(c: Chunk): ChunkKey {
    (c.content, c.source)
  }

  /** The keys occurring in `cs`. */
  function KeySet(cs: seq<Chunk>): set<ChunkKey> {
    set i | 0 <= i < |cs| :: Key(cs[i])
  }

  predicate NoDupKeys(cs: seq<Chunk>) {
    forall i, j :: 0 <= i < j < |cs| ==> Key(cs[i]) != Key(cs[j])
  }

  /** No chunk before position `i` has the key of the chunk at `i`. */
  predicate IsFirst(cs: seq<Chunk>, i: nat)
    requires i < |cs|
  {
    forall j :: 0 <= j < i ==> Key(cs[j]) != Key(cs[i])
  }

  /** The positions below `n` that hold the first chunk of their key, ascending. */
  function FirstPositionsBelow(cs: seq<Chunk>, n: nat): (ps: seq<nat>)
    requires n <= |cs|
    ensures |ps| <= n
    ensures forall t :: 0 <= t < |ps| ==> ps[t] < n
    ensures forall t, u :: 0 <= t < u < |ps| ==> ps[t] < ps[u]
    ensures forall i :: 0 <= i < n ==> (i in ps <==> IsFirst(cs, i))
  {
    if n == 0 then []
    else FirstPositionsBelow(cs, n - 1) + (if IsFirst(cs, n - 1) then [n - 1] else [])
  }

  function FirstPositions(cs: seq<Chunk>): seq<nat> {
    FirstPositionsBelow(cs, |cs|)
  }

  /** The chunks at the given positions, in the given order. */
  function Pick(cs: seq<Chunk>, ps: seq<nat>): (r: seq<Chunk>)
    requires forall t :: 0 <= t < |ps| ==> ps[t] < |cs|
  {
    seq(|ps|, t requires 0 <= t < |ps| => cs[ps[t]])
  }

  // ---------------------------------------------------------------------------
  // __remove_multiple_chunks__
  // ---------------------------------------------------------------------------

  /** The loop of `__remove_multiple_chunks__`, with `seen` the keys met so far. */
  function DedupFrom(cs: seq<Chunk>, seen: set<ChunkKey>): seq<Chunk>
  {
    if |cs| == 0 then []
    else if Key(cs[0]) in seen then DedupFrom(cs[1..], seen)
    else [cs[0]] + DedupFrom(cs[1..], seen + {Key(cs[0])})
  }

  /** `__remove_multiple_chunks__`: exactly the chunks at first-occurrence
      positions (no earlier chunk with the same content and source), in input
      order; so no key repeats and every input key survives. */
  function Dedup(cs: seq<Chunk>): (r: seq<Chunk>)
    ensures r == Pick(cs, FirstPositions(cs))
    ensures |r| <= |cs|
    ensures NoDupKeys(r)
    ensures KeySet(r) == KeySet(cs)
  {
    DedupPicksFirsts(cs, |cs|);
    assert cs[..|cs|] == cs;
    PickFirstsNoDup(cs);
    PickFirstsCoverKeys(cs);
    DedupFrom(cs, {})
  }

  lemma {:induction false} KeySetCons(cs: seq<Chunk>)
    requires |cs| > 0
    ensures KeySet(cs) == {Key(cs[0])} + KeySet(cs[1..])
  {
    forall k | k in KeySet(cs) ensures k in {Key(cs[0])} + KeySet(cs[1..]) {
      var i :| 0 <= i < |cs| && Key(cs[i]) == k;
      if i > 0 {
        assert cs[1..][i - 1] == cs[i];
      }
    }
    forall k | k in KeySet(cs[1..]) ensures k in KeySet(cs) {
      var i :| 0 <= i < |cs[1..]| && Key(cs[1..][i]) == k;
      assert cs[1..][i] == cs[i + 1];
    }
  }

  lemma {:induction false} DedupFromSnoc(a: seq<Chunk>, x: Chunk, seen: set<ChunkKey>)
    ensures DedupFrom(a + [x], seen)
         == DedupFrom(a, seen) + (if Key(x) in seen + KeySet(a) then [] else [x])
    decreases |a|
  {
    if |a| == 0 {
      assert a + [x] == [x];
      assert [x][1..] == [];
    } else {
      assert (a + [x])[0] == a[0];
      assert (a + [x])[1..] == a[1..] + [x];
      KeySetCons(a);
      if Key(a[0]) in seen {
        DedupFromSnoc(a[1..], x, seen);
      } else {
        DedupFromSnoc(a[1..], x, seen + {Key(a[0])});
      }
    }
  }

  /** The loop over the first `n` chunks keeps the chunks at the first
      positions below `n`. */
  lemma {:induction false} DedupPicksFirsts(cs: seq<Chunk>, n: nat)
    requires n <= |cs|
    ensures DedupFrom(cs[..n], {}) == Pick(cs, FirstPositionsBelow(cs, n))
  {
    if n > 0 {
      var p := cs[..n - 1];
      var x := cs[n - 1];
      assert cs[..n] == p + [x];
      DedupFromSnoc(p, x, {});
      DedupPicksFirsts(cs, n - 1);
      SeenIffNotFirst(cs, n - 1);
      var ps := FirstPositionsBelow(cs, n - 1);
      var tail: seq<nat> := if IsFirst(cs, n - 1) then [n - 1] else [];
      PickAppend(cs, ps, tail);
      assert Pick(cs, tail) == if IsFirst(cs, n - 1) then [x] else [];
    }
  }

  /** A chunk's key was met before it exactly when it is not the first of its key. */
  lemma SeenIffNotFirst(cs: seq<Chunk>, i: nat)
    requires i < |cs|
    ensures Key(cs[i]) in {} + KeySet(cs[..i]) <==> !IsFirst(cs, i)
  {
    if !IsFirst(cs, i) {
      var j :| 0 <= j < i && Key(cs[j]) == Key(cs[i]);
      assert cs[..i][j] == cs[j];
    }
  }

  lemma PickAppend(cs: seq<Chunk>, ps: seq<nat>, qs: seq<nat>)
    requires forall t :: 0 <= t < |ps| ==> ps[t] < |cs|
    requires forall t :: 0 <= t < |qs| ==> qs[t] < |cs|
    ensures Pick(cs, ps + qs) == Pick(cs, ps) + Pick(cs, qs)
  {
  }

  lemma PickFirstsNoDup(cs: seq<Chunk>)
    ensures NoDupKeys(Pick(cs, FirstPositions(cs)))
  {
    var ps := FirstPositions(cs);
    var r := Pick(cs, ps);
    forall t, u | 0 <= t < u < |r| ensures Key(r[t]) != Key(r[u]) {
      assert ps[u] in ps;
      assert IsFirst(cs, ps[u]);
    }
  }

  /** Every chunk has a first occurrence of its key at or before it. */
  lemma {:induction false} HasFirst(cs: seq<Chunk>, i: nat)
    requires i < |cs|
    ensures exists j :: 0 <= j <= i && IsFirst(cs, j) && Key(cs[j]) == Key(cs[i])
    decreases i
  {
    if !IsFirst(cs, i) {
      var j :| 0 <= j < i && Key(cs[j]) == Key(cs[i]);
      HasFirst(cs, j);
    }
  }

  lemma PickFirstsCoverKeys(cs: seq<Chunk>)
    ensures KeySet(Pick(cs, FirstPositions(cs))) == KeySet(cs)
  {
    var ps := FirstPositions(cs);
    var r := Pick(cs, ps);
    forall k | k in KeySet(cs) ensures k in KeySet(r) {
      var i :| 0 <= i < |cs| && Key(cs[i]) == k;
      HasFirst(cs, i);
      var j :| 0 <= j <= i && IsFirst(cs, j) && Key(cs[j]) == k;
      assert j in ps;
      var t :| 0 <= t < |ps| && ps[t] == j;
      assert r[t] == cs[j];
    }
  }

  /** Removing repeats from a list that has none changes nothing. */
  lemma DedupNoDupIdentity(cs: seq<Chunk>)
    requires NoDupKeys(cs)
    ensures Dedup(cs) == cs
  {
    AllFirstPositions(cs, |cs|);
    assert forall t :: 0 <= t < |cs| ==> Dedup(cs)[t] == cs[FirstPositions(cs)[t]];
  }

  lemma {:induction false} AllFirstPositions(cs: seq<Chunk>, n: nat)
    requires NoDupKeys(cs) && n <= |cs|
    ensures FirstPositionsBelow(cs, n) == seq(n, t => t)
  {
    if n > 0 {
      AllFirstPositions(cs, n - 1);
      assert IsFirst(cs, n - 1);
    }
  }

  /** Removing repeats twice is the same as once. */
  lemma DedupIdempotent(cs: seq<Chunk>)
    ensures Dedup(Dedup(cs)) == Dedup(cs)
  {
    DedupNoDupIdentity(Dedup(cs));
  }

  /** Of two chunks with the same key only the first survives. */
  lemma DedupDropsRepeat(a: Chunk, b: Chunk)
    requires Key(a) == Key(b)
    ensures Dedup([a, b]) == [a]
  {
    var cs := [a, b];
    assert Key(cs[0]) == Key(cs[1]);
    assert !IsFirst(cs, 1);
    assert FirstPositions([a, b]) == [0] by {
      assert FirstPositionsBelow([a, b], 1) == [0];
    }
  }
}

=== FILE: file_util.dfy ===
/** Upload handling of `FileUtil` (backend/app/utils/file.py): where an
    uploaded file is stored, which loader its extension selects, and the
    post-processing of the loaded documents.

    Reading and writing files and the document loaders themselves are outside
    the model; a loader is an input mapping the chosen loader kind to the
    documents it would produce.
 */
module FileUtil {
  import opened Outcomes
  import opened Text
  import StringUtil

  /** The `path_prefix` a `FileUtil()` is built with. */
  const DefaultPrefix: string := "./static/files"

  /** A LangChain `Document`: its text and `metadata['source']`. */
  datatype Document = Document(pageContent: string, source: string)

  // ---------------------------------------------------------------------------
  // os.path on POSIX paths
  // ---------------------------------------------------------------------------

  /** Index just past the last `c` in `s`, or 0 when there is none. */
  function AfterLast(s: string, c: char): (i: nat)
    ensures i <= |s|
    ensures i > 0 ==> s[i - 1] == c
    ensures forall k :: i <= k < |s| ==> s[k] != c
  {
    if |s| == 0 then 0
    else if s[|s| - 1] == c then |s|
    else AfterLast(s[..|s| - 1], c)
  }

  /** `os.path.basename`: everything after the last `/`. */
  function Basename(path: string): (r: string)
    ensures '/' !in r
    ensures |r| <= |path| && r == path[|path| - |r|..]
    ensures |r| < |path| ==> path[|path| - |r| - 1] == '/'
  {
    path[AfterLast(path, '/')..]
  }

  lemma BasenameIdempotent(path: string)
    ensures Basename(Basename(path)) == Basename(path)
  {
  }

  /** A path ending in a name without `/` has that name as its basename. */
  lemma BasenameOfJoin(dir: string, name: string)
    requires '/' !in name
    requires |dir| > 0 && dir[|dir| - 1] == '/'
    ensures Basename(dir + name) == name
  {
    AfterLastIs(dir + name, '/', |dir|);
  }

  /** Position of the extension's dot under `os.path.splitext`: the last `.`
      of the final path component, provided some character before it in that
      component is not a `.`; `|path|` when the path has no extension. */
  function ExtensionStart(path: string): (d: nat)
    ensures d <= |path|
    ensures d < |path| ==> path[d] == '.' && '/' !in path[d..]
  {
    var nameStart := AfterLast(path, '/');
    var dot := AfterLast(path, '.');
    if dot > nameStart && exists k :: nameStart <= k < dot - 1 && path[k] != '.' then
      assert forall k :: dot - 1 < k < |path| ==> path[k] != '/';
      dot - 1
    else |path|
  }

  /** `os.path.splitext(path)[1]`: empty, or a suffix of the path starting
      with `.` and containing no `/`. */
  function Extension(path: string): (ext: string)
    ensures ext == path[ExtensionStart(path)..]
    ensures |ext| == 0 || (ext[0] == '.' && '/' !in ext)
  {
    path[ExtensionStart(path)..]
  }

  /** The extension of `name.ext` is `.ext` when the name has no `/` or `.`, is
      not empty and the extension has no `.` or `/` either. */
  lemma ExtensionOfPlainName(dir: string, name: string, ext: string)
    requires |name| > 0 && '/' !in name && '.' !in name
    requires '/' !in ext && '.' !in ext
    ensures Extension(dir + name + "." + ext) == "." + ext
  {
    var p := dir + name + "." + ext;
    var dotAt := |dir| + |name|;
    assert p[dotAt] == '.';
    assert forall k :: dotAt < k < |p| ==> p[k] == ext[k - dotAt - 1];
    assert AfterLast(p, '.') == dotAt + 1 by {
      AfterLastIs(p, '.', dotAt + 1);
    }
    var nameStart := AfterLast(p, '/');
    assert nameStart <= |dir|;
    assert p[|dir|] == name[0] && p[|dir|] != '.';
  }

  lemma {:induction false} AfterLastIs(s: string, c: char, i: nat)
    requires 0 < i <= |s| && s[i - 1] == c
    requires forall k :: i <= k < |s| ==> s[k] != c
    ensures AfterLast(s, c) == i
    decreases |s|
  {
    if i < |s| {
      AfterLastIs(s[..|s| - 1], c, i);
    }
  }

  // ---------------------------------------------------------------------------
  // load_file_as_documents
  // ---------------------------------------------------------------------------

  datatype LoaderKind = TextLoader | PdfLoader | WordLoader | PowerPointLoader

  /** The branch `load_file_as_documents` takes, as written: the Word branch
      compares the extension with `"doc"`, which `splitext` never returns. */
  function SelectLoaderAsWritten(path: string): (l: Option<LoaderKind>)
    ensures l == Some(TextLoader) <==> Extension(path) == ".txt"
    ensures l == Some(PdfLoader) <==> Extension(path) == ".pdf"
    ensures l == Some(WordLoader) <==> Extension(path) == ".docx"
    ensures l == Some(PowerPointLoader) <==> Extension(path) == ".pptx"
  {
    var ext := Extension(path);
    if ext == ".txt" then Some(TextLoader)
    else if ext == ".pdf" then Some(PdfLoader)
    else if ext == ".docx" || ext == "doc" then Some(WordLoader)
    else if ext == ".pptx" then Some(PowerPointLoader)
    else None
  }

  /** The `"doc"` comparison can never succeed, so a `.doc` upload loads nothing. */
  lemma DocUploadLoadsNothing(dir: string, name: string)
    requires |name| > 0 && '/' !in name && '.' !in name
    ensures SelectLoaderAsWritten(dir + name + "." + "doc") == None
  {
    ExtensionOfPlainName(dir, name, "doc");
  }

  /** The evidently intended dispatch: `.doc` goes to the Word loader too. */
  function SelectLoader(path: string): (l: Option<LoaderKind>)
    ensures l == Some(TextLoader) <==> Extension(path) == ".txt"
    ensures l == Some(PdfLoader) <==> Extension(path) == ".pdf"
    ensures l == Some(WordLoader) <==> Extension(path) == ".docx" || Extension(path) == ".doc"
    ensures l == Some(PowerPointLoader) <==> Extension(path) == ".pptx"
    ensures l.None? <==> Extension(path) !in {".txt", ".pdf", ".docx", ".doc", ".pptx"}
  {
    var ext := Extension(path);
    if ext == ".txt" then Some(TextLoader)
    else if ext == ".pdf" then Some(PdfLoader)
    else if ext == ".docx" || ext == ".doc" then Some(WordLoader)
    else if ext == ".pptx" then Some(PowerPointLoader)
    else None
  }

  /** The two dispatches differ exactly on `.doc`. */
  lemma SelectLoaderCorrection(path: string)
    ensures Extension(path) != ".doc" ==> SelectLoader(path) == SelectLoaderAsWritten(path)
    ensures Extension(path) == ".doc" ==> SelectLoader(path) == Some(WordLoader) && SelectLoaderAsWritten(path) == None
  {
  }

  /** `__replace_source_to_filename__` on one document. */
  function ReplaceSourceOne(d: Document): (r: Document)
    ensures '/' !in r.source && '\0' !in r.pageContent
  {
    var cleaned := StringUtil.CleanseText(Some(d.pageContent));
    Document(cleaned.value, Basename(d.source))
  }

  /** `__replace_source_to_filename__`: every document keeps its place; its
      source becomes the file name and its text loses its NUL characters. */
  function ReplaceSourceToFilename(docs: seq<Document>): (r: seq<Document>)
    ensures |r| == |docs|
    ensures forall i :: 0 <= i < |r| ==> '/' !in r[i].source && '\0' !in r[i].pageContent
    ensures forall i :: 0 <= i < |r| ==>
              |r[i].source| <= |docs[i].source| && r[i].source == docs[i].source[|docs[i].source| - |r[i].source|..]
    ensures forall i :: 0 <= i < |r| ==>
              |r[i].source| < |docs[i].source| ==> docs[i].source[|docs[i].source| - |r[i].source| - 1] == '/'
    ensures forall i :: 0 <= i < |r| ==>
              |r[i].pageContent| == |docs[i].pageContent| - Count(docs[i].pageContent, '\0')
  {
    seq(|docs|, i requires 0 <= i < |docs| => ReplaceSourceOne(docs[i]))
  }

  /** Post-processing already processed documents changes nothing. */
  lemma ReplaceSourceIdempotent(docs: seq<Document>)
    ensures ReplaceSourceToFilename(ReplaceSourceToFilename(docs)) == ReplaceSourceToFilename(docs)
  {
    var once := ReplaceSourceToFilename(docs);
    forall i | 0 <= i < |once| ensures ReplaceSourceOne(once[i]) == once[i] {
      BasenameIdempotent(docs[i].source);
      StringUtil.CleanseTextIdempotent(Some(docs[i].pageContent));
    }
  }

  /** `load_file_as_documents`: the selected loader's documents, post-processed;
      an unsupported extension gives no documents. */
  function LoadFileAsDocuments(path: string, load: LoaderKind -> seq<Document>): (r: seq<Document>)
    ensures SelectLoaderAsWritten(path).None? ==> r == []
    ensures SelectLoaderAsWritten(path).Some? ==> |r| == |load(SelectLoaderAsWritten(path).value)|
  {
    match SelectLoaderAsWritten(path)
    case None => []
    case Some(kind) => ReplaceSourceToFilename(load(kind))
  }

  // ---------------------------------------------------------------------------
  // save_uploaded_file
  // ---------------------------------------------------------------------------

  /** `save_uploaded_file`: the file is written to, and the call returns,
      prefix + directory + file name. */
  function SavedFilePath(prefix: string, filePath: string, fileName: string): (p: string)
    ensures StartsWith(p, prefix)
    ensures |p| == |prefix| + |filePath| + |fileName|
    ensures p[|prefix|..|prefix| + |filePath|] == filePath && p[|prefix| + |filePath|..] == fileName
  {
    prefix + filePath + fileName
  }

  /** A document loaded from the saved file, whose loader reports the path it
      read as its source, ends up with the uploaded file's name as source. */
  lemma SavedSourceIsFileName(prefix: string, filePath: string, fileName: string, text: string)
    requires |filePath| > 0 && filePath[|filePath| - 1] == '/'
    requires '/' !in fileName
    ensures ReplaceSourceOne(Document(text, SavedFilePath(prefix, filePath, fileName))).source == fileName
  {
    assert prefix + filePath + fileName == (prefix + filePath) + fileName;
    BasenameOfJoin(prefix + filePath, fileName);
  }
}

=== FILE: outcomes.dfy ===
/** Failure-carrying values shared by every module of the model.

    Python signals failure with exceptions; the model returns them as values so
    that "this call raises" is something a contract can state.
 */
module Outcomes {

  /** An absent value: Python's `None`. */
  datatype Option<+T> = None | Some(value: T) {
    function GetOr(default: T): T {
      match this
      case Some(v) => v
      case None => default
    }
  }

  /** The exceptions the modelled code can raise or absorb. */
  datatype Error =
    | BackendError        // a search client or HTTP call raised
    | LlmError            // the LLM call, its JSON decoding or a missing reply key failed
    | KeyError(key: string)
    | IndexError          // a Python list index out of range
    | DecodeError         // the `unicode_escape` codec rejected its input
    | ValidationError(message: string)
    | TypeError           // an operation applied to `None`

  datatype Result<+T> = Ok(value: T) | Err(error: Error) {
    predicate IsFailure() { Err? }

    function PropagateFailure<U>(): Result<U>
      requires Err?
    {
      Err(error)
    }

    function Extract(): T
      requires Ok?
    {
      value
    }
  }

  /** `asyncio.gather` over already-computed task outcomes: the results in
      submission order, or the first failure. */
  function Gather<T>(rs: seq<Result<T>>): (r: Result<seq<T>>)
    ensures r.Ok? <==> forall i :: 0 <= i < |rs| ==> rs[i].Ok?
    ensures r.Ok? ==> |r.value| == |rs| && forall i :: 0 <= i < |rs| ==> r.value[i] == rs[i].value
  {
    if |rs| == 0 then Ok([])
    else match rs[0]
      case Err(e) => Err(e)
      case Ok(v) =>
        match Gather(rs[1..])
        case Err(e) => Err(e)
        case Ok(vs) => Ok([v] + vs)
  }

  /** No value occurs twice. */
  predicate NoDup<T(==)>(xs: seq<T>) {
    forall i, j :: 0 <= i < j < |xs| ==> xs[i] != xs[j]
  }

  /** What each call returned, in call order (`[]` for a failed call). */
  function Returned<A, B>(xs: seq<A>, f: A -> Result<seq<B>>): (rs: seq<seq<B>>)
    ensures |rs| == |xs|
  {
    seq(|xs|, i requires 0 <= i < |xs| => if f(xs[i]).Ok? then f(xs[i]).value else [])
  }

  /** Concatenation of a list of lists, in order (`for r in results: xs.extend(r)`). */
  function Flatten<T>(xss: seq<seq<T>>): (r: seq<T>)
  {
    if |xss| == 0 then [] else xss[0] + Flatten(xss[1..])
  }

  lemma {:induction false} FlattenAppend<T>(xss: seq<seq<T>>, ys: seq<T>)
    ensures Flatten(xss + [ys]) == Flatten(xss) + ys
  {
    if |xss| == 0 {
      assert xss + [ys] == [ys];
    } else {
      assert (xss + [ys])[1..] == xss[1..] + [ys];
      FlattenAppend(xss[1..], ys);
    }
  }

  /** Concatenating two lists of lists concatenates their concatenations. */
  lemma {:induction false} FlattenConcat<T>(xss: seq<seq<T>>, yss: seq<seq<T>>)
    ensures Flatten(xss + yss) == Flatten(xss) + Flatten(yss)
    decreases |xss|
  {
    if |xss| == 0 {
      assert xss + yss == yss;
    } else {
      assert (xss + yss)[1..] == xss[1..] + yss;
      FlattenConcat(xss[1..], yss);
    }
  }

  /** Total length of a list of lists. */
  function SumLengths<T>(xss: seq<seq<T>>): (n: nat)
  {
    if |xss| == 0 then 0 else SumLengths(xss[..|xss| - 1]) + |xss[|xss| - 1]|
  }

  /** The concatenation is exactly as long as all the lists together. */
  lemma {:induction false} FlattenSize<T>(xss: seq<seq<T>>)
    ensures |Flatten(xss)| == SumLengths(xss)
    decreases |xss|
  {
    if |xss| > 0 {
      var init := xss[..|xss| - 1];
      assert xss == init + [xss[|xss| - 1]];
      FlattenAppend(init, xss[|xss| - 1]);
      FlattenSize(init);
    }
  }

  lemma {:induction false} FlattenLength<T>(xss: seq<seq<T>>, bound: nat)
    requires forall i :: 0 <= i < |xss| ==> |xss[i]| <= bound
    ensures |Flatten(xss)| <= |xss| * bound
  {
    if |xss| > 0 {
      FlattenLength(xss[1..], bound);
    }
  }

  /** An element of the concatenation is an element of one of the lists. */
  lemma {:induction false} FlattenMember<T>(xss: seq<seq<T>>, x: T)
    ensures x in Flatten(xss) <==> exists i :: 0 <= i < |xss| && x in xss[i]
  {
    if |xss| > 0 {
      FlattenMember(xss[1..], x);
      if x in Flatten(xss[1..]) {
        var i :| 0 <= i < |xss[1..]| && x in xss[1..][i];
        assert x in xss[i + 1];
      }
      if exists i :: 0 <= i < |xss| && x in xss[i] {
        var i :| 0 <= i < |xss| && x in xss[i];
        if i > 0 {
          assert x in xss[1..][i - 1];
        }
      }
    }
  }
}

=== FILE: report_model.dfy ===
/** The report row (backend/app/database/agent/report/model.py). */
module Reports {
  import opened Outcomes

  /** `ReportModel`: the request texts, the generated content with its
      citation markers, the cited chunk ids and the ids of the chunks the
      content was generated from. */
  datatype Report = Report(
    uuid: string,
    tenantId: Option<string>,
    objective: Option<string>,
    audience: Option<string>,
    additionalInfo: Option<string>,
    content: Option<string>,
    citations: seq<string>,
    chunkIds: seq<string>)

  /** `ReportModel(**report_conf)`: nothing generated yet, both id lists empty. */
  function NewReport(uuid: string, tenantId: Option<string>, objective: Option<string>, audience: Option<string>,
                     additionalInfo: Option<string>): (r: Report)
    ensures r.content.None? && r.citations == [] && r.chunkIds == []
    ensures r.uuid == uuid && r.tenantId == tenantId
    ensures r.objective == objective && r.audience == audience && r.additionalInfo == additionalInfo
  {
    Report(uuid, tenantId, objective, audience, additionalInfo, None, [], [])
  }
}

=== FILE: report_schema.dfy ===
/** The report API's response and request shapes
    (backend/app/routers/report/schema.py): the validator that strips citation
    markers from a report's content when it is read, and the chunk response
    that requires the texts a stored chunk may lack.
 */
module ReportSchema {
  import opened Outcomes
  import opened Text
  import opened Chunks
  import opened Reports
  import StringUtil

  // ---------------------------------------------------------------------------
  // ReportResponseModel
  // ---------------------------------------------------------------------------

  /** `update_content_and_citations`: missing or empty content passes through;
      other content loses its markers and surrounding whitespace. */
  function ValidateReportContent(v: Option<string>): (r: Option<string>)
    ensures r.None? <==> v.None?
    ensures v == Some("") ==> r == Some("")
    ensures v.Some? && v.value != "" ==> r == Some(StringUtil.ExtractChunksAndContent(v.value).content)
    ensures r.Some? ==> |r.value| <= |v.value|
    ensures r.Some? && |r.value| > 0 ==> !IsSpace(r.value[0]) && !IsSpace(r.value[|r.value| - 1])
  {
    match v
    case None => None
    case Some(s) =>
      if s == "" then v
      else
        StringUtil.ExtractedContentTrimmed(s);
        Some(StringUtil.ExtractChunksAndContent(s).content)
  }

  /** Content without markers is only stripped. */
  lemma ValidateUnmarked(s: string)
    requires !Contains(s, StringUtil.Open)
    ensures ValidateReportContent(Some(s)) == Some(Strip(s))
  {
    if s != "" {
      StringUtil.ExtractWithoutMarkers(s);
    }
  }

  /** A cited claim reads back without its marker. */
  lemma ValidateCitedClaim(claim: string, id: string, tail: string)
    requires '<' !in claim && '<' !in tail && '<' !in id && '\n' !in id
    ensures ValidateReportContent(Some(claim + StringUtil.Open + id + StringUtil.Close + tail)) == Some(Strip(claim + tail))
  {
    StringUtil.ExtractSingleCitation(claim, id, tail);
  }

  datatype ReportResponse = ReportResponse(
    uuid: string,
    reportContent: Option<string>,
    reportCitations: Option<seq<string>>,
    audience: Option<string>,
    objective: Option<string>,
    additionalInfo: Option<string>,
    tenantId: string)

  /** `ReportResponseModel` built from a stored report: `tenant_id` is
      required; the content goes through the validator; the citations are
      exposed exactly as stored. */
  function ToReportResponse(report: Report): (r: Result<ReportResponse>)
    ensures r.Ok? <==> report.tenantId.Some?
    ensures r.Err? ==> r.error.ValidationError?
    ensures r.Ok? ==> r.value.reportCitations == Some(report.citations)
    ensures r.Ok? ==> r.value.reportContent == ValidateReportContent(report.content)
    ensures r.Ok? ==> r.value.uuid == report.uuid && r.value.tenantId == report.tenantId.value
  {
    match report.tenantId
    case None => Err(ValidationError("tenant_id"))
    case Some(tenant) =>
      Ok(ReportResponse(report.uuid, ValidateReportContent(report.content), Some(report.citations),
                        report.audience, report.objective, report.additionalInfo, tenant))
  }

  /** Reading a report never changes its citations, whatever its content:
      two reports that differ only in content expose the same citations. */
  lemma CitationsIndependentOfContent(report: Report, content: Option<string>)
    requires report.tenantId.Some?
    ensures ToReportResponse(report.(content := content)).value.reportCitations
         == ToReportResponse(report).value.reportCitations
  {
  }

  // ---------------------------------------------------------------------------
  // Requests
  // ---------------------------------------------------------------------------

  datatype GenerateReportRequest = GenerateReportRequest(autoSelect: bool, chunkIds: Option<seq<string>>)

  /** `GenerateReportRequestModel()` */
  function DefaultGenerateReportRequest(): (r: GenerateReportRequest)
    ensures r.autoSelect && r.chunkIds == Some([])
  {
    GenerateReportRequest(true, Some([]))
  }

  // ---------------------------------------------------------------------------
  // Chunk and research responses
  // ---------------------------------------------------------------------------

  /** `ChunkResponseModel`: every text is required. */
  datatype ChunkResponse = ChunkResponse(
    uuid: string,
    kind: string,
    query: string,
    captionsText: string,
    llmScore: int,
    source: string,
    content: string)

  /** `ChunkResponseModel(**chunk.model_dump())`: fails validation when the
      chunk lacks its caption text, source or content. */
  function ToChunkResponse(c: Chunk): (r: Result<ChunkResponse>)
    ensures r.Ok? <==> c.captionsText.Some? && c.source.Some? && c.content.Some?
    ensures r.Err? ==> r.error.ValidationError?
    ensures r.Ok? ==> r.value == ChunkResponse(c.uuid, TypeTag(c.kind), c.query, c.captionsText.value, c.llmScore,
                                               c.source.value, c.content.value)
  {
    if c.captionsText.None? then Err(ValidationError("captions_text"))
    else if c.source.None? then Err(ValidationError("source"))
    else if c.content.None? then Err(ValidationError("content"))
    else Ok(ChunkResponse(c.uuid, TypeTag(c.kind), c.query, c.captionsText.value, c.llmScore, c.source.value, c.content.value))
  }

  /** The list comprehension over a result list: every chunk converted, in order. */
  function ToChunkResponses(cs: seq<Chunk>): (r: Result<seq<ChunkResponse>>)
    ensures r.Ok? <==> forall i :: 0 <= i < |cs| ==> ToChunkResponse(cs[i]).Ok?
    ensures r.Ok? ==> |r.value| == |cs| && forall i :: 0 <= i < |cs| ==> r.value[i] == ToChunkResponse(cs[i]).value
  {
    var rs := seq(|cs|, i requires 0 <= i < |cs| => ToChunkResponse(cs[i]));
    assert forall i :: 0 <= i < |cs| ==> rs[i] == ToChunkResponse(cs[i]);
    Gather(rs)
  }

  /** `ResearchResponseModel`: one list per backend. */
  datatype ResearchResponse = ResearchResponse(
    internal: seq<ChunkResponse>,
    web: seq<ChunkResponse>,
    file: seq<ChunkResponse>,
    url: seq<ChunkResponse>)

  /** `ResearchResponseModel()` */
  function EmptyResearchResponse(): (r: ResearchResponse)
    ensures r.internal == [] && r.web == [] && r.file == [] && r.url == []
  {
    ResearchResponse([], [], [], [])
  }
}

=== FILE: rerank.dfy ===
/** LLM reranking of research chunks (backend/app/services/report.py):
    `__order_chunk_by_llm__` sends the chunks to the LLM in batches of 10,
    five batches at a time, under numeric ids, and sorts the scored replies;
    `get_top_chunks_order_by_llm_relevance` keeps the best `top` replies and
    writes each reply's score back into the chunk its id names.

    The LLM call (`__score_chunks_by_llm__` / `__score_section_chunks_by_llm__`
    with its prompt and JSON decoding) is an input: a `Scorer` maps one request
    to the decoded list of reply entries, or fails.
 */
module Rerank {
  import opened Outcomes
  import opened Chunks
  import opened Sorting

  const ChunksPerInvoke: nat := 10
  const BatchesPerWave: nat := 5

  const IdField: string := "id"
  const ScoreField: string := "score"
  const SectionScoreField: string := "section_relevance_score"

  /** One decoded reply entry: a JSON object with integer values. */
  type ScoreEntry = map<string, int>

  /** One element of the JSON list sent to the LLM. */
  datatype LlmItem = LlmItem(id: int, content: Option<string>)

  /** One scoring call: the numbered chunks, and the section the scores are
      for (an empty title selects the report-level prompt). */
  datatype ScoreRequest = ScoreRequest(items: seq<LlmItem>, sectionTitle: string, sectionDescription: string)

  type Scorer = ScoreRequest -> Result<seq<ScoreEntry>>

  /** `section_info` as passed to `get_top_chunks_order_by_llm_relevance`;
      `None` stands for both `None` and an empty dict. */
  datatype Section = Section(title: string, description: string)

  /** How the ids of a wave start. The code as written restarts every wave at
      0 (`FixedStart`); `AdvancingStart` continues after the previous wave. */
  datatype Numbering = FixedStart | AdvancingStart

  // ---------------------------------------------------------------------------
  // Batches and requests
  // ---------------------------------------------------------------------------

  function Min(a: int, b: int): int {
    if a < b then a else b
  }

  /** `[xs[i:i + size] for i in range(0, len(xs), size)]`, equivalently the
      `while` loop that takes `xs[:size]` off the front until nothing is left. */
  function Chunked<T>(xs: seq<T>, size: nat): (r: seq<seq<T>>)
    requires size > 0
    ensures Flatten(r) == xs
    ensures forall i :: 0 <= i < |r| ==> 0 < |r[i]| <= size
    ensures forall i :: 0 <= i < |r| - 1 ==> |r[i]| == size
    decreases |xs|
  {
    if |xs| == 0 then []
    else
      var n := Min(size, |xs|);
      assert xs == xs[..n] + xs[n..];
      [xs[..n]] + Chunked(xs[n..], size)
  }

  /** The requests of one wave: batch `i` numbers its chunks from
      `start + 10 * i + 1` on. */
  function WaveRequests(wave: seq<seq<Chunk>>, start: int, title: string, description: string): (r: seq<ScoreRequest>)
    ensures |r| == |wave|
    ensures forall i :: 0 <= i < |r| ==> r[i] == BatchRequest(wave[i], start + ChunksPerInvoke * i, title, description)
  {
    if |wave| == 0 then []
    else [BatchRequest(wave[0], start, title, description)]
         + WaveRequests(wave[1..], start + ChunksPerInvoke, title, description)
  }

  /** The chunk at index `j` of a batch is sent as id `start + j + 1`. */
  function BatchRequest(batch: seq<Chunk>, start: int, title: string, description: string): (r: ScoreRequest)
    ensures |r.items| == |batch|
    ensures forall j :: 0 <= j < |batch| ==> r.items[j] == LlmItem(start + j + 1, batch[j].content)
  {
    ScoreRequest(seq(|batch|, j requires 0 <= j < |batch| => LlmItem(start + j + 1, batch[j].content)), title, description)
  }

  /** Where the next wave's ids start. */
  function NextStart(numbering: Numbering, start: int, wave: seq<seq<Chunk>>): int {
    match numbering
    case FixedStart => start
    case AdvancingStart => start + ChunksPerInvoke * |wave|
  }

  /** The loop of `__order_chunk_by_llm__`: waves of at most five batches,
      each wave's calls gathered in order, all replies concatenated. */
  function ScoreWaves(numbering: Numbering, batches: seq<seq<Chunk>>, start: int, title: string, description: string,
                      score: Scorer): (r: Result<seq<ScoreEntry>>)
    decreases |batches|
  {
    if |batches| == 0 then Ok([])
    else
      var n := Min(BatchesPerWave, |batches|);
      var wave := batches[..n];
      var reqs := WaveRequests(wave, start, title, description);
      var replies :- Gather(seq(|reqs|, i requires 0 <= i < |reqs| => score(reqs[i])));
      var rest :- ScoreWaves(numbering, batches[n..], NextStart(numbering, start, wave), title, description, score);
      Ok(Flatten(replies) + rest)
  }

  /** Every request the loop sends, in sending order. */
  function Requests(numbering: Numbering, batches: seq<seq<Chunk>>, start: int, title: string, description: string): seq<ScoreRequest>
    decreases |batches|
  {
    if |batches| == 0 then []
    else
      var n := Min(BatchesPerWave, |batches|);
      var wave := batches[..n];
      WaveRequests(wave, start, title, description)
        + Requests(numbering, batches[n..], NextStart(numbering, start, wave), title, description)
  }

  /** Every item the loop sends, in sending order. */
  function SentItems(numbering: Numbering, batches: seq<seq<Chunk>>, start: int): seq<LlmItem>
    decreases |batches|
  {
    if |batches| == 0 then []
    else
      var n := Min(BatchesPerWave, |batches|);
      var wave := batches[..n];
      WaveItems(wave, start) + SentItems(numbering, batches[n..], NextStart(numbering, start, wave))
  }

  function WaveItems(wave: seq<seq<Chunk>>, start: int): seq<LlmItem>
    decreases |wave|
  {
    if |wave| == 0 then []
    else BatchRequest(wave[0], start, "", "").items + WaveItems(wave[1..], start + ChunksPerInvoke)
  }

  /** The id the chunk at position `k` is sent under. */
  function IdFor(numbering: Numbering, k: nat): (id: int)
    ensures 1 <= id
    ensures numbering == FixedStart ==> id <= BatchesPerWave * ChunksPerInvoke
  {
    match numbering
    case FixedStart => k % (BatchesPerWave * ChunksPerInvoke) + 1
    case AdvancingStart => k + 1
  }

  // ---------------------------------------------------------------------------
  // Sorting the replies
  // ---------------------------------------------------------------------------

  /** The field replies are sorted on, and the one written back into
      `llm_similarity_score`. */
  function SortField(title: string): (f: string)
    ensures f == ScoreField <==> title == ""
  {
    if title == "" then ScoreField else SectionScoreField
  }

  function FieldOr(e: ScoreEntry, field: string): int {
    if field in e then e[field] else 0
  }

  /** `__order_chunk_by_llm__`: all replies, stably sorted by the score field,
      highest first; a reply missing that field raises `KeyError`. */
  function OrderChunksByLlm(numbering: Numbering, cs: seq<Chunk>, title: string, description: string,
                            score: Scorer): (r: Result<seq<ScoreEntry>>)
    ensures r.Ok? ==> SortedDesc(r.value, e => FieldOr(e, SortField(title)))
    ensures r.Ok? ==> forall i :: 0 <= i < |r.value| ==> SortField(title) in r.value[i]
    ensures r.Ok? ==> ScoreWaves(numbering, Chunked(cs, ChunksPerInvoke), 0, title, description, score).Ok?
    ensures r.Ok? ==> multiset(r.value) == multiset(ScoreWaves(numbering, Chunked(cs, ChunksPerInvoke), 0, title, description, score).value)
    ensures var w := ScoreWaves(numbering, Chunked(cs, ChunksPerInvoke), 0, title, description, score);
            (r.Ok? <==> w.Ok? && forall i :: 0 <= i < |w.value| ==> SortField(title) in w.value[i])
            && (w.Err? ==> r == Err(w.error))
            && (w.Ok? && r.Err? ==> r == Err(KeyError(SortField(title))))
  {
    var entries :- ScoreWaves(numbering, Chunked(cs, ChunksPerInvoke), 0, title, description, score);
    var field := SortField(title);
    if forall i :: 0 <= i < |entries| ==> field in entries[i] then
      var sorted := SortDesc(entries, e => FieldOr(e, field));
      assert forall i :: 0 <= i < |sorted| ==> sorted[i] in multiset(entries);
      Ok(sorted)
    else Err(KeyError(field))
  }

  // ---------------------------------------------------------------------------
  // Selecting the top replies and writing their scores back
  // ---------------------------------------------------------------------------

  /** Python list indexing `xs[i]` on a list of length `n`: negative indices
      count from the end; out of range is `IndexError` (`None`). */
  function PyIndex(i: int, n: nat): (p: Option<nat>)
    ensures p.Some? <==> -(n as int) <= i < n
    ensures p.Some? ==> p.value < n && (p.value == i || p.value == n + i)
    ensures p.Some? && 0 <= i ==> p.value == i
  {
    if 0 <= i < n then Some(i) else if -(n as int) <= i < 0 then Some(n + i) else None
  }

  /** A score assignment `filtered_chunks[pos].llm_similarity_score = score`. */
  datatype Write = Write(pos: nat, score: int)

  /** For each selected reply: its score field, then the chunk its id names. */
  function ResolveWrites(selected: seq<ScoreEntry>, field: string, n: nat): (r: Result<seq<Write>>)
    ensures r.Ok? <==> forall t :: 0 <= t < |selected| ==>
              field in selected[t] && IdField in selected[t] && PyIndex(selected[t][IdField] - 1, n).Some?
    ensures r.Ok? ==> |r.value| == |selected|
    ensures r.Ok? ==> forall t :: 0 <= t < |selected| ==>
              r.value[t] == Write(PyIndex(selected[t][IdField] - 1, n).value, selected[t][field])
  {
    if |selected| == 0 then Ok([])
    else
      var e := selected[0];
      if field !in e then Err(KeyError(field))
      else if IdField !in e then Err(KeyError(IdField))
      else match PyIndex(e[IdField] - 1, n)
        case None => Err(IndexError)
        case Some(p) =>
          match ResolveWrites(selected[1..], field, n)
          case Err(err) => Err(err)
          case Ok(rest) => Ok([Write(p, e[field])] + rest)
  }

  /** The score the last write to `pos` leaves, `initial` when nothing writes it. */
  function LastScore(ws: seq<Write>, pos: nat, initial: int): int
    decreases |ws|
  {
    if |ws| == 0 then initial
    else if ws[|ws| - 1].pos == pos then ws[|ws| - 1].score
    else LastScore(ws[..|ws| - 1], pos, initial)
  }

  /** The writes applied one after the other to the shared chunk objects. */
  function ApplyWrites(cs: seq<Chunk>, ws: seq<Write>): (r: seq<Chunk>)
    requires forall t :: 0 <= t < |ws| ==> ws[t].pos < |cs|
    ensures |r| == |cs|
    ensures forall p :: 0 <= p < |cs| ==> r[p] == cs[p].(llmScore := LastScore(ws, p, cs[p].llmScore))
    decreases |ws|
  {
    if |ws| == 0 then cs
    else
      var prev := ApplyWrites(cs, ws[..|ws| - 1]);
      var w := ws[|ws| - 1];
      prev[w.pos := prev[w.pos].(llmScore := w.score)]
  }

  /** What `get_top_chunks_order_by_llm_relevance` leaves behind: the repeat-free
      chunk list after the score writes, the positions selected, and the
      returned list (the chunk objects at those positions). */
  datatype TopChunks = TopChunks(updated: seq<Chunk>, positions: seq<nat>, picked: seq<Chunk>)

  function SectionTitle(section: Option<Section>): string {
    match section
    case None => ""
    case Some(s) => s.title
  }

  function SectionDescription(section: Option<Section>): string {
    match section
    case None => ""
    case Some(s) => s.description
  }

  /** `get_top_chunks_order_by_llm_relevance` with the given id numbering. */
  function GetTopChunksWith(numbering: Numbering, chunks: seq<Chunk>, top: int, section: Option<Section>,
                            score: Scorer): (r: Result<TopChunks>)
    ensures r.Ok? ==> |r.value.updated| == |Dedup(chunks)|
    ensures r.Ok? ==> forall p :: 0 <= p < |Dedup(chunks)| ==>
              r.value.updated[p] == Dedup(chunks)[p].(llmScore := r.value.updated[p].llmScore)
    ensures r.Ok? ==> |r.value.picked| == |r.value.positions|
    ensures r.Ok? ==> forall t :: 0 <= t < |r.value.positions| ==>
              r.value.positions[t] < |r.value.updated| && r.value.picked[t] == r.value.updated[r.value.positions[t]]
    ensures r.Ok? ==> OrderChunksByLlm(numbering, Dedup(chunks), SectionTitle(section), SectionDescription(section), score).Ok?
    ensures r.Ok? ==> (|r.value.picked| ==
              |PyPrefix(OrderChunksByLlm(numbering, Dedup(chunks), SectionTitle(section), SectionDescription(section), score).value, top)|)
    ensures r.Ok? ==>
              var sel := PyPrefix(OrderChunksByLlm(numbering, Dedup(chunks), SectionTitle(section), SectionDescription(section), score).value, top);
              forall t :: 0 <= t < |sel| ==>
                IdField in sel[t] && PyIndex(sel[t][IdField] - 1, |Dedup(chunks)|).Some?
                && r.value.positions[t] == PyIndex(sel[t][IdField] - 1, |Dedup(chunks)|).value
  {
    var filtered := Dedup(chunks);
    var title := SectionTitle(section);
    var orders :- OrderChunksByLlm(numbering, filtered, title, SectionDescription(section), score);
    var writes :- ResolveWrites(PyPrefix(orders, top), SortField(title), |filtered|);
    Ok(Select(filtered, writes))
  }

  /** The writes applied to the repeat-free chunks, and the chunk objects the
      writes name, in write order. */
  function Select(filtered: seq<Chunk>, writes: seq<Write>): (r: TopChunks)
    requires forall t :: 0 <= t < |writes| ==> writes[t].pos < |filtered|
    ensures r.updated == ApplyWrites(filtered, writes)
    ensures |r.positions| == |r.picked| == |writes|
    ensures forall t :: 0 <= t < |writes| ==> r.positions[t] == writes[t].pos && r.picked[t] == r.updated[writes[t].pos]
  {
    var updated := ApplyWrites(filtered, writes);
    var positions := seq(|writes|, t requires 0 <= t < |writes| => writes[t].pos);
    TopChunks(updated, positions, seq(|writes|, t requires 0 <= t < |writes| => updated[writes[t].pos]))
  }

  /** `get_top_chunks_order_by_llm_relevance` as written. */
  function GetTopChunks(chunks: seq<Chunk>, top: int, section: Option<Section>, score: Scorer): (r: Result<TopChunks>)
    ensures r == GetTopChunksWith(FixedStart, chunks, top, section, score)
    ensures r.Ok? ==> |r.value.updated| == |Dedup(chunks)|
    ensures r.Ok? ==> forall p :: 0 <= p < |Dedup(chunks)| ==>
              r.value.updated[p] == Dedup(chunks)[p].(llmScore := r.value.updated[p].llmScore)
    ensures r.Ok? ==> |r.value.picked| == |r.value.positions|
    ensures r.Ok? ==> forall t :: 0 <= t < |r.value.positions| ==>
              r.value.positions[t] < |r.value.updated| && r.value.picked[t] == r.value.updated[r.value.positions[t]]
    ensures r.Ok? && top >= 0 ==> |r.value.picked| <= top
  {
    GetTopChunksWith(FixedStart, chunks, top, section, score)
  }
}

=== FILE: rerank_facts.dfy ===
/** What the reranking of `Rerank` guarantees: which id every chunk is sent
    under, and what the selected chunks look like when the LLM answers
    honestly.
 */
module RerankFacts {
  import opened Outcomes
  import opened Chunks
  import opened Sorting
  import opened Rerank

  // ---------------------------------------------------------------------------
  // Batches of ten
  // ---------------------------------------------------------------------------

  /** Cutting after `q` full batches of ten splits the batches there. */
  lemma {:induction false} ChunkedSplitTen<T>(c: seq<T>, q: nat)
    requires |c| >= ChunksPerInvoke * q
    ensures Chunked(c, ChunksPerInvoke)
         == Chunked(c[..ChunksPerInvoke * q], ChunksPerInvoke) + Chunked(c[ChunksPerInvoke * q..], ChunksPerInvoke)
    ensures |Chunked(c[..ChunksPerInvoke * q], ChunksPerInvoke)| == q
  {
    ChunkedSplitTenEq(c, q);
    ChunkedLenTen(c[..ChunksPerInvoke * q], q);
  }

  lemma {:induction false} ChunkedSplitTenEq<T>(c: seq<T>, q: nat)
    requires |c| >= ChunksPerInvoke * q
    ensures Chunked(c, ChunksPerInvoke)
         == Chunked(c[..ChunksPerInvoke * q], ChunksPerInvoke) + Chunked(c[ChunksPerInvoke * q..], ChunksPerInvoke)
  {
    if q > 0 {
      var d := c[ChunksPerInvoke..];
      var head := c[..ChunksPerInvoke * q];
      var x := [c[..ChunksPerInvoke]];
      ChunkedSplitTenEq(d, q - 1);
      var y := Chunked(d[..ChunksPerInvoke * (q - 1)], ChunksPerInvoke);
      assert d[ChunksPerInvoke * (q - 1)..] == c[ChunksPerInvoke * q..];
      var z := Chunked(c[ChunksPerInvoke * q..], ChunksPerInvoke);
      ChunkedCons(c);
      assert Chunked(c, ChunksPerInvoke) == x + (y + z);
      ChunkedCons(head);
      assert head[..ChunksPerInvoke] == c[..ChunksPerInvoke];
      assert head[ChunksPerInvoke..] == d[..ChunksPerInvoke * (q - 1)];
      assert Chunked(head, ChunksPerInvoke) == x + y;
      assert x + (y + z) == (x + y) + z;
    } else {
      assert c[..0] == [];
      assert c[0..] == c;
    }
  }

  /** Exactly `q` batches of ten make `q` batches. */
  lemma {:induction false} ChunkedLenTen<T>(c: seq<T>, q: nat)
    requires |c| == ChunksPerInvoke * q
    ensures |Chunked(c, ChunksPerInvoke)| == q
  {
    if q > 0 {
      ChunkedCons(c);
      ChunkedLenTen(c[ChunksPerInvoke..], q - 1);
    }
  }

  /** A list of at least ten starts with a full batch. */
  lemma ChunkedCons<T>(c: seq<T>)
    requires |c| >= ChunksPerInvoke
    ensures Chunked(c, ChunksPerInvoke) == [c[..ChunksPerInvoke]] + Chunked(c[ChunksPerInvoke..], ChunksPerInvoke)
  {
  }

  lemma {:induction false} ChunkedCountTen<T>(c: seq<T>, q: nat)
    requires |c| <= ChunksPerInvoke * q
    ensures |Chunked(c, ChunksPerInvoke)| <= q
  {
    if |c| > 0 {
      ChunkedCountTen(c[Min(ChunksPerInvoke, |c|)..], q - 1);
    }
  }

  /** `items` sends the chunks of `c` in order, numbered from `s + 1`. */
  predicate Numbered(items: seq<LlmItem>, c: seq<Chunk>, s: int) {
    |items| == |c| && forall k :: 0 <= k < |c| ==> items[k] == LlmItem(s + k + 1, c[k].content)
  }

  /** Within one wave starting at `s`, the chunk at index `k` of the wave's
      chunks is sent as `s + k + 1`. */
  lemma WaveItemsNumbering(c: seq<Chunk>, s: int)
    ensures WaveItems(Chunked(c, ChunksPerInvoke), s) == seq(|c|, k requires 0 <= k < |c| => LlmItem(s + k + 1, c[k].content))
  {
    WaveItemsNumbered(c, s);
  }

  lemma {:induction false} WaveItemsNumbered(c: seq<Chunk>, s: int)
    ensures Numbered(WaveItems(Chunked(c, ChunksPerInvoke), s), c, s)
    decreases |c|
  {
    if |c| > 0 {
      var m := Min(ChunksPerInvoke, |c|);
      ChunkedHead(c);
      WaveItemsNumbered(c[m..], s + ChunksPerInvoke);
      NumberedJoin(BatchRequest(c[..m], s, "", "").items, WaveItems(Chunked(c[m..], ChunksPerInvoke), s + ChunksPerInvoke), c, m, s);
    }
  }

  /** The first batch is the first (up to) ten chunks; the others batch the rest. */
  lemma ChunkedHead(c: seq<Chunk>)
    requires |c| > 0
    ensures var m := Min(ChunksPerInvoke, |c|);
      |Chunked(c, ChunksPerInvoke)| > 0
      && Chunked(c, ChunksPerInvoke)[0] == c[..m]
      && Chunked(c, ChunksPerInvoke)[1..] == Chunked(c[m..], ChunksPerInvoke)
  {
  }

  /** A full first batch numbered from `s` followed by the rest numbered from
      `s + 10` numbers the whole. */
  lemma NumberedJoin(head: seq<LlmItem>, tail: seq<LlmItem>, c: seq<Chunk>, m: nat, s: int)
    requires m == Min(ChunksPerInvoke, |c|)
    requires |head| == m && forall j :: 0 <= j < m ==> head[j] == LlmItem(s + j + 1, c[..m][j].content)
    requires Numbered(tail, c[m..], s + ChunksPerInvoke)
    ensures Numbered(head + tail, c, s)
  {
    forall k | 0 <= k < |c|
      ensures (head + tail)[k] == LlmItem(s + k + 1, c[k].content)
    {
      if k >= m {
        assert (head + tail)[k] == tail[k - m];
        assert c[m..][k - m] == c[k];
      } else {
        assert c[..m][k] == c[k];
      }
    }
  }

  /** Every chunk's id: with the code as written, the chunk at position `k`
      is sent as `k % 50 + 1`; with advancing starts, as `k + 1`. */
  lemma {:induction false} SentItemsNumbering(numbering: Numbering, c: seq<Chunk>, s: int)
    ensures SentItems(numbering, Chunked(c, ChunksPerInvoke), s)
         == seq(|c|, k requires 0 <= k < |c| => LlmItem(s + IdFor(numbering, k), c[k].content))
    decreases |c|
  {
    if |c| == 0 {
    } else if |c| <= BatchesPerWave * ChunksPerInvoke {
      SentItemsOneWave(numbering, c, s);
    } else {
      var perWave := BatchesPerWave * ChunksPerInvoke;
      var next := if numbering == FixedStart then s else s + perWave;
      SentItemsNumbering(numbering, c[perWave..], next);
      SentItemsFirstWave(numbering, c, s);
      NumberingJoin(numbering, c, s);
    }
  }

  lemma SentItemsOneWave(numbering: Numbering, c: seq<Chunk>, s: int)
    requires 0 < |c| <= BatchesPerWave * ChunksPerInvoke
    ensures SentItems(numbering, Chunked(c, ChunksPerInvoke), s)
         == seq(|c|, k requires 0 <= k < |c| => LlmItem(s + IdFor(numbering, k), c[k].content))
  {
    var bs := Chunked(c, ChunksPerInvoke);
    ChunkedCountTen(c, BatchesPerWave);
    assert bs[..Min(BatchesPerWave, |bs|)] == bs;
    assert bs[Min(BatchesPerWave, |bs|)..] == [];
    var ws := WaveItems(bs, s);
    assert SentItems(numbering, bs, s) == ws + [];
    WaveItemsNumbering(c, s);
    var target := seq(|c|, k requires 0 <= k < |c| => LlmItem(s + IdFor(numbering, k), c[k].content));
    forall k | 0 <= k < |c| ensures ws[k] == target[k] {
      assert IdFor(numbering, k) == k + 1;
    }
    assert ws + [] == target;
  }

  /** More than one wave: the first 50 chunks form the first wave, the rest
      continue from the next start. */
  lemma SentItemsFirstWave(numbering: Numbering, c: seq<Chunk>, s: int)
    requires |c| > BatchesPerWave * ChunksPerInvoke
    ensures SentItems(numbering, Chunked(c, ChunksPerInvoke), s)
         == seq(BatchesPerWave * ChunksPerInvoke, k requires 0 <= k < BatchesPerWave * ChunksPerInvoke => LlmItem(s + k + 1, c[k].content))
            + SentItems(numbering, Chunked(c[BatchesPerWave * ChunksPerInvoke..], ChunksPerInvoke),
                        if numbering == FixedStart then s else s + BatchesPerWave * ChunksPerInvoke)
  {
    var perWave := BatchesPerWave * ChunksPerInvoke;
    var bs := Chunked(c, ChunksPerInvoke);
    ChunkedSplitTen(c, BatchesPerWave);
    var wave := Chunked(c[..perWave], ChunksPerInvoke);
    var rest := Chunked(c[perWave..], ChunksPerInvoke);
    assert bs[..BatchesPerWave] == wave && bs[BatchesPerWave..] == rest;
    assert |rest| > 0 by { ChunkedHead(c[perWave..]); }
    assert Min(BatchesPerWave, |bs|) == BatchesPerWave;
    WaveItemsNumbered(c[..perWave], s);
    var items := WaveItems(wave, s);
    assert items == seq(perWave, k requires 0 <= k < perWave => LlmItem(s + k + 1, c[k].content)) by {
      forall k | 0 <= k < perWave ensures items[k] == LlmItem(s + k + 1, c[k].content) {
        assert c[..perWave][k] == c[k];
      }
    }
    assert SentItems(numbering, bs, s) == items + SentItems(numbering, rest, NextStart(numbering, s, wave));
  }

  /** The ids of the first wave followed by those of the remaining chunks,
      continued from the next start, are the ids `IdFor` gives. */
  lemma NumberingJoin(numbering: Numbering, c: seq<Chunk>, s: int)
    requires |c| > BatchesPerWave * ChunksPerInvoke
    ensures seq(BatchesPerWave * ChunksPerInvoke, k requires 0 <= k < BatchesPerWave * ChunksPerInvoke => LlmItem(s + k + 1, c[k].content))
            + seq(|c| - BatchesPerWave * ChunksPerInvoke, k requires 0 <= k < |c| - BatchesPerWave * ChunksPerInvoke =>
                    LlmItem((if numbering == FixedStart then s else s + BatchesPerWave * ChunksPerInvoke) + IdFor(numbering, k),
                            c[BatchesPerWave * ChunksPerInvoke..][k].content))
         == seq(|c|, k requires 0 <= k < |c| => LlmItem(s + IdFor(numbering, k), c[k].content))
  {
    var perWave := BatchesPerWave * ChunksPerInvoke;
    var next := if numbering == FixedStart then s else s + perWave;
    var d := c[perWave..];
    var a := seq(perWave, k requires 0 <= k < perWave => LlmItem(s + k + 1, c[k].content));
    var b := seq(|d|, k requires 0 <= k < |d| => LlmItem(next + IdFor(numbering, k), d[k].content));
    var whole := seq(|c|, k requires 0 <= k < |c| => LlmItem(s + IdFor(numbering, k), c[k].content));
    forall k | 0 <= k < |c| ensures (a + b)[k] == whole[k] {
      if k < perWave {
        assert (a + b)[k] == a[k];
      } else {
        var j := k - perWave;
        assert (a + b)[k] == b[j];
        if numbering == FixedStart {
          assert k % perWave == j % perWave;
        }
      }
    }
    assert a + b == whole;
  }

  /** With the code as written, the first chunk and the chunk at position 50
      are sent under the same id 1. */
  lemma IdsRepeatAfterFifty(c: seq<Chunk>)
    requires |c| > BatchesPerWave * ChunksPerInvoke
    ensures |SentItems(FixedStart, Chunked(c, ChunksPerInvoke), 0)| == |c|
    ensures SentItems(FixedStart, Chunked(c, ChunksPerInvoke), 0)[0].id == 1
    ensures SentItems(FixedStart, Chunked(c, ChunksPerInvoke), 0)[BatchesPerWave * ChunksPerInvoke].id == 1
  {
    SentItemsNumbering(FixedStart, c, 0);
  }

  /** With advancing starts every chunk is sent under its own id. */
  lemma AdvancingIdsUnique(c: seq<Chunk>)
    ensures |SentItems(AdvancingStart, Chunked(c, ChunksPerInvoke), 0)| == |c|
    ensures forall k :: 0 <= k < |c| ==> SentItems(AdvancingStart, Chunked(c, ChunksPerInvoke), 0)[k].id == k + 1
  {
    SentItemsNumbering(AdvancingStart, c, 0);
  }

  // ---------------------------------------------------------------------------
  // When the numbering as written does no harm
  // ---------------------------------------------------------------------------

  /** A single wave never reaches the start the loop fails to advance, so
      both numberings ask the same questions and get the same replies. */
  lemma OneWaveSame(batches: seq<seq<Chunk>>, start: int, title: string, description: string, score: Scorer)
    requires |batches| <= BatchesPerWave
    ensures ScoreWaves(FixedStart, batches, start, title, description, score)
         == ScoreWaves(AdvancingStart, batches, start, title, description, score)
  {
    if |batches| > 0 {
      assert batches[Min(BatchesPerWave, |batches|)..] == [];
    }
  }

  /** Up to 50 chunks fit in one wave, and then the numbering as written
      orders them exactly as the corrected one. */
  lemma OrderSameWhenSmall(cs: seq<Chunk>, title: string, description: string, score: Scorer)
    requires |cs| <= BatchesPerWave * ChunksPerInvoke
    ensures OrderChunksByLlm(FixedStart, cs, title, description, score)
         == OrderChunksByLlm(AdvancingStart, cs, title, description, score)
  {
    ChunkedCountTen(cs, BatchesPerWave);
    OneWaveSame(Chunked(cs, ChunksPerInvoke), 0, title, description, score);
  }

  /** `get_top_chunks` as written agrees with the corrected ranking whenever
      at most 50 distinct chunks are ranked. */
  lemma GetTopSameWhenSmall(chunks: seq<Chunk>, top: int, section: Option<Section>, score: Scorer)
    requires |Dedup(chunks)| <= BatchesPerWave * ChunksPerInvoke
    ensures GetTopChunks(chunks, top, section, score) == GetTopChunksWith(AdvancingStart, chunks, top, section, score)
  {
    OrderSameWhenSmall(Dedup(chunks), SectionTitle(section), SectionDescription(section), score);
  }

  /** Every request is answered. */
  predicate AllAnswered(reqs: seq<ScoreRequest>, score: Scorer) {
    forall i :: 0 <= i < |reqs| ==> score(reqs[i]).Ok?
  }

  lemma AnsweredConcat(a: seq<ScoreRequest>, b: seq<ScoreRequest>, score: Scorer)
    ensures AllAnswered(a + b, score) <==> AllAnswered(a, score) && AllAnswered(b, score)
    ensures Returned(a + b, score) == Returned(a, score) + Returned(b, score)
  {
    if AllAnswered(a, score) && AllAnswered(b, score) {
      forall i | 0 <= i < |a + b| ensures score((a + b)[i]).Ok? {
        if i >= |a| {
          assert (a + b)[i] == b[i - |a|];
        }
      }
    }
    if AllAnswered(a + b, score) {
      assert forall i :: 0 <= i < |a| ==> (a + b)[i] == a[i];
      assert forall j :: 0 <= j < |b| ==> (a + b)[|a| + j] == b[j];
    }
    assert forall i :: 0 <= i < |a + b| ==> Returned(a + b, score)[i] == (Returned(a, score) + Returned(b, score))[i];
  }

  /** Gathering one wave's calls: it succeeds iff every request is answered,
      with the replies in request order. */
  lemma GatherAnswered(reqs: seq<ScoreRequest>, score: Scorer)
    ensures var g := Gather(seq(|reqs|, i requires 0 <= i < |reqs| => score(reqs[i])));
            (g.Ok? <==> AllAnswered(reqs, score)) && (g.Ok? ==> g.value == Returned(reqs, score))
  {
    var calls := seq(|reqs|, i requires 0 <= i < |reqs| => score(reqs[i]));
    assert forall i :: 0 <= i < |reqs| ==> calls[i] == score(reqs[i]);
  }

  /** The wave loop as a whole: it succeeds iff every request it sends is
      answered, and then returns all replies concatenated in request order. */
  lemma {:induction false} ScoreWavesGathers(numbering: Numbering, batches: seq<seq<Chunk>>, start: int,
                                             title: string, description: string, score: Scorer)
    ensures var reqs := Requests(numbering, batches, start, title, description);
            var r := ScoreWaves(numbering, batches, start, title, description, score);
            && (r.Ok? <==> AllAnswered(reqs, score))
            && (r.Ok? ==> r.value == Flatten(Returned(reqs, score)))
    decreases |batches|
  {
    if |batches| > 0 {
      var n := Min(BatchesPerWave, |batches|);
      var wave := batches[..n];
      var next := NextStart(numbering, start, wave);
      var first := WaveRequests(wave, start, title, description);
      var later := Requests(numbering, batches[n..], next, title, description);
      ScoreWavesGathers(numbering, batches[n..], next, title, description, score);
      GatherAnswered(first, score);
      AnsweredConcat(first, later, score);
      FlattenConcat(Returned(first, score), Returned(later, score));
    }
  }
}

=== FILE: rerank_honest.dfy ===
/** The reranking of `Rerank` against an LLM that answers every request
    faithfully: one reply per item sent, carrying the item's id and a score
    that depends only on the item's content and the section.

    Under such an LLM the corrected numbering selects exactly the best `top`
    chunks, each carrying its own score; the numbering as written can only
    ever select among the first 50 chunks.
 */
module RerankHonest {
  import opened Outcomes
  import opened Chunks
  import opened Sorting
  import opened Rerank
  import opened RerankFacts

  /** The score a faithful LLM gives a chunk's content for a section. */
  type Judge = (Option<string>, string, string) -> int

  /** The reply entry for one item: its id and its score under the section's
      score field. */
  function Reply(item: LlmItem, title: string, description: string, judge: Judge): (e: ScoreEntry)
    ensures IdField in e && e[IdField] == item.id
    ensures SortField(title) in e && e[SortField(title)] == judge(item.content, title, description)
  {
    assert |IdField| != |SortField(title)|;
    map[IdField := item.id, SortField(title) := judge(item.content, title, description)]
  }

  function Answers(items: seq<LlmItem>, title: string, description: string, judge: Judge): (r: seq<ScoreEntry>)
    ensures |r| == |items|
  {
    seq(|items|, i requires 0 <= i < |items| => Reply(items[i], title, description, judge))
  }

  /** The LLM answers every request with one reply per item, in item order. */
  ghost predicate Faithful(score: Scorer, judge: Judge) {
    forall req :: score(req) == Ok(Answers(req.items, req.sectionTitle, req.sectionDescription, judge))
  }

  lemma AnswersAppend(a: seq<LlmItem>, b: seq<LlmItem>, title: string, description: string, judge: Judge)
    ensures Answers(a + b, title, description, judge) == Answers(a, title, description, judge) + Answers(b, title, description, judge)
  {
  }

  // ---------------------------------------------------------------------------
  // The replies the loop collects
  // ---------------------------------------------------------------------------

  /** The replies to one wave's requests, concatenated, answer the wave's items. */
  lemma {:induction false} WaveAnswers(wave: seq<seq<Chunk>>, start: int, title: string, description: string, judge: Judge)
    ensures Flatten(seq(|wave|, i requires 0 <= i < |wave| =>
                      Answers(WaveRequests(wave, start, title, description)[i].items, title, description, judge)))
         == Answers(WaveItems(wave, start), title, description, judge)
    decreases |wave|
  {
    var replies := seq(|wave|, i requires 0 <= i < |wave| =>
                      Answers(WaveRequests(wave, start, title, description)[i].items, title, description, judge));
    if |wave| > 0 {
      var tail := seq(|wave| - 1, i requires 0 <= i < |wave| - 1 =>
                      Answers(WaveRequests(wave[1..], start + ChunksPerInvoke, title, description)[i].items, title, description, judge));
      assert replies[1..] == tail;
      WaveAnswers(wave[1..], start + ChunksPerInvoke, title, description, judge);
      var first := BatchRequest(wave[0], start, "", "").items;
      assert replies[0] == Answers(first, title, description, judge);
      AnswersAppend(first, WaveItems(wave[1..], start + ChunksPerInvoke), title, description, judge);
    }
  }

  /** One wave's gathered calls all succeed with the faithful answers. */
  lemma GatherFaithful(wave: seq<seq<Chunk>>, start: int, title: string, description: string,
                       score: Scorer, judge: Judge)
    requires Faithful(score, judge)
    ensures Gather(seq(|wave|, i requires 0 <= i < |wave| => score(WaveRequests(wave, start, title, description)[i])))
         == Ok(seq(|wave|, i requires 0 <= i < |wave| =>
                 Answers(WaveRequests(wave, start, title, description)[i].items, title, description, judge)))
  {
    var reqs := WaveRequests(wave, start, title, description);
    var calls := seq(|wave|, i requires 0 <= i < |wave| => score(reqs[i]));
    var answers := seq(|wave|, i requires 0 <= i < |wave| => Answers(reqs[i].items, title, description, judge));
    forall i | 0 <= i < |wave| ensures calls[i] == Ok(answers[i]) {
      assert score(reqs[i]) == Ok(Answers(reqs[i].items, reqs[i].sectionTitle, reqs[i].sectionDescription, judge));
    }
    var g := Gather(calls);
    assert g.Ok?;
    assert g.value == answers;
  }

  /** All waves succeed, and the replies answer every sent item in order. */
  lemma {:induction false} ScoreWavesFaithful(numbering: Numbering, batches: seq<seq<Chunk>>, start: int,
                                              title: string, description: string, score: Scorer, judge: Judge)
    requires Faithful(score, judge)
    ensures ScoreWaves(numbering, batches, start, title, description, score)
         == Ok(Answers(SentItems(numbering, batches, start), title, description, judge))
    decreases |batches|
  {
    if |batches| > 0 {
      var n := Min(BatchesPerWave, |batches|);
      var wave := batches[..n];
      var next := NextStart(numbering, start, wave);
      GatherFaithful(wave, start, title, description, score, judge);
      WaveAnswers(wave, start, title, description, judge);
      ScoreWavesFaithful(numbering, batches[n..], next, title, description, score, judge);
      AnswersAppend(WaveItems(wave, start), SentItems(numbering, batches[n..], next), title, description, judge);
    }
  }

  /** The reply for the chunk at position `k`, under the numbering's id. */
  function Entry(numbering: Numbering, c: seq<Chunk>, k: nat, title: string, description: string, judge: Judge): (e: ScoreEntry)
    requires k < |c|
    ensures IdField in e && e[IdField] == IdFor(numbering, k)
    ensures SortField(title) in e && e[SortField(title)] == judge(c[k].content, title, description)
  {
    Reply(LlmItem(IdFor(numbering, k), c[k].content), title, description, judge)
  }

  function Entries(numbering: Numbering, c: seq<Chunk>, title: string, description: string, judge: Judge): (r: seq<ScoreEntry>)
    ensures |r| == |c|
  {
    seq(|c|, k requires 0 <= k < |c| => Entry(numbering, c, k, title, description, judge))
  }

  /** The collected replies: one per chunk, in chunk order. */
  lemma ScoreChunksFaithful(numbering: Numbering, c: seq<Chunk>, title: string, description: string,
                            score: Scorer, judge: Judge)
    requires Faithful(score, judge)
    ensures ScoreWaves(numbering, Chunked(c, ChunksPerInvoke), 0, title, description, score)
         == Ok(Entries(numbering, c, title, description, judge))
  {
    ScoreWavesFaithful(numbering, Chunked(c, ChunksPerInvoke), 0, title, description, score, judge);
    SentItemsNumbering(numbering, c, 0);
    var items := SentItems(numbering, Chunked(c, ChunksPerInvoke), 0);
    assert Answers(items, title, description, judge) == Entries(numbering, c, title, description, judge) by {
      forall k | 0 <= k < |c|
        ensures Answers(items, title, description, judge)[k] == Entries(numbering, c, title, description, judge)[k]
      {
        assert items[k] == LlmItem(IdFor(numbering, k), c[k].content);
      }
    }
  }

  /** Sorting cannot fail: every reply carries the score field; the sorted
      replies are a rearrangement of the per-chunk replies. */
  lemma OrderFaithful(numbering: Numbering, c: seq<Chunk>, title: string, description: string,
                      score: Scorer, judge: Judge)
    requires Faithful(score, judge)
    ensures OrderChunksByLlm(numbering, c, title, description, score).Ok?
    ensures multiset(OrderChunksByLlm(numbering, c, title, description, score).value)
         == multiset(Entries(numbering, c, title, description, judge))
  {
    ScoreChunksFaithful(numbering, c, title, description, score, judge);
  }

  // ---------------------------------------------------------------------------
  // Multiset facts
  // ---------------------------------------------------------------------------

  lemma {:induction false} DistinctCount<T>(s: seq<T>, x: T)
    requires NoDup(s)
    ensures multiset(s)[x] <= 1
  {
    if |s| > 0 {
      var p := s[..|s| - 1];
      assert s == p + [s[|s| - 1]];
      DistinctCount(p, x);
      if x == s[|s| - 1] {
        assert x !in p;
      }
    }
  }

  /** A rearrangement of a list without repeats has none either. */
  lemma DistinctPermutation<T>(a: seq<T>, b: seq<T>)
    requires multiset(a) == multiset(b)
    requires NoDup(b)
    ensures NoDup(a)
  {
    forall i, j | 0 <= i < j < |a| ensures a[i] != a[j] {
      if a[i] == a[j] {
        var x := a[i];
        assert a == a[..j] + a[j..];
        assert x in a[..j] && x in a[j..];
        assert multiset(a)[x] == multiset(a[..j])[x] + multiset(a[j..])[x];
        DistinctCount(b, x);
        assert false;
      }
    }
  }

  // ---------------------------------------------------------------------------
  // Writing back
  // ---------------------------------------------------------------------------

  /** With no two writes to the same chunk, each write's score is the one that stays. */
  lemma {:induction false} LastScoreDistinct(ws: seq<Write>, t: nat, initial: int)
    requires t < |ws|
    requires forall i, j :: 0 <= i < j < |ws| ==> ws[i].pos != ws[j].pos
    ensures LastScore(ws, ws[t].pos, initial) == ws[t].score
    decreases |ws|
  {
    if t < |ws| - 1 {
      LastScoreDistinct(ws[..|ws| - 1], t, initial);
    }
  }

  /** A chunk no write names keeps its score. */
  lemma {:induction false} LastScoreUntouched(ws: seq<Write>, pos: nat, initial: int)
    requires forall t :: 0 <= t < |ws| ==> ws[t].pos != pos
    ensures LastScore(ws, pos, initial) == initial
    decreases |ws|
  {
    if |ws| > 0 {
      LastScoreUntouched(ws[..|ws| - 1], pos, initial);
    }
  }

  /** Replies whose ids name chunks `1..n` resolve to writes to position `id - 1`. */
  lemma ResolveInRange(selected: seq<ScoreEntry>, field: string, n: nat)
    requires forall t :: 0 <= t < |selected| ==>
               field in selected[t] && IdField in selected[t] && 1 <= selected[t][IdField] <= n
    ensures ResolveWrites(selected, field, n).Ok?
    ensures forall t :: 0 <= t < |selected| ==>
              ResolveWrites(selected, field, n).value[t] == Write(selected[t][IdField] - 1, selected[t][field])
  {
    forall t | 0 <= t < |selected| ensures PyIndex(selected[t][IdField] - 1, n) == Some(selected[t][IdField] - 1) {
    }
  }

  /** Writes to pairwise different chunks: each named chunk gets its write's
      score, every other chunk is left as it was. */
  lemma SelectDistinct(filtered: seq<Chunk>, writes: seq<Write>)
    requires forall t :: 0 <= t < |writes| ==> writes[t].pos < |filtered|
    requires forall i, j :: 0 <= i < j < |writes| ==> writes[i].pos != writes[j].pos
    ensures forall t :: 0 <= t < |writes| ==>
              Select(filtered, writes).picked[t] == filtered[writes[t].pos].(llmScore := writes[t].score)
    ensures forall p :: 0 <= p < |filtered| && p !in Select(filtered, writes).positions ==>
              Select(filtered, writes).updated[p] == filtered[p]
  {
    var r := Select(filtered, writes);
    forall t | 0 <= t < |writes| ensures r.picked[t] == filtered[writes[t].pos].(llmScore := writes[t].score) {
      LastScoreDistinct(writes, t, filtered[writes[t].pos].llmScore);
    }
    forall p | 0 <= p < |filtered| && p !in r.positions ensures r.updated[p] == filtered[p] {
      forall t | 0 <= t < |writes| ensures writes[t].pos != p {
        assert r.positions[t] == writes[t].pos;
      }
      LastScoreUntouched(writes, p, filtered[p].llmScore);
    }
  }

  /** When sorting and resolving succeed, the selection is those writes applied. */
  lemma GetTopUnfold(numbering: Numbering, chunks: seq<Chunk>, top: int, section: Option<Section>, score: Scorer)
    requires OrderChunksByLlm(numbering, Dedup(chunks), SectionTitle(section), SectionDescription(section), score).Ok?
    requires ResolveWrites(PyPrefix(OrderChunksByLlm(numbering, Dedup(chunks), SectionTitle(section), SectionDescription(section), score).value, top),
                           SortField(SectionTitle(section)), |Dedup(chunks)|).Ok?
    ensures GetTopChunksWith(numbering, chunks, top, section, score)
         == Ok(Select(Dedup(chunks),
                      ResolveWrites(PyPrefix(OrderChunksByLlm(numbering, Dedup(chunks), SectionTitle(section), SectionDescription(section), score).value, top),
                                    SortField(SectionTitle(section)), |Dedup(chunks)|).value))
  {
  }

  // ---------------------------------------------------------------------------
  // The selection
  // ---------------------------------------------------------------------------

  /** With advancing ids, every sorted reply is the reply of the chunk its id
      names. */
  lemma AdvancingRepliesNameTheirChunk(c: seq<Chunk>, orders: seq<ScoreEntry>, title: string, description: string, judge: Judge)
    requires multiset(orders) == multiset(Entries(AdvancingStart, c, title, description, judge))
    ensures |orders| == |c|
    ensures forall t :: 0 <= t < |orders| ==>
              IdField in orders[t] && SortField(title) in orders[t] && 1 <= orders[t][IdField] <= |c|
              && orders[t][SortField(title)] == judge(c[orders[t][IdField] - 1].content, title, description)
              && orders[t] == Entries(AdvancingStart, c, title, description, judge)[orders[t][IdField] - 1]
  {
    var entries := Entries(AdvancingStart, c, title, description, judge);
    assert |orders| == |multiset(orders)| == |multiset(entries)| == |c|;
    forall t | 0 <= t < |orders|
      ensures IdField in orders[t] && SortField(title) in orders[t] && 1 <= orders[t][IdField] <= |c|
      ensures orders[t][SortField(title)] == judge(c[orders[t][IdField] - 1].content, title, description)
      ensures orders[t] == entries[orders[t][IdField] - 1]
    {
      assert orders[t] in multiset(entries);
      var k :| 0 <= k < |c| && entries[k] == orders[t];
    }
  }

  lemma AdvancingEntriesDistinct(c: seq<Chunk>, title: string, description: string, judge: Judge)
    ensures NoDup(Entries(AdvancingStart, c, title, description, judge))
  {
    var entries := Entries(AdvancingStart, c, title, description, judge);
    forall i, j | 0 <= i < j < |c| ensures entries[i] != entries[j] {
      assert entries[i][IdField] != entries[j][IdField];
    }
  }

  /** What an honest ranking of the repeat-free chunks `filtered` returns:
      it succeeds with the `top` best chunks (Python slicing semantics for
      `top`), in non-increasing score order, each once, each carrying its own
      score; every chunk not selected keeps its score and is judged no higher
      than any selected one. */
  ghost predicate HonestTop(r: Result<TopChunks>, filtered: seq<Chunk>, top: int, title: string, description: string, judge: Judge) {
    r.Ok?
    && |r.value.picked| == |PyPrefix(filtered, top)|
    && |r.value.positions| == |r.value.picked|
    && (forall t :: 0 <= t < |r.value.positions| ==> r.value.positions[t] < |filtered|)
    && NoDup(r.value.positions)
    && (forall t :: 0 <= t < |r.value.positions| ==>
          r.value.picked[t] == filtered[r.value.positions[t]]
                                 .(llmScore := judge(filtered[r.value.positions[t]].content, title, description)))
    && (forall t, u :: 0 <= t < u < |r.value.picked| ==> r.value.picked[t].llmScore >= r.value.picked[u].llmScore)
    && (forall p :: 0 <= p < |filtered| && p !in r.value.positions ==>
          |r.value.updated| == |filtered| && r.value.updated[p] == filtered[p]
          && forall t :: 0 <= t < |r.value.picked| ==>
               judge(filtered[p].content, title, description) <= r.value.picked[t].llmScore)
  }

  /** With advancing ids and a faithful LLM, the ranking is honest. */
  lemma HonestTopChunks(chunks: seq<Chunk>, top: int, section: Option<Section>, score: Scorer, judge: Judge)
    requires Faithful(score, judge)
    ensures HonestTop(GetTopChunksWith(AdvancingStart, chunks, top, section, score), Dedup(chunks), top,
                      SectionTitle(section), SectionDescription(section), judge)
  {
    var filtered := Dedup(chunks);
    var title := SectionTitle(section);
    var description := SectionDescription(section);
    OrderFaithful(AdvancingStart, filtered, title, description, score, judge);
    var orders := OrderChunksByLlm(AdvancingStart, filtered, title, description, score).value;
    SelectHonest(filtered, orders, top, title, description, judge);
    GetTopUnfold(AdvancingStart, chunks, top, section, score);
  }

  /** `get_top_chunks` exactly as written is honest too, as long as it ranks
      at most 50 distinct chunks: they all fit in the first wave, where the
      start that is never advanced has not yet done any harm. */
  lemma HonestTopChunksAsWritten(chunks: seq<Chunk>, top: int, section: Option<Section>, score: Scorer, judge: Judge)
    requires Faithful(score, judge)
    requires |Dedup(chunks)| <= BatchesPerWave * ChunksPerInvoke
    ensures HonestTop(GetTopChunks(chunks, top, section, score), Dedup(chunks), top,
                      SectionTitle(section), SectionDescription(section), judge)
  {
    GetTopSameWhenSmall(chunks, top, section, score);
    HonestTopChunks(chunks, top, section, score, judge);
  }

  /** `HonestTopChunks` for the sorted replies. */
  lemma SelectHonest(filtered: seq<Chunk>, orders: seq<ScoreEntry>, top: int, title: string, description: string, judge: Judge)
    requires multiset(orders) == multiset(Entries(AdvancingStart, filtered, title, description, judge))
    requires SortedDesc(orders, e => FieldOr(e, SortField(title)))
    ensures ResolveWrites(PyPrefix(orders, top), SortField(title), |filtered|).Ok?
    ensures var r := Select(filtered, ResolveWrites(PyPrefix(orders, top), SortField(title), |filtered|).value);
            |r.picked| == |PyPrefix(filtered, top)|
            && NoDup(r.positions)
            && (forall t :: 0 <= t < |r.positions| ==>
                  r.picked[t] == filtered[r.positions[t]].(llmScore := judge(filtered[r.positions[t]].content, title, description)))
            && (forall t, u :: 0 <= t < u < |r.picked| ==> r.picked[t].llmScore >= r.picked[u].llmScore)
            && (forall p :: 0 <= p < |filtered| && p !in r.positions ==>
                  r.updated[p] == filtered[p]
                  && forall t :: 0 <= t < |r.picked| ==> judge(filtered[p].content, title, description) <= r.picked[t].llmScore)
  {
    HonestWrites(filtered, orders, top, title, description, judge);
    var writes := ResolveWrites(PyPrefix(orders, top), SortField(title), |filtered|).value;
    SelectDistinct(filtered, writes);
    var r := Select(filtered, writes);
    HonestRanking(filtered, orders, writes, r.positions, r.picked, title, description, judge);
    assert |r.picked| == |PyPrefix(filtered, top)| && |r.updated| == |filtered|;
    assert NoDup(r.positions) by {
      forall i, j | 0 <= i < j < |r.positions| ensures r.positions[i] != r.positions[j] {
        assert r.positions[i] == writes[i].pos && r.positions[j] == writes[j].pos;
      }
    }
    forall t | 0 <= t < |r.positions|
      ensures r.positions[t] < |filtered|
      ensures r.picked[t] == filtered[r.positions[t]].(llmScore := judge(filtered[r.positions[t]].content, title, description))
    {
      assert r.positions[t] == writes[t].pos;
    }
  }

  /** The writes resolved from a prefix of the sorted replies: each names the
      chunk the reply's id names, with that chunk's own score, and no two name
      the same chunk. */
  lemma HonestWrites(filtered: seq<Chunk>, orders: seq<ScoreEntry>, top: int, title: string, description: string, judge: Judge)
    requires multiset(orders) == multiset(Entries(AdvancingStart, filtered, title, description, judge))
    ensures forall t :: 0 <= t < |orders| ==>
              IdField in orders[t] && SortField(title) in orders[t] && 1 <= orders[t][IdField] <= |filtered|
    ensures ResolveWrites(PyPrefix(orders, top), SortField(title), |filtered|).Ok?
    ensures var writes := ResolveWrites(PyPrefix(orders, top), SortField(title), |filtered|).value;
            |writes| == |PyPrefix(orders, top)| == |PyPrefix(filtered, top)|
            && (forall t :: 0 <= t < |writes| ==>
                  writes[t].pos < |filtered|
                  && writes[t] == Write(orders[t][IdField] - 1, orders[t][SortField(title)])
                  && writes[t].score == judge(filtered[writes[t].pos].content, title, description))
            && (forall i, j :: 0 <= i < j < |writes| ==> writes[i].pos != writes[j].pos)
  {
    AdvancingRepliesNameTheirChunk(filtered, orders, title, description, judge);
    AdvancingIdsDistinct(filtered, orders, title, description, judge);
    WritesFromReplies(filtered, orders, top, title, description, judge);
  }

  /** `HonestWrites` for replies whose ids are distinct and in range and
      whose scores are those of the chunks their ids name. */
  lemma WritesFromReplies(filtered: seq<Chunk>, orders: seq<ScoreEntry>, top: int, title: string, description: string, judge: Judge)
    requires forall t :: 0 <= t < |orders| ==>
               IdField in orders[t] && SortField(title) in orders[t] && 1 <= orders[t][IdField] <= |filtered|
               && orders[t][SortField(title)] == judge(filtered[orders[t][IdField] - 1].content, title, description)
    requires forall i, j :: 0 <= i < j < |orders| ==> orders[i][IdField] != orders[j][IdField]
    requires |orders| == |filtered|
    ensures ResolveWrites(PyPrefix(orders, top), SortField(title), |filtered|).Ok?
    ensures var writes := ResolveWrites(PyPrefix(orders, top), SortField(title), |filtered|).value;
            |writes| == |PyPrefix(orders, top)| == |PyPrefix(filtered, top)|
            && (forall t :: 0 <= t < |writes| ==>
                  writes[t].pos < |filtered|
                  && writes[t] == Write(orders[t][IdField] - 1, orders[t][SortField(title)])
                  && writes[t].score == judge(filtered[writes[t].pos].content, title, description))
            && (forall i, j :: 0 <= i < j < |writes| ==> writes[i].pos != writes[j].pos)
  {
    var field := SortField(title);
    var selected := PyPrefix(orders, top);
    assert |selected| == |PyPrefix(filtered, top)|;
    assert forall t :: 0 <= t < |selected| ==> selected[t] == orders[t];
    ResolveInRange(selected, field, |filtered|);
    var writes := ResolveWrites(selected, field, |filtered|).value;
    forall t | 0 <= t < |writes|
      ensures writes[t].pos < |filtered|
      ensures writes[t] == Write(orders[t][IdField] - 1, orders[t][field])
      ensures writes[t].score == judge(filtered[writes[t].pos].content, title, description)
    {
      assert writes[t] == Write(selected[t][IdField] - 1, selected[t][field]);
    }
    forall i, j | 0 <= i < j < |writes| ensures writes[i].pos != writes[j].pos {
      assert writes[i].pos == orders[i][IdField] - 1 && writes[j].pos == orders[j][IdField] - 1;
    }
  }

  /** With advancing ids no two sorted replies carry the same id. */
  lemma AdvancingIdsDistinct(filtered: seq<Chunk>, orders: seq<ScoreEntry>, title: string, description: string, judge: Judge)
    requires multiset(orders) == multiset(Entries(AdvancingStart, filtered, title, description, judge))
    ensures forall t :: 0 <= t < |orders| ==> IdField in orders[t]
    ensures forall i, j :: 0 <= i < j < |orders| ==> orders[i][IdField] != orders[j][IdField]
  {
    var entries := Entries(AdvancingStart, filtered, title, description, judge);
    AdvancingRepliesNameTheirChunk(filtered, orders, title, description, judge);
    AdvancingEntriesDistinct(filtered, title, description, judge);
    DistinctPermutation(orders, entries);
    forall i, j | 0 <= i < j < |orders| ensures orders[i][IdField] != orders[j][IdField] {
      assert orders[i] != orders[j];
    }
  }

  /** The ranking half of `SelectHonest`: the selected chunks come from a
      prefix of the sorted replies, so they are in score order and no chunk
      left out scores higher. */
  lemma HonestRanking(filtered: seq<Chunk>, orders: seq<ScoreEntry>, writes: seq<Write>,
                      positions: seq<nat>, picked: seq<Chunk>,
                      title: string, description: string, judge: Judge)
    requires multiset(orders) == multiset(Entries(AdvancingStart, filtered, title, description, judge))
    requires SortedDesc(orders, e => FieldOr(e, SortField(title)))
    requires forall t :: 0 <= t < |orders| ==>
               IdField in orders[t] && SortField(title) in orders[t] && 1 <= orders[t][IdField]
    requires |writes| <= |orders|
    requires forall t :: 0 <= t < |writes| ==>
               writes[t] == Write(orders[t][IdField] - 1, orders[t][SortField(title)])
    requires |positions| == |picked| == |writes|
    requires forall t :: 0 <= t < |writes| ==> positions[t] == writes[t].pos && picked[t].llmScore == writes[t].score
    ensures forall t, u :: 0 <= t < u < |picked| ==> picked[t].llmScore >= picked[u].llmScore
    ensures forall p :: 0 <= p < |filtered| && p !in positions ==>
              forall t :: 0 <= t < |picked| ==> judge(filtered[p].content, title, description) <= picked[t].llmScore
  {
    var field := SortField(title);
    var entries := Entries(AdvancingStart, filtered, title, description, judge);
    forall t, u | 0 <= t < u < |picked| ensures picked[t].llmScore >= picked[u].llmScore {
      assert FieldOr(orders[t], field) >= FieldOr(orders[u], field);
    }
    forall p | 0 <= p < |filtered| && p !in positions
      ensures forall t :: 0 <= t < |picked| ==> judge(filtered[p].content, title, description) <= picked[t].llmScore
    {
      assert entries[p] in multiset(orders);
      var u :| 0 <= u < |orders| && orders[u] == entries[p];
      forall t | 0 <= t < |picked| ensures judge(filtered[p].content, title, description) <= picked[t].llmScore {
        assert FieldOr(orders[t], field) >= FieldOr(orders[u], field);
      }
    }
  }

  /** With the ids as written and a faithful LLM, only the first 50 chunks can
      ever be selected: every chunk from position 50 on keeps its score. */
  lemma LateChunksNeverPicked(chunks: seq<Chunk>, top: int, section: Option<Section>, score: Scorer, judge: Judge)
    requires Faithful(score, judge)
    ensures var r := GetTopChunksWith(FixedStart, chunks, top, section, score);
            r.Ok?
            && (forall t :: 0 <= t < |r.value.positions| ==> r.value.positions[t] < BatchesPerWave * ChunksPerInvoke)
            && (forall p :: BatchesPerWave * ChunksPerInvoke <= p < |Dedup(chunks)| ==> r.value.updated[p] == Dedup(chunks)[p])
  {
    var filtered := Dedup(chunks);
    var title := SectionTitle(section);
    var description := SectionDescription(section);
    OrderFaithful(FixedStart, filtered, title, description, score, judge);
    var orders := OrderChunksByLlm(FixedStart, filtered, title, description, score).value;
    FixedRepliesEarly(filtered, orders, title, description, judge);
    SelectEarly(filtered, orders, top, SortField(title));
    GetTopUnfold(FixedStart, chunks, top, section, score);
  }

  /** Replies naming only the first 50 chunks write only to those. */
  lemma SelectEarly(filtered: seq<Chunk>, orders: seq<ScoreEntry>, top: int, field: string)
    requires forall t :: 0 <= t < |orders| ==>
               IdField in orders[t] && field in orders[t]
               && 1 <= orders[t][IdField] <= |filtered| && orders[t][IdField] <= BatchesPerWave * ChunksPerInvoke
    ensures ResolveWrites(PyPrefix(orders, top), field, |filtered|).Ok?
    ensures var r := Select(filtered, ResolveWrites(PyPrefix(orders, top), field, |filtered|).value);
            (forall t :: 0 <= t < |r.positions| ==> r.positions[t] < BatchesPerWave * ChunksPerInvoke)
            && (forall p :: BatchesPerWave * ChunksPerInvoke <= p < |filtered| ==> r.updated[p] == filtered[p])
  {
    var selected := PyPrefix(orders, top);
    assert forall t :: 0 <= t < |selected| ==> selected[t] == orders[t];
    ResolveInRange(selected, field, |filtered|);
    var writes := ResolveWrites(selected, field, |filtered|).value;
    var r := Select(filtered, writes);
    forall p | BatchesPerWave * ChunksPerInvoke <= p < |filtered| ensures r.updated[p] == filtered[p] {
      LastScoreUntouched(writes, p, filtered[p].llmScore);
    }
  }

  /** With the ids as written every reply names one of the first 50 chunks. */
  lemma FixedRepliesEarly(c: seq<Chunk>, orders: seq<ScoreEntry>, title: string, description: string, judge: Judge)
    requires multiset(orders) == multiset(Entries(FixedStart, c, title, description, judge))
    ensures forall t :: 0 <= t < |orders| ==>
              IdField in orders[t] && SortField(title) in orders[t]
              && 1 <= orders[t][IdField] <= |c| && orders[t][IdField] <= BatchesPerWave * ChunksPerInvoke
  {
    var entries := Entries(FixedStart, c, title, description, judge);
    forall t | 0 <= t < |orders|
      ensures IdField in orders[t] && SortField(title) in orders[t]
      ensures 1 <= orders[t][IdField] <= |c| && orders[t][IdField] <= BatchesPerWave * ChunksPerInvoke
    {
      assert orders[t] in multiset(entries);
      var k :| 0 <= k < |c| && entries[k] == orders[t];
      assert k % (BatchesPerWave * ChunksPerInvoke) <= k;
    }
  }
}

=== FILE: rerank_ids.dfy ===
/** The reranking of `Rerank` against any LLM that answers every request
    with exactly the ids it was sent, once each, every reply carrying the
    score field: in any order and with any scores.

    Under such an LLM the corrected numbering selects each chunk at most
    once, highest reply score first, and only rewrites the scores of the
    chunks it selects; the numbering as written does the same as long as at
    most 50 distinct chunks are ranked.
 */
module RerankIds {
  import opened Outcomes
  import opened Chunks
  import opened Sorting
  import opened Rerank
  import opened RerankFacts
  import opened RerankHonest

  /** The ids of the replies (0 where a reply has none). */
  function IdsOf(es: seq<ScoreEntry>): (ids: seq<int>)
    ensures |ids| == |es|
  {
    seq(|es|, i requires 0 <= i < |es| => FieldOr(es[i], IdField))
  }

  /** The ids sent. */
  function ItemIds(items: seq<LlmItem>): (ids: seq<int>)
    ensures |ids| == |items|
  {
    seq(|items|, i requires 0 <= i < |items| => items[i].id)
  }

  /** Every reply has an id and the score field. */
  predicate Keyed(es: seq<ScoreEntry>, field: string) {
    forall e :: e in es ==> IdField in e && field in e
  }

  /** The replies to one request carry exactly the ids sent, once each. */
  predicate AnswersIds(req: ScoreRequest, replies: seq<ScoreEntry>) {
    Keyed(replies, SortField(req.sectionTitle)) && multiset(IdsOf(replies)) == multiset(ItemIds(req.items))
  }

  /** The LLM answers every request with its ids; order and scores are free. */
  ghost predicate IdFaithful(score: Scorer) {
    forall req :: score(req).Ok? && AnswersIds(req, score(req).value)
  }

  lemma IdsAppend(a: seq<ScoreEntry>, b: seq<ScoreEntry>)
    ensures IdsOf(a + b) == IdsOf(a) + IdsOf(b)
  {
    assert forall i :: 0 <= i < |a + b| ==> IdsOf(a + b)[i] == (IdsOf(a) + IdsOf(b))[i];
  }

  lemma ItemIdsAppend(a: seq<LlmItem>, b: seq<LlmItem>)
    ensures ItemIds(a + b) == ItemIds(a) + ItemIds(b)
  {
    assert forall i :: 0 <= i < |a + b| ==> ItemIds(a + b)[i] == (ItemIds(a) + ItemIds(b))[i];
  }

  // ---------------------------------------------------------------------------
  // The replies the loop collects
  // ---------------------------------------------------------------------------

  /** Replies that answer each request of a wave answer the wave's items. */
  lemma {:induction false} WaveIds(wave: seq<seq<Chunk>>, start: int, title: string, description: string,
                                   replies: seq<seq<ScoreEntry>>)
    requires |replies| == |wave|
    requires forall i :: 0 <= i < |wave| ==> AnswersIds(WaveRequests(wave, start, title, description)[i], replies[i])
    ensures Keyed(Flatten(replies), SortField(title))
    ensures multiset(IdsOf(Flatten(replies))) == multiset(ItemIds(WaveItems(wave, start)))
    decreases |wave|
  {
    if |wave| > 0 {
      var reqs := WaveRequests(wave, start, title, description);
      var next := start + ChunksPerInvoke;
      forall i | 0 <= i < |wave| - 1
        ensures AnswersIds(WaveRequests(wave[1..], next, title, description)[i], replies[1..][i])
      {
        assert WaveRequests(wave[1..], next, title, description)[i] == reqs[i + 1];
      }
      WaveIds(wave[1..], next, title, description, replies[1..]);
      var first := BatchRequest(wave[0], start, "", "").items;
      assert reqs[0].items == first && reqs[0].sectionTitle == title;
      IdsAppend(replies[0], Flatten(replies[1..]));
      ItemIdsAppend(first, WaveItems(wave[1..], next));
    }
  }

  /** Every wave succeeds, and the collected replies carry exactly the ids sent. */
  lemma {:induction false} ScoreWavesIds(numbering: Numbering, batches: seq<seq<Chunk>>, start: int,
                                         title: string, description: string, score: Scorer)
    requires IdFaithful(score)
    ensures ScoreWaves(numbering, batches, start, title, description, score).Ok?
    ensures Keyed(ScoreWaves(numbering, batches, start, title, description, score).value, SortField(title))
    ensures multiset(IdsOf(ScoreWaves(numbering, batches, start, title, description, score).value))
         == multiset(ItemIds(SentItems(numbering, batches, start)))
    decreases |batches|
  {
    if |batches| > 0 {
      var n := Min(BatchesPerWave, |batches|);
      var wave := batches[..n];
      var next := NextStart(numbering, start, wave);
      var reqs := WaveRequests(wave, start, title, description);
      var calls := seq(|reqs|, i requires 0 <= i < |reqs| => score(reqs[i]));
      assert forall i :: 0 <= i < |reqs| ==> calls[i] == score(reqs[i]) && calls[i].Ok?;
      var replies := Gather(calls).value;
      WaveIds(wave, start, title, description, replies);
      ScoreWavesIds(numbering, batches[n..], next, title, description, score);
      var rest := ScoreWaves(numbering, batches[n..], next, title, description, score).value;
      IdsAppend(Flatten(replies), rest);
      ItemIdsAppend(WaveItems(wave, start), SentItems(numbering, batches[n..], next));
    }
  }

  /** With advancing ids the sorted replies name every chunk once: their ids
      are pairwise different and lie in `1..n`. */
  lemma OrderIds(c: seq<Chunk>, title: string, description: string, score: Scorer)
    requires IdFaithful(score)
    ensures var o := OrderChunksByLlm(AdvancingStart, c, title, description, score);
            && o.Ok?
            && |o.value| == |c|
            && SortedDesc(o.value, e => FieldOr(e, SortField(title)))
            && (forall t :: 0 <= t < |o.value| ==>
                  IdField in o.value[t] && SortField(title) in o.value[t] && 1 <= o.value[t][IdField] <= |c|)
            && (forall i, j :: 0 <= i < j < |o.value| ==> o.value[i][IdField] != o.value[j][IdField])
  {
    var field := SortField(title);
    ScoreWavesIds(AdvancingStart, Chunked(c, ChunksPerInvoke), 0, title, description, score);
    AdvancingIdsUnique(c);
    var w := ScoreWaves(AdvancingStart, Chunked(c, ChunksPerInvoke), 0, title, description, score).value;
    var ks := ItemIds(SentItems(AdvancingStart, Chunked(c, ChunksPerInvoke), 0));
    IdsOneToN(w, ks, |c|);
    assert forall i :: 0 <= i < |w| ==> w[i] in w;
    var o := OrderChunksByLlm(AdvancingStart, c, title, description, score).value;
    PermutedIds(o, w, |c|, field);
  }

  /** Ids that rearrange `1..n` are pairwise different and lie in `1..n`. */
  lemma IdsOneToN(w: seq<ScoreEntry>, ks: seq<int>, n: nat)
    requires |ks| == n && forall k :: 0 <= k < n ==> ks[k] == k + 1
    requires multiset(IdsOf(w)) == multiset(ks)
    ensures |w| == n
    ensures NoDup(IdsOf(w))
    ensures forall a :: 0 <= a < |w| ==> 1 <= IdsOf(w)[a] <= n
  {
    assert NoDup(ks);
    DistinctPermutation(IdsOf(w), ks);
    assert |w| == |IdsOf(w)| == |multiset(IdsOf(w))| == |multiset(ks)| == n;
    forall a | 0 <= a < |w| ensures 1 <= IdsOf(w)[a] <= n {
      assert IdsOf(w)[a] in multiset(ks);
    }
  }

  /** A rearrangement of keyed replies with pairwise different ids in `1..n`
      has the same properties. */
  lemma PermutedIds(o: seq<ScoreEntry>, w: seq<ScoreEntry>, n: nat, field: string)
    requires multiset(o) == multiset(w)
    requires Keyed(w, field)
    requires NoDup(IdsOf(w))
    requires forall a :: 0 <= a < |w| ==> 1 <= IdsOf(w)[a] <= n
    ensures |o| == |w|
    ensures forall t :: 0 <= t < |o| ==> IdField in o[t] && field in o[t] && 1 <= o[t][IdField] <= n
    ensures forall i, j :: 0 <= i < j < |o| ==> o[i][IdField] != o[j][IdField]
  {
    assert |o| == |multiset(o)| == |multiset(w)| == |w|;
    forall t | 0 <= t < |o|
      ensures IdField in o[t] && field in o[t] && 1 <= o[t][IdField] <= n
    {
      assert o[t] in multiset(w);
      var a :| 0 <= a < |w| && w[a] == o[t];
      assert w[a] in w && IdsOf(w)[a] == FieldOr(w[a], IdField);
    }
    forall i, j | 0 <= i < j < |o| ensures o[i][IdField] != o[j][IdField] {
      OrderedIdsDiffer(o, w, i, j, field);
    }
  }

  lemma OrderedIdsDiffer(o: seq<ScoreEntry>, w: seq<ScoreEntry>, i: nat, j: nat, field: string)
    requires multiset(o) == multiset(w)
    requires Keyed(w, field)
    requires NoDup(IdsOf(w))
    requires i < j < |o| && IdField in o[i] && IdField in o[j]
    ensures o[i][IdField] != o[j][IdField]
  {
    assert NoDup(w) by {
      forall x, y | 0 <= x < y < |w| ensures w[x] != w[y] {
        assert IdsOf(w)[x] != IdsOf(w)[y];
      }
    }
    DistinctPermutation(o, w);
    assert o[i] in multiset(w) && o[j] in multiset(w);
    var a :| 0 <= a < |w| && w[a] == o[i];
    var b :| 0 <= b < |w| && w[b] == o[j];
    assert a != b;
    assert IdsOf(w)[a] == FieldOr(w[a], IdField) && IdsOf(w)[b] == FieldOr(w[b], IdField);
  }

  // ---------------------------------------------------------------------------
  // The selection
  // ---------------------------------------------------------------------------

  /** Sorted replies with pairwise different ids in `1..n`: the writes name
      pairwise different chunks, each picked chunk carries its reply's score,
      the picks come in non-increasing score order, and every chunk not
      picked is left as it was. */
  lemma IdSelect(filtered: seq<Chunk>, orders: seq<ScoreEntry>, top: int, field: string)
    requires forall t :: 0 <= t < |orders| ==>
               IdField in orders[t] && field in orders[t] && 1 <= orders[t][IdField] <= |filtered|
    requires forall i, j :: 0 <= i < j < |orders| ==> orders[i][IdField] != orders[j][IdField]
    requires SortedDesc(orders, e => FieldOr(e, field))
    ensures ResolveWrites(PyPrefix(orders, top), field, |filtered|).Ok?
    ensures var r := Select(filtered, ResolveWrites(PyPrefix(orders, top), field, |filtered|).value);
            |r.picked| == |PyPrefix(orders, top)|
            && NoDup(r.positions)
            && (forall t :: 0 <= t < |r.positions| ==>
                  r.positions[t] < |filtered|
                  && r.picked[t] == filtered[r.positions[t]].(llmScore := orders[t][field]))
            && (forall t, u :: 0 <= t < u < |r.picked| ==> r.picked[t].llmScore >= r.picked[u].llmScore)
            && (forall p :: 0 <= p < |filtered| && p !in r.positions ==> r.updated[p] == filtered[p])
  {
    IdWrites(filtered, orders, top, field);
    var writes := ResolveWrites(PyPrefix(orders, top), field, |filtered|).value;
    SelectDistinct(filtered, writes);
    var r := Select(filtered, writes);
    PositionsDistinct(writes, r.positions);
    PicksFromWrites(filtered, orders, writes, r.positions, r.picked, field);
    ScoresDescend(orders, writes, r.picked, field);
  }

  lemma PicksFromWrites(filtered: seq<Chunk>, orders: seq<ScoreEntry>, writes: seq<Write>,
                        positions: seq<nat>, picked: seq<Chunk>, field: string)
    requires |positions| == |picked| == |writes| <= |orders|
    requires forall t :: 0 <= t < |writes| ==>
               IdField in orders[t] && field in orders[t] && 1 <= orders[t][IdField]
               && writes[t] == Write(orders[t][IdField] - 1, orders[t][field]) && writes[t].pos < |filtered|
    requires forall t :: 0 <= t < |writes| ==>
               positions[t] == writes[t].pos && picked[t] == filtered[writes[t].pos].(llmScore := writes[t].score)
    ensures forall t :: 0 <= t < |positions| ==>
              positions[t] < |filtered| && picked[t] == filtered[positions[t]].(llmScore := orders[t][field])
  {
  }

  lemma PositionsDistinct(writes: seq<Write>, positions: seq<nat>)
    requires |positions| == |writes|
    requires forall t :: 0 <= t < |writes| ==> positions[t] == writes[t].pos
    requires forall i, j :: 0 <= i < j < |writes| ==> writes[i].pos != writes[j].pos
    ensures NoDup(positions)
  {
    forall i, j | 0 <= i < j < |positions| ensures positions[i] != positions[j] {
      assert positions[i] == writes[i].pos && positions[j] == writes[j].pos;
    }
  }

  /** Picks carrying the scores of a prefix of sorted replies come in
      non-increasing score order. */
  lemma ScoresDescend(orders: seq<ScoreEntry>, writes: seq<Write>, picked: seq<Chunk>, field: string)
    requires SortedDesc(orders, e => FieldOr(e, field))
    requires |picked| == |writes| <= |orders|
    requires forall t :: 0 <= t < |writes| ==> field in orders[t] && writes[t].score == orders[t][field]
    requires forall t :: 0 <= t < |writes| ==> picked[t].llmScore == writes[t].score
    ensures forall t, u :: 0 <= t < u < |picked| ==> picked[t].llmScore >= picked[u].llmScore
  {
    forall t, u | 0 <= t < u < |picked| ensures picked[t].llmScore >= picked[u].llmScore {
      assert FieldOr(orders[t], field) >= FieldOr(orders[u], field);
    }
  }

  /** The writes resolved from such replies: reply `t` writes its score to
      chunk `id - 1`, and no two write to the same chunk. */
  lemma IdWrites(filtered: seq<Chunk>, orders: seq<ScoreEntry>, top: int, field: string)
    requires forall t :: 0 <= t < |orders| ==>
               IdField in orders[t] && field in orders[t] && 1 <= orders[t][IdField] <= |filtered|
    requires forall i, j :: 0 <= i < j < |orders| ==> orders[i][IdField] != orders[j][IdField]
    ensures ResolveWrites(PyPrefix(orders, top), field, |filtered|).Ok?
    ensures var writes := ResolveWrites(PyPrefix(orders, top), field, |filtered|).value;
            |writes| == |PyPrefix(orders, top)|
            && (forall t :: 0 <= t < |writes| ==>
                  writes[t].pos < |filtered| && writes[t] == Write(orders[t][IdField] - 1, orders[t][field]))
            && (forall i, j :: 0 <= i < j < |writes| ==> writes[i].pos != writes[j].pos)
  {
    var selected := PyPrefix(orders, top);
    assert forall t :: 0 <= t < |selected| ==> selected[t] == orders[t];
    ResolveInRange(selected, field, |filtered|);
    var writes := ResolveWrites(selected, field, |filtered|).value;
    forall i, j | 0 <= i < j < |writes| ensures writes[i].pos != writes[j].pos {
      assert writes[i].pos == orders[i][IdField] - 1 && writes[j].pos == orders[j][IdField] - 1;
    }
  }

  /** What a ranking that keeps ids straight returns: the picks are
      `min(top, n)` pairwise different chunks of `filtered`, changed only in
      their LLM score, in non-increasing score order; every chunk not picked
      is left as it was. */
  ghost predicate IdsTop(r: Result<TopChunks>, filtered: seq<Chunk>, top: int) {
    r.Ok?
    && |r.value.picked| == |PyPrefix(filtered, top)|
    && |r.value.positions| == |r.value.picked|
    && NoDup(r.value.positions)
    && (forall t :: 0 <= t < |r.value.positions| ==>
          r.value.positions[t] < |filtered|
          && r.value.picked[t] == filtered[r.value.positions[t]].(llmScore := r.value.picked[t].llmScore))
    && (forall t, u :: 0 <= t < u < |r.value.picked| ==> r.value.picked[t].llmScore >= r.value.picked[u].llmScore)
    && |r.value.updated| == |filtered|
    && (forall p :: 0 <= p < |filtered| && p !in r.value.positions ==> r.value.updated[p] == filtered[p])
  }

  /** With advancing ids and an LLM that returns the ids it was sent, in any
      order and with any scores, the ranking keeps ids straight. */
  lemma IdsTopChunks(chunks: seq<Chunk>, top: int, section: Option<Section>, score: Scorer)
    requires IdFaithful(score)
    ensures IdsTop(GetTopChunksWith(AdvancingStart, chunks, top, section, score), Dedup(chunks), top)
  {
    var filtered := Dedup(chunks);
    var title := SectionTitle(section);
    OrderIds(filtered, title, SectionDescription(section), score);
    var orders := OrderChunksByLlm(AdvancingStart, filtered, title, SectionDescription(section), score).value;
    IdSelect(filtered, orders, top, SortField(title));
    GetTopUnfold(AdvancingStart, chunks, top, section, score);
  }

  /** `get_top_chunks` exactly as written keeps ids straight under such an
      LLM as long as it ranks at most 50 distinct chunks. */
  lemma IdsTopChunksAsWritten(chunks: seq<Chunk>, top: int, section: Option<Section>, score: Scorer)
    requires IdFaithful(score)
    requires |Dedup(chunks)| <= BatchesPerWave * ChunksPerInvoke
    ensures IdsTop(GetTopChunks(chunks, top, section, score), Dedup(chunks), top)
  {
    GetTopSameWhenSmall(chunks, top, section, score);
    IdsTopChunks(chunks, top, section, score);
  }
}

=== FILE: research.dfy ===
/** The research flow of `ReportFlowService` (backend/app/services/report.py):
    the four per-query mappers from backend hits to chunks, the per-backend
    fan-out over several queries followed by reranking, the task plan of
    `initiate_research`, the per-section selection of
    `generate_section_chunks` and `run_custom_query`.

    Search backends, the LLM that writes queries and the uuid generator are
    inputs; `asyncio.gather` is an in-order map that fails when any task
    fails.
 */
module Research {
  import opened Outcomes
  import opened Chunks
  import opened Sorting
  import opened Rerank
  import opened RerankFacts
  import opened RerankHonest
  import opened RerankIds
  import opened ReportSchema
  import AzureSearch
  import FileUtil
  import StringUtil
  import Text

  // ---------------------------------------------------------------------------
  // Backend hits
  // ---------------------------------------------------------------------------

  /** `TavilySearchContextResponse` */
  datatype WebHit = WebHit(url: string, content: string)

  /** `ExaGetContentResponse` */
  datatype UrlHit = UrlHit(url: string, highlight: string)

  /** What a chunk takes from one hit: source, content, caption text (also
      used for the caption highlights) and vector score. */
  datatype HitFields = HitFields(source: string, content: string, captions: string, vectorScore: int)

  function WebFields(h: WebHit): HitFields {
    HitFields(h.url, h.content, h.content, 0)
  }

  function InternalFields(h: AzureSearch.SearchResponse): HitFields {
    HitFields(h.source, h.content, h.highlights, h.score)
  }

  function FileFields(d: FileUtil.Document): HitFields {
    HitFields(d.source, d.pageContent, d.pageContent, 0)
  }

  function UrlFields(h: UrlHit): HitFields {
    HitFields(h.url, h.highlight, h.highlight, 0)
  }

  /** The uuid the chunk built from hit `i` of a query is created with. */
  type Mint = (ChunkType, string, nat) -> string

  /** The `ChunkModel(...)` the mapper loop builds for hit `i`. */
  function HitChunk(kind: ChunkType, query: string, i: nat, f: HitFields, reportId: Option<string>, mint: Mint): Chunk {
    Chunk(mint(kind, query, i), kind, query, 0, f.vectorScore, Some(f.source), Some(f.content),
          Some(f.captions), Some(f.captions), reportId, None)
  }

  function HitChunks(kind: ChunkType, query: string, hits: seq<HitFields>, reportId: Option<string>, mint: Mint): (r: seq<Chunk>)
    ensures |r| == |hits|
  {
    seq(|hits|, i requires 0 <= i < |hits| => HitChunk(kind, query, i, hits[i], reportId, mint))
  }

  /** The chunks of one backend's answer, all typed `kind`, for `query`. */
  ghost predicate QueryShaped(cs: seq<Chunk>, kind: ChunkType, query: string, reportId: Option<string>) {
    forall t :: 0 <= t < |cs| ==>
      cs[t].kind == kind && cs[t].query == query && cs[t].reportId == reportId && cs[t].sessionId.None?
      && cs[t].llmScore == 0 && cs[t].source.Some? && cs[t].content.Some? && cs[t].captionsText.Some?
      && cs[t].captionsHighlights == cs[t].captionsText
  }

  /** Chunk `c` carries the fields taken from one hit. */
  ghost predicate Carries(c: Chunk, f: HitFields) {
    c.source == Some(f.source) && c.content == Some(f.content)
    && c.captionsText == Some(f.captions) && c.vectorScore == f.vectorScore
  }

  /** The keys (content, source) of a list of hits. */
  function HitKeys(hits: seq<HitFields>): set<ChunkKey> {
    set i | 0 <= i < |hits| :: (Some(hits[i].content), Some(hits[i].source))
  }

  /** The mapper loop followed by `__remove_multiple_chunks__`: one chunk per
      distinct (content, source) of the hits, the first hit of each, in hit
      order. */
  function QueryChunks(kind: ChunkType, query: string, hits: seq<HitFields>, reportId: Option<string>, mint: Mint): (r: seq<Chunk>)
    ensures QueryShaped(r, kind, query, reportId)
    ensures NoDupKeys(r)
    ensures KeySet(r) == HitKeys(hits)
    ensures forall t :: 0 <= t < |r| ==>
              exists i :: 0 <= i < |hits| && r[t] == HitChunk(kind, query, i, hits[i], reportId, mint)
    ensures forall t :: 0 <= t < |r| ==> exists i :: 0 <= i < |hits| && Carries(r[t], hits[i])
  {
    var all := HitChunks(kind, query, hits, reportId, mint);
    var r := Dedup(all);
    var ps := FirstPositions(all);
    assert forall t :: 0 <= t < |r| ==> r[t] == all[ps[t]];
    assert KeySet(all) == HitKeys(hits) by {
      assert forall i :: 0 <= i < |hits| ==> Key(all[i]) == (Some(hits[i].content), Some(hits[i].source));
    }
    r
  }

  /** The backends, each answering one query with the given `top`. */
  datatype Backends = Backends(
    web: (string, int) -> Result<seq<WebHit>>,
    rag: (string, int) -> Result<seq<AzureSearch.RawDocument>>,
    decode: AzureSearch.EscapeDecoder,
    files: (string, int) -> Result<seq<FileUtil.Document>>,
    exa: (seq<string>, string, int) -> Result<seq<UrlHit>>)

  /** `__run_rag_query__`: the search and the cleaning of its documents; any
      failure is logged and gives no hits. */
  function RunRagQuery(query: string, top: int, b: Backends): (r: seq<AzureSearch.SearchResponse>)
    ensures b.rag(query, top).Err? ==> r == []
    ensures b.rag(query, top).Ok? && AzureSearch.MapResults(b.rag(query, top).value, b.decode).Err? ==> r == []
    ensures b.rag(query, top).Ok? && AzureSearch.MapResults(b.rag(query, top).value, b.decode).Ok? ==>
              r == AzureSearch.MapResults(b.rag(query, top).value, b.decode).value
  {
    match b.rag(query, top)
    case Err(_) => []
    case Ok(docs) =>
      match AzureSearch.MapResults(docs, b.decode)
      case Err(_) => []
      case Ok(rs) => rs
  }

  /** `__run_custom_file_query__`: a failing similarity search gives no hits. */
  function RunFileQuery(query: string, top: int, b: Backends): (r: seq<FileUtil.Document>)
    ensures b.files(query, top).Err? ==> r == []
    ensures b.files(query, top).Ok? ==> r == b.files(query, top).value
  {
    match b.files(query, top)
    case Err(_) => []
    case Ok(docs) => docs
  }

  /** `run_web_search_query`: a failing web search is not caught. */
  function RunWebSearchQuery(query: string, top: int, b: Backends, reportId: Option<string>, mint: Mint): (r: Result<seq<Chunk>>)
    ensures r.Ok? <==> b.web(query, top).Ok?
    ensures r.Ok? ==> QueryShaped(r.value, Web, query, reportId) && NoDupKeys(r.value)
    ensures r.Ok? ==> forall t :: 0 <= t < |r.value| ==>
              exists i :: 0 <= i < |b.web(query, top).value| && Carries(r.value[t], WebFields(b.web(query, top).value[i]))
  {
    var hits :- b.web(query, top);
    var fields := seq(|hits|, i requires 0 <= i < |hits| => WebFields(hits[i]));
    Ok(QueryChunks(Web, query, fields, reportId, mint))
  }

  /** `run_internal_search_query`: never fails; the vector score and the
      highlights come from the cleaned search response. */
  function RunInternalSearchQuery(query: string, top: int, b: Backends, reportId: Option<string>, mint: Mint): (r: seq<Chunk>)
    ensures QueryShaped(r, Internal, query, reportId) && NoDupKeys(r)
    ensures forall t :: 0 <= t < |r| ==>
              exists i :: 0 <= i < |RunRagQuery(query, top, b)| && Carries(r[t], InternalFields(RunRagQuery(query, top, b)[i]))
  {
    var hits := RunRagQuery(query, top, b);
    var fields := seq(|hits|, i requires 0 <= i < |hits| => InternalFields(hits[i]));
    QueryChunks(Internal, query, fields, reportId, mint)
  }

  /** `run_custom_file_query`: never fails; source is the document's
      `metadata['source']`, content its page content. */
  function RunCustomFileQuery(query: string, top: int, b: Backends, reportId: Option<string>, mint: Mint): (r: seq<Chunk>)
    ensures QueryShaped(r, File, query, reportId) && NoDupKeys(r)
    ensures forall t :: 0 <= t < |r| ==>
              exists i :: 0 <= i < |RunFileQuery(query, top, b)| && Carries(r[t], FileFields(RunFileQuery(query, top, b)[i]))
  {
    var docs := RunFileQuery(query, top, b);
    var fields := seq(|docs|, i requires 0 <= i < |docs| => FileFields(docs[i]));
    QueryChunks(File, query, fields, reportId, mint)
  }

  /** `run_url_search_query`: a failing content fetch is not caught. */
  function RunUrlSearchQuery(urls: seq<string>, query: string, top: int, b: Backends, reportId: Option<string>, mint: Mint): (r: Result<seq<Chunk>>)
    ensures r.Ok? <==> b.exa(urls, query, top).Ok?
    ensures r.Ok? ==> QueryShaped(r.value, Url, query, reportId) && NoDupKeys(r.value)
    ensures r.Ok? ==> forall t :: 0 <= t < |r.value| ==>
              exists i :: 0 <= i < |b.exa(urls, query, top).value| && Carries(r.value[t], UrlFields(b.exa(urls, query, top).value[i]))
  {
    var hits :- b.exa(urls, query, top);
    var fields := seq(|hits|, i requires 0 <= i < |hits| => UrlFields(hits[i]));
    Ok(QueryChunks(Url, query, fields, reportId, mint))
  }

  // ---------------------------------------------------------------------------
  // Fan-out over several queries, then reranking
  // ---------------------------------------------------------------------------

  /** `c` is `d` with at most its LLM score changed. */
  predicate Rescored(c: Chunk, d: Chunk) {
    c == d.(llmScore := c.llmScore)
  }

  /** Every chunk of `r` is a chunk of `cs` with a new LLM score. */
  ghost predicate DrawnFrom(r: seq<Chunk>, cs: seq<Chunk>) {
    forall t :: 0 <= t < |r| ==> exists j :: 0 <= j < |cs| && Rescored(r[t], cs[j])
  }

  /** What a search of `kind` yields: a chunk of that type with source,
      content and caption text. */
  predicate Shaped(c: Chunk, kind: ChunkType) {
    c.kind == kind && c.source.Some? && c.content.Some? && c.captionsText.Some?
  }

  /** Every chunk a successful run of `run` yields is `Shaped` for `kind`. */
  ghost predicate YieldsShaped(run: string -> Result<seq<Chunk>>, kind: ChunkType) {
    forall q :: run(q).Ok? ==> forall c :: c in run(q).value ==> Shaped(c, kind)
  }

  /** `asyncio.gather` over one task per query, then `chunks.extend(result)`
      for every result: the chunks of all the queries, and nothing else. */
  function Collect(queries: seq<string>, run: string -> Result<seq<Chunk>>): (r: Result<seq<Chunk>>)
    ensures r.Ok? <==> forall i :: 0 <= i < |queries| ==> run(queries[i]).Ok?
    ensures r.Ok? ==> forall c :: c in r.value <==> exists i :: 0 <= i < |queries| && run(queries[i]).Ok? && c in run(queries[i]).value
    ensures r.Ok? ==> r.value == Flatten(Returned(queries, run))
  {
    var rs := seq(|queries|, i requires 0 <= i < |queries| => run(queries[i]));
    var results :- Gather(rs);
    assert forall i :: 0 <= i < |queries| ==> rs[i] == run(queries[i]) && rs[i].Ok? && results[i] == rs[i].value;
    assert results == Returned(queries, run);
    forall c ensures c in Flatten(results) <==> exists i :: 0 <= i < |queries| && run(queries[i]).Ok? && c in run(queries[i]).value {
      FlattenMember(results, c);
    }
    Ok(Flatten(results))
  }

  /** The body shared by the five `run_*_search` methods: gather the queries'
      chunks, read the section (after the searches, so a failed search is
      reported first), rerank, and return the chunks picked. */
  function FanOut(queries: seq<string>, run: string -> Result<seq<Chunk>>, top: int,
                  section: Result<Option<Section>>, score: Scorer): (r: Result<seq<Chunk>>)
    ensures Collect(queries, run).Err? ==> r == Err(Collect(queries, run).error)
    ensures Collect(queries, run).Ok? && section.Err? ==> r == Err(section.error)
    ensures r.Ok? ==> Collect(queries, run).Ok? && section.Ok?
    ensures r.Ok? && top >= 0 ==> |r.value| <= top
    ensures r.Ok? ==> DrawnFrom(r.value, Collect(queries, run).value)
  {
    var chunks :- Collect(queries, run);
    var sec :- section;
    var ranked :- GetTopChunks(chunks, top, sec, score);
    PickedDrawn(chunks, top, sec, score);
    Ok(ranked.picked)
  }

  /** The reranker returns at most `top` chunks, each an input chunk with a
      new LLM score. */
  lemma PickedDrawn(chunks: seq<Chunk>, top: int, section: Option<Section>, score: Scorer)
    requires GetTopChunks(chunks, top, section, score).Ok?
    ensures DrawnFrom(GetTopChunks(chunks, top, section, score).value.picked, chunks)
    ensures top >= 0 ==> |GetTopChunks(chunks, top, section, score).value.picked| <= top
  {
    var ranked := GetTopChunks(chunks, top, section, score).value;
    var d := Dedup(chunks);
    var ps := FirstPositions(chunks);
    forall u | 0 <= u < |ranked.picked| ensures exists j :: 0 <= j < |chunks| && Rescored(ranked.picked[u], chunks[j]) {
      var p := ranked.positions[u];
      assert ranked.picked[u] == ranked.updated[p];
      assert d[p] == chunks[ps[p]];
      assert Rescored(ranked.picked[u], chunks[ps[p]]);
    }
  }

  /** What the fan-out returns has the shape its searches give. */
  lemma FanOutShaped(queries: seq<string>, run: string -> Result<seq<Chunk>>, top: int,
                     section: Result<Option<Section>>, score: Scorer, kind: ChunkType)
    requires YieldsShaped(run, kind)
    ensures FanOut(queries, run, top, section, score).Ok? ==>
              forall c :: c in FanOut(queries, run, top, section, score).value ==> Shaped(c, kind)
  {
    var r := FanOut(queries, run, top, section, score);
    if r.Ok? {
      var cs := Collect(queries, run).value;
      forall c | c in r.value ensures Shaped(c, kind) {
        var t :| 0 <= t < |r.value| && r.value[t] == c;
        var j :| 0 <= j < |cs| && Rescored(c, cs[j]);
        assert cs[j] in cs;
      }
    }
  }

  /** The queries' results put together are no longer than all of them at
      their longest. */
  lemma CollectSize(queries: seq<string>, run: string -> Result<seq<Chunk>>, most: nat)
    requires forall i :: 0 <= i < |queries| ==> run(queries[i]).Ok? ==> |run(queries[i]).value| <= most
    ensures Collect(queries, run).Ok? ==> |Collect(queries, run).value| <= |queries| * most
  {
    var rs := seq(|queries|, i requires 0 <= i < |queries| => run(queries[i]));
    if Gather(rs).Ok? {
      var results := Gather(rs).value;
      assert forall i :: 0 <= i < |queries| ==> rs[i] == run(queries[i]) && rs[i].Ok? && results[i] == rs[i].value;
      FlattenLength(results, most);
      assert Collect(queries, run).value == Flatten(results);
    }
  }

  /** When the searches bring back at most 50 chunks in all (the defaults
      give three queries of five), the fan-out returns an honest ranking under
      a faithful LLM even with the start index never advanced. */
  lemma FanOutHonest(queries: seq<string>, run: string -> Result<seq<Chunk>>, top: int,
                     section: Result<Option<Section>>, score: Scorer, judge: Judge)
    requires Faithful(score, judge) && section.Ok?
    requires Collect(queries, run).Ok? ==> |Collect(queries, run).value| <= BatchesPerWave * ChunksPerInvoke
    ensures Collect(queries, run).Ok? ==>
              var chunks := Collect(queries, run).value;
              var ranked := GetTopChunks(chunks, top, section.value, score);
              && ranked.Ok?
              && HonestTop(ranked, Dedup(chunks), top, SectionTitle(section.value), SectionDescription(section.value), judge)
              && FanOut(queries, run, top, section, score) == Ok(ranked.value.picked)
  {
    if Collect(queries, run).Ok? {
      var chunks := Collect(queries, run).value;
      assert |Dedup(chunks)| <= |chunks|;
      HonestTopChunksAsWritten(chunks, top, section.value, score, judge);
    }
  }

  // ---------------------------------------------------------------------------
  // Configuration
  // ---------------------------------------------------------------------------

  /** The `config` dict: each key present (`Some`) or absent. An explicit
      `section_info` of `None` is `Some(None)`. */
  datatype Config = Config(topTotal: Option<int>, topEachQuery: Option<int>, numberOfQueries: Option<int>,
                           sectionInfo: Option<Option<Section>>)

  datatype Settings = Settings(topTotal: int, topEachQuery: int, numberOfQueries: int)

  /** The defaults every search method starts from. */
  const Defaults := Settings(5, 5, 3)

  /** `final_config.update(**config)` over the defaults. */
  function Effective(config: Config): (s: Settings)
    ensures s.topTotal == (if config.topTotal.Some? then config.topTotal.value else 5)
    ensures s.topEachQuery == (if config.topEachQuery.Some? then config.topEachQuery.value else 5)
    ensures s.numberOfQueries == (if config.numberOfQueries.Some? then config.numberOfQueries.value else 3)
  {
    Settings(config.topTotal.GetOr(Defaults.topTotal), config.topEachQuery.GetOr(Defaults.topEachQuery),
             config.numberOfQueries.GetOr(Defaults.numberOfQueries))
  }

  /** `config['section_info']`: a `KeyError` when the key is absent. */
  function SectionOf(config: Config): (r: Result<Option<Section>>)
    ensures r.Ok? <==> config.sectionInfo.Some?
    ensures r.Err? ==> r.error == KeyError("section_info")
  {
    match config.sectionInfo
    case None => Err(KeyError("section_info"))
    case Some(s) => Ok(s)
  }

  /** `if not queries: queries = ...`: both `None` and the empty list are
      replaced by generated queries. */
  function QueriesOr(given: Option<seq<string>>, generated: Result<seq<string>>): (r: Result<seq<string>>)
    ensures given.Some? && given.value != [] ==> r == Ok(given.value)
    ensures given.None? || given.value == [] ==> r == generated
    ensures r.Ok? && r.value == [] ==> generated == Ok([])
  {
    if given.Some? && given.value != [] then Ok(given.value) else generated
  }

  /** The query-writing LLM calls, by requested count (and section). */
  datatype QueryWriters = QueryWriters(
    web: int -> Result<seq<string>>,
    sectionWeb: (Section, int) -> Result<seq<string>>,
    rag: int -> Result<seq<string>>,
    sectionRag: (Section, int) -> Result<seq<string>>)

  /** What a `ReportFlowService` call sees: the report (its uuid and
      additional information), the uuid generator, the backends, the query
      writers and the chunk scorer. */
  datatype Context = Context(reportUuid: string, additionalInfo: Option<string>, mint: Mint,
                             backends: Backends, writers: QueryWriters, score: Scorer)

  function WebRunner(top: int, ctx: Context): string -> Result<seq<Chunk>> {
    q => RunWebSearchQuery(q, top, ctx.backends, Some(ctx.reportUuid), ctx.mint)
  }

  function InternalRunner(top: int, ctx: Context): string -> Result<seq<Chunk>> {
    q => Ok(RunInternalSearchQuery(q, top, ctx.backends, Some(ctx.reportUuid), ctx.mint))
  }

  function FileRunner(top: int, ctx: Context): string -> Result<seq<Chunk>> {
    q => Ok(RunCustomFileQuery(q, top, ctx.backends, Some(ctx.reportUuid), ctx.mint))
  }

  function UrlRunner(urls: seq<string>, top: int, ctx: Context): string -> Result<seq<Chunk>> {
    q => RunUrlSearchQuery(urls, q, top, ctx.backends, Some(ctx.reportUuid), ctx.mint)
  }

  lemma RunnersShaped(urls: seq<string>, top: int, ctx: Context)
    ensures YieldsShaped(WebRunner(top, ctx), Web)
    ensures YieldsShaped(InternalRunner(top, ctx), Internal)
    ensures YieldsShaped(FileRunner(top, ctx), File)
    ensures YieldsShaped(UrlRunner(urls, top, ctx), Url)
  {
    forall q | WebRunner(top, ctx)(q).Ok? ensures forall c :: c in WebRunner(top, ctx)(q).value ==> Shaped(c, Web) {
      var cs := WebRunner(top, ctx)(q).value;
      assert QueryShaped(cs, Web, q, Some(ctx.reportUuid));
    }
    forall q ensures forall c :: c in InternalRunner(top, ctx)(q).value ==> Shaped(c, Internal) {
      var cs := InternalRunner(top, ctx)(q).value;
      assert QueryShaped(cs, Internal, q, Some(ctx.reportUuid));
    }
    forall q ensures forall c :: c in FileRunner(top, ctx)(q).value ==> Shaped(c, File) {
      var cs := FileRunner(top, ctx)(q).value;
      assert QueryShaped(cs, File, q, Some(ctx.reportUuid));
    }
    forall q | UrlRunner(urls, top, ctx)(q).Ok? ensures forall c :: c in UrlRunner(urls, top, ctx)(q).value ==> Shaped(c, Url) {
      var cs := UrlRunner(urls, top, ctx)(q).value;
      assert QueryShaped(cs, Url, q, Some(ctx.reportUuid));
    }
  }

  // ---------------------------------------------------------------------------
  // The five search methods
  // ---------------------------------------------------------------------------

  /** `r` is what a search method gives once its queries are settled: the
      query writer's error, or the fan-out of `run` over the queries. */
  predicate FansOut(r: Result<seq<Chunk>>, queries: Result<seq<string>>, run: string -> Result<seq<Chunk>>,
                    top: int, section: Result<Option<Section>>, score: Scorer) {
    match queries
    case Err(e) => r == Err(e)
    case Ok(qs) => r == FanOut(qs, run, top, section, score)
  }

  /** `run_web_search`: reranked without a section, so `section_info` is
      never read. */
  function RunWebSearch(config: Config, queries: Option<seq<string>>, ctx: Context): (r: Result<seq<Chunk>>)
    ensures r.Ok? && Effective(config).topTotal >= 0 ==> |r.value| <= Effective(config).topTotal
    ensures r.Ok? ==> forall c :: c in r.value ==> Shaped(c, Web)
    ensures FansOut(r, QueriesOr(queries, ctx.writers.web(Effective(config).numberOfQueries)),
                    WebRunner(Effective(config).topEachQuery, ctx), Effective(config).topTotal, Ok(None), ctx.score)
  {
    var s := Effective(config);
    var qs :- QueriesOr(queries, ctx.writers.web(s.numberOfQueries));
    RunnersShaped([], s.topEachQuery, ctx);
    FanOutShaped(qs, WebRunner(s.topEachQuery, ctx), s.topTotal, Ok(None), ctx.score, Web);
    FanOut(qs, WebRunner(s.topEachQuery, ctx), s.topTotal, Ok(None), ctx.score)
  }

  /** `run_web_search_for_section`: queries written for the section, scores
      read against `config['section_info']`. */
  function RunWebSearchForSection(section: Section, config: Config, queries: Option<seq<string>>, ctx: Context): (r: Result<seq<Chunk>>)
    ensures r.Ok? && Effective(config).topTotal >= 0 ==> |r.value| <= Effective(config).topTotal
    ensures r.Ok? ==> forall c :: c in r.value ==> Shaped(c, Web)
    ensures r.Ok? ==> config.sectionInfo.Some?
    ensures FansOut(r, QueriesOr(queries, ctx.writers.sectionWeb(section, Effective(config).numberOfQueries)),
                    WebRunner(Effective(config).topEachQuery, ctx), Effective(config).topTotal, SectionOf(config), ctx.score)
  {
    var s := Effective(config);
    var qs :- QueriesOr(queries, ctx.writers.sectionWeb(section, s.numberOfQueries));
    RunnersShaped([], s.topEachQuery, ctx);
    FanOutShaped(qs, WebRunner(s.topEachQuery, ctx), s.topTotal, SectionOf(config), ctx.score, Web);
    FanOut(qs, WebRunner(s.topEachQuery, ctx), s.topTotal, SectionOf(config), ctx.score)
  }

  /** `run_internal_search`: the `update` of the defaults is commented out,
      so the sizes are always the defaults whatever `config` says; only
      `section_info` is read. The per-query searches never fail, so with
      queries in hand a missing `section_info` is the error. */
  function RunInternalSearch(config: Config, queries: Option<seq<string>>, ctx: Context): (r: Result<seq<Chunk>>)
    ensures r.Ok? ==> |r.value| <= Defaults.topTotal
    ensures r.Ok? ==> forall c :: c in r.value ==> Shaped(c, Internal)
    ensures r.Ok? ==> config.sectionInfo.Some?
    ensures QueriesOr(queries, ctx.writers.rag(Defaults.numberOfQueries)).Ok? && config.sectionInfo.None? ==>
              r == Err(KeyError("section_info"))
    ensures FansOut(r, QueriesOr(queries, ctx.writers.rag(3)), InternalRunner(5, ctx), 5, SectionOf(config), ctx.score)
  {
    var qs :- QueriesOr(queries, ctx.writers.rag(Defaults.numberOfQueries));
    RunnersShaped([], Defaults.topEachQuery, ctx);
    FanOutShaped(qs, InternalRunner(Defaults.topEachQuery, ctx), Defaults.topTotal, SectionOf(config), ctx.score, Internal);
    FanOut(qs, InternalRunner(Defaults.topEachQuery, ctx), Defaults.topTotal, SectionOf(config), ctx.score)
  }

  /** `run_custom_file_search`: like the internal search, with the overrides
      applied. */
  function RunCustomFileSearch(config: Config, queries: Option<seq<string>>, ctx: Context): (r: Result<seq<Chunk>>)
    ensures r.Ok? && Effective(config).topTotal >= 0 ==> |r.value| <= Effective(config).topTotal
    ensures r.Ok? ==> forall c :: c in r.value ==> Shaped(c, File)
    ensures r.Ok? ==> config.sectionInfo.Some?
    ensures QueriesOr(queries, ctx.writers.rag(Effective(config).numberOfQueries)).Ok? && config.sectionInfo.None? ==>
              r == Err(KeyError("section_info"))
    ensures FansOut(r, QueriesOr(queries, ctx.writers.rag(Effective(config).numberOfQueries)),
                    FileRunner(Effective(config).topEachQuery, ctx), Effective(config).topTotal, SectionOf(config), ctx.score)
  {
    var s := Effective(config);
    var qs :- QueriesOr(queries, ctx.writers.rag(s.numberOfQueries));
    RunnersShaped([], s.topEachQuery, ctx);
    FanOutShaped(qs, FileRunner(s.topEachQuery, ctx), s.topTotal, SectionOf(config), ctx.score, File);
    FanOut(qs, FileRunner(s.topEachQuery, ctx), s.topTotal, SectionOf(config), ctx.score)
  }

  /** The internal search ranks with the defaults whatever `config` asks
      for: under a faithful LLM, with at most 50 chunks collected, it returns
      the honest top 5 of the chunks its queries brought back. */
  lemma InternalSearchHonest(config: Config, queries: Option<seq<string>>, ctx: Context, judge: Judge)
    requires Faithful(ctx.score, judge) && config.sectionInfo.Some?
    requires QueriesOr(queries, ctx.writers.rag(3)).Ok?
    requires Collect(QueriesOr(queries, ctx.writers.rag(3)).value, InternalRunner(5, ctx)).Ok? ==>
               |Collect(QueriesOr(queries, ctx.writers.rag(3)).value, InternalRunner(5, ctx)).value| <= 50
    ensures var chunks := Collect(QueriesOr(queries, ctx.writers.rag(3)).value, InternalRunner(5, ctx));
            var ranked := GetTopChunks(chunks.value, 5, config.sectionInfo.value, ctx.score);
            && chunks.Ok?
            && HonestTop(ranked, Dedup(chunks.value), 5, SectionTitle(config.sectionInfo.value),
                         SectionDescription(config.sectionInfo.value), judge)
            && RunInternalSearch(config, queries, ctx) == Ok(ranked.value.picked)
  {
    var qs := QueriesOr(queries, ctx.writers.rag(3)).value;
    assert forall i :: 0 <= i < |qs| ==> InternalRunner(5, ctx)(qs[i]).Ok?;
    FanOutHonest(qs, InternalRunner(5, ctx), 5, SectionOf(config), ctx.score, judge);
  }

  /** `run_url_search`: every query is answered from the given urls. */
  function RunUrlSearch(urls: seq<string>, config: Config, queries: Option<seq<string>>, ctx: Context): (r: Result<seq<Chunk>>)
    ensures r.Ok? && Effective(config).topTotal >= 0 ==> |r.value| <= Effective(config).topTotal
    ensures r.Ok? ==> forall c :: c in r.value ==> Shaped(c, Url)
    ensures r.Ok? ==> config.sectionInfo.Some?
    ensures FansOut(r, QueriesOr(queries, ctx.writers.rag(Effective(config).numberOfQueries)),
                    UrlRunner(urls, Effective(config).topEachQuery, ctx), Effective(config).topTotal, SectionOf(config), ctx.score)
  {
    var s := Effective(config);
    var qs :- QueriesOr(queries, ctx.writers.rag(s.numberOfQueries));
    RunnersShaped(urls, s.topEachQuery, ctx);
    FanOutShaped(qs, UrlRunner(urls, s.topEachQuery, ctx), s.topTotal, SectionOf(config), ctx.score, Url);
    FanOut(qs, UrlRunner(urls, s.topEachQuery, ctx), s.topTotal, SectionOf(config), ctx.score)
  }

  // ---------------------------------------------------------------------------
  // Task plan: `task_methods` and `task_index_map`
  // ---------------------------------------------------------------------------

  datatype Task = InternalTask | WebTask | FileTask | UrlTask

  /** The `task_methods` dict in insertion order, `None` for a task left out:
      internal and web always, file when files were uploaded, url when the
      additional information holds urls. */
  function TaskEntries(hasFiles: bool, hasUrls: bool): seq<Option<Task>> {
    FixedEntries(hasFiles) + [if hasUrls then Some(UrlTask) else None]
  }

  /** The first three entries of `task_methods`. */
  function FixedEntries(hasFiles: bool): seq<Option<Task>> {
    [Some(InternalTask), Some(WebTask), if hasFiles then Some(FileTask) else None]
  }

  /** The tasks handed to `asyncio.gather`, and where each one's result is. */
  datatype Plan = Plan(tasks: seq<Task>, index: map<Task, nat>)

  /** The loop over `task_methods`: each present task is appended and its
      position recorded. Every recorded task is found at its index, and the
      recorded tasks are exactly the present ones. */
  function Enumerate(entries: seq<Option<Task>>): (p: Plan)
    ensures forall k :: k in p.index <==> Some(k) in entries
    ensures forall k :: k in p.index ==> p.index[k] < |p.tasks| && p.tasks[p.index[k]] == k
    decreases |entries|
  {
    if |entries| == 0 then Plan([], map[])
    else
      var init := entries[..|entries| - 1];
      var p := Enumerate(init);
      assert entries == init + [entries[|entries| - 1]];
      match entries[|entries| - 1]
      case None => p
      case Some(k) => Plan(p.tasks + [k], p.index[k := |p.tasks|])
  }

  /** The plan `initiate_research` and `generate_section_chunks` build:
      internal first, web second, then file and url when present. */
  lemma ResearchPlan(hasFiles: bool, hasUrls: bool)
    ensures Enumerate(TaskEntries(hasFiles, hasUrls)).tasks
         == [InternalTask, WebTask] + (if hasFiles then [FileTask] else []) + (if hasUrls then [UrlTask] else [])
    ensures Enumerate(TaskEntries(hasFiles, hasUrls)).index[InternalTask] == 0
    ensures Enumerate(TaskEntries(hasFiles, hasUrls)).index[WebTask] == 1
    ensures FileTask in Enumerate(TaskEntries(hasFiles, hasUrls)).index <==> hasFiles
    ensures UrlTask in Enumerate(TaskEntries(hasFiles, hasUrls)).index <==> hasUrls
  {
    FixedPlan(hasFiles);
    EnumerateSnoc(FixedEntries(hasFiles), if hasUrls then Some(UrlTask) else None);
  }

  /** Internal and web always run, at indices 0 and 1; file follows when present. */
  lemma FixedPlan(hasFiles: bool)
    ensures Enumerate(FixedEntries(hasFiles)).tasks == [InternalTask, WebTask] + (if hasFiles then [FileTask] else [])
    ensures Enumerate(FixedEntries(hasFiles)).index[InternalTask] == 0
    ensures Enumerate(FixedEntries(hasFiles)).index[WebTask] == 1
    ensures FileTask in Enumerate(FixedEntries(hasFiles)).index <==> hasFiles
    ensures UrlTask !in Enumerate(FixedEntries(hasFiles)).index
  {
    var f := if hasFiles then Some(FileTask) else None;
    var two := [Some(InternalTask), Some(WebTask)];
    AlwaysPlan();
    EnumerateSnoc(two, f);
    assert two + [f] == FixedEntries(hasFiles);
  }

  /** The two searches that always run. */
  lemma AlwaysPlan()
    ensures Enumerate([Some(InternalTask), Some(WebTask)]) == Plan([InternalTask, WebTask], map[InternalTask := 0, WebTask := 1])
  {
    var none: seq<Option<Task>> := [];
    EnumerateSnoc(none, Some(InternalTask));
    EnumerateSnoc([Some(InternalTask)], Some(WebTask));
    assert [Some(InternalTask)] + [Some(WebTask)] == [Some(InternalTask), Some(WebTask)];
  }

  lemma EnumerateSnoc(entries: seq<Option<Task>>, x: Option<Task>)
    ensures x.None? ==> Enumerate(entries + [x]) == Enumerate(entries)
    ensures x.Some? ==>
              Enumerate(entries + [x])
              == Plan(Enumerate(entries).tasks + [x.value], Enumerate(entries).index[x.value := |Enumerate(entries).tasks|])
  {
    assert (entries + [x])[..|entries|] == entries;
  }

  /** `asyncio.gather(*tasks)`: every task's chunks, in task order. */
  function RunTasks(tasks: seq<Task>, run: Task -> Result<seq<Chunk>>): (r: Result<seq<seq<Chunk>>>)
    ensures r.Ok? <==> forall i :: 0 <= i < |tasks| ==> run(tasks[i]).Ok?
    ensures r.Ok? ==> |r.value| == |tasks| && forall i :: 0 <= i < |tasks| ==> r.value[i] == run(tasks[i]).value
  {
    var rs := seq(|tasks|, i requires 0 <= i < |tasks| => run(tasks[i]));
    assert forall i :: 0 <= i < |tasks| ==> rs[i] == run(tasks[i]);
    Gather(rs)
  }

  /** Gathered tasks return, in task order, what each task returned. */
  lemma TasksReturned(tasks: seq<Task>, run: Task -> Result<seq<Chunk>>)
    ensures RunTasks(tasks, run).Ok? ==> RunTasks(tasks, run).value == Returned(tasks, run)
  {
  }

  /** `StringUtil.extract_urls(report.report_additional_information)`:
      `re.findall` on `None` raises `TypeError`. */
  function ReportUrls(info: Option<string>): (r: Result<seq<string>>)
    ensures r.Ok? <==> info.Some?
    ensures r.Err? ==> r.error == TypeError
    ensures r.Ok? ==> forall i :: 0 <= i < |r.value| ==> StringUtil.UrlPrefix(r.value[i]) && Text.NoSpace(r.value[i])
  {
    match info
    case None => Err(TypeError)
    case Some(s) => Ok(StringUtil.ExtractUrls(s))
  }

  // ---------------------------------------------------------------------------
  // initiate_research
  // ---------------------------------------------------------------------------

  /** One entry of the `task_methods` of `initiate_research`. */
  function ResearchTask(task: Task, config: Config, queries: seq<string>, urls: seq<string>, ctx: Context): (r: Result<seq<Chunk>>)
    ensures r.Ok? ==> forall c :: c in r.value ==> Shaped(c, TaskKind(task))
  {
    match task
    case InternalTask => RunInternalSearch(config, Some(queries), ctx)
    case WebTask => RunWebSearch(config, None, ctx)
    case FileTask => RunCustomFileSearch(config, Some(queries), ctx)
    case UrlTask => RunUrlSearch(urls, config, Some(queries), ctx)
  }

  function TaskKind(task: Task): ChunkType {
    match task
    case InternalTask => Internal
    case WebTask => Web
    case FileTask => File
    case UrlTask => Url
  }

  /** The searches `initiate_research` gathers, with the plan that places
      their results. */
  datatype Gathered = Gathered(plan: Plan, results: seq<seq<Chunk>>)

  /** The gathered results line up with the plan, every result has the
      shape of its search, and internal and web always ran. */
  ghost predicate WellGathered(g: Gathered) {
    |g.results| == |g.plan.tasks|
    && (forall k :: k in g.plan.index ==> g.plan.index[k] < |g.results| && g.plan.tasks[g.plan.index[k]] == k)
    && (forall i :: 0 <= i < |g.results| ==> forall c :: c in g.results[i] ==> Shaped(c, TaskKind(g.plan.tasks[i])))
    && InternalTask in g.plan.index && WebTask in g.plan.index
  }

  /** The configuration the searches of `initiate_research` see: the
      caller's, with `section_info` set to an empty section. */
  function ResearchConfig(config: Config): Config {
    config.(sectionInfo := Some(Some(Section("", ""))))
  }

  /** How many shared queries `initiate_research` asks for. */
  function QueryCount(config: Config): int {
    config.numberOfQueries.GetOr(Defaults.numberOfQueries)
  }

  /** Everything `initiate_research` does before building the response: the
      urls of the additional information, the shared queries (as many as
      `number_of_queries`, default 3), `section_info` set to an empty
      section, and the gathered searches. */
  function ResearchResults(config: Config, hasFiles: bool, ctx: Context): (r: Result<Gathered>)
    ensures r.Ok? ==> WellGathered(r.value)
    ensures r.Ok? ==> (FileTask in r.value.plan.index <==> hasFiles)
    ensures r.Ok? ==> ctx.additionalInfo.Some?
                      && (UrlTask in r.value.plan.index <==> StringUtil.ExtractUrls(ctx.additionalInfo.value) != [])
    ensures r.Ok? ==> |r.value.results[r.value.plan.index[InternalTask]]| <= Defaults.topTotal
    ensures r.Ok? && Effective(config).topTotal >= 0 ==>
              |r.value.results[r.value.plan.index[WebTask]]| <= Effective(config).topTotal
    ensures ctx.additionalInfo.None? ==> r == Err(TypeError)
    ensures ctx.additionalInfo.Some? && ctx.writers.rag(QueryCount(config)).Err? ==>
              r == Err(ctx.writers.rag(QueryCount(config)).error)
    ensures r.Ok? ==>
              && ctx.writers.rag(QueryCount(config)).Ok?
              && r.value.plan == Enumerate(TaskEntries(hasFiles, StringUtil.ExtractUrls(ctx.additionalInfo.value) != []))
              && forall k :: k in r.value.plan.index ==>
                   ResearchTask(k, ResearchConfig(config), ctx.writers.rag(QueryCount(config)).value,
                                StringUtil.ExtractUrls(ctx.additionalInfo.value), ctx)
                   == Ok(r.value.results[r.value.plan.index[k]])
  {
    var urls :- ReportUrls(ctx.additionalInfo);
    var queries :- ctx.writers.rag(QueryCount(config));
    var cfg := ResearchConfig(config);
    var plan := Enumerate(TaskEntries(hasFiles, urls != []));
    var run := t => ResearchTask(t, cfg, queries, urls, ctx);
    var results :- RunTasks(plan.tasks, run);
    ResearchGathered(cfg, queries, urls, ctx, hasFiles, results);
    assert Effective(cfg) == Effective(config);
    Ok(Gathered(plan, results))
  }

  /** Results that are the successful searches of the research plan, one per
      task, are well gathered; internal search keeps to the default total,
      web search to the configured one. */
  lemma ResearchGathered(cfg: Config, queries: seq<string>, urls: seq<string>, ctx: Context, hasFiles: bool,
                         results: seq<seq<Chunk>>)
    requires |results| == |Enumerate(TaskEntries(hasFiles, urls != [])).tasks|
    requires forall i :: 0 <= i < |results| ==>
               ResearchTask(Enumerate(TaskEntries(hasFiles, urls != [])).tasks[i], cfg, queries, urls, ctx) == Ok(results[i])
    ensures var g := Gathered(Enumerate(TaskEntries(hasFiles, urls != [])), results);
            WellGathered(g)
            && (FileTask in g.plan.index <==> hasFiles)
            && (UrlTask in g.plan.index <==> urls != [])
            && |g.results[g.plan.index[InternalTask]]| <= Defaults.topTotal
            && (Effective(cfg).topTotal >= 0 ==> |g.results[g.plan.index[WebTask]]| <= Effective(cfg).topTotal)
  {
    var plan := Enumerate(TaskEntries(hasFiles, urls != []));
    ResearchPlan(hasFiles, urls != []);
    ResearchShaped(plan.tasks, results, cfg, queries, urls, ctx);
    ResearchSizes(cfg, queries, urls, ctx, results[0], results[1]);
  }

  /** Every successful search returns chunks of its own kind. */
  lemma ResearchShaped(tasks: seq<Task>, results: seq<seq<Chunk>>, cfg: Config, queries: seq<string>, urls: seq<string>, ctx: Context)
    requires |results| == |tasks|
    requires forall i :: 0 <= i < |results| ==> ResearchTask(tasks[i], cfg, queries, urls, ctx) == Ok(results[i])
    ensures forall i :: 0 <= i < |results| ==> forall c :: c in results[i] ==> Shaped(c, TaskKind(tasks[i]))
  {
    forall i | 0 <= i < |results|
      ensures forall c :: c in results[i] ==> Shaped(c, TaskKind(tasks[i]))
    {
      assert ResearchTask(tasks[i], cfg, queries, urls, ctx) == Ok(results[i]);
    }
  }

  /** Internal search keeps to the default total, web search to the
      configured one. */
  lemma ResearchSizes(cfg: Config, queries: seq<string>, urls: seq<string>, ctx: Context, internal: seq<Chunk>, web: seq<Chunk>)
    requires ResearchTask(InternalTask, cfg, queries, urls, ctx) == Ok(internal)
    requires ResearchTask(WebTask, cfg, queries, urls, ctx) == Ok(web)
    ensures |internal| <= Defaults.topTotal
    ensures Effective(cfg).topTotal >= 0 ==> |web| <= Effective(cfg).topTotal
  {
  }

  /** `[ChunkResponseModel(**c.model_dump()) for c in results[task_index_map[k]]]`,
      or the empty default when the task did not run. */
  function TaskResponses(g: Gathered, k: Task): Result<seq<ChunkResponse>>
    requires k in g.plan.index ==> g.plan.index[k] < |g.results|
  {
    if k in g.plan.index then ToChunkResponses(g.results[g.plan.index[k]]) else Ok([])
  }

  /** Search chunks always carry the fields a response requires, so the
      conversion never fails; each response is tagged with the chunk type. */
  lemma ShapedResponses(cs: seq<Chunk>, kind: ChunkType)
    requires forall c :: c in cs ==> Shaped(c, kind)
    ensures ToChunkResponses(cs).Ok?
    ensures |ToChunkResponses(cs).value| == |cs|
    ensures forall i :: 0 <= i < |cs| ==> ToChunkResponses(cs).value[i].kind == TypeTag(kind)
  {
    assert forall i :: 0 <= i < |cs| ==> cs[i] in cs;
  }

  /** `initiate_research`: the response lists the chunks of each search,
      converted in order. Once the searches succeed the response is built
      without fail; internal results are at most 5, web results at most the
      effective `top_total`, and a search that did not run leaves its list
      empty. */
  function InitiateResearch(config: Config, hasFiles: bool, ctx: Context): (r: Result<ResearchResponse>)
    ensures r.Ok? <==> ResearchResults(config, hasFiles, ctx).Ok?
    ensures r.Ok? ==> |r.value.internal| <= Defaults.topTotal
    ensures r.Ok? && Effective(config).topTotal >= 0 ==> |r.value.web| <= Effective(config).topTotal
    ensures r.Ok? && !hasFiles ==> r.value.file == []
    ensures r.Ok? && StringUtil.ExtractUrls(ctx.additionalInfo.value) == [] ==> r.value.url == []
    ensures r.Ok? ==> (forall x :: x in r.value.internal ==> x.kind == TypeTag(Internal))
                      && (forall x :: x in r.value.web ==> x.kind == TypeTag(Web))
                      && (forall x :: x in r.value.file ==> x.kind == TypeTag(File))
                      && (forall x :: x in r.value.url ==> x.kind == TypeTag(Url))
    ensures r.Ok? ==> ListsGathered(r.value, ResearchResults(config, hasFiles, ctx).value)
  {
    var g :- ResearchResults(config, hasFiles, ctx);
    ResponsesOfGathered(g);
    RespondKinds(g);
    RespondLists(g);
    Ok(Respond(g))
  }

  /** The list of a response that holds the chunks of `k`. */
  function ListOf(resp: ResearchResponse, k: Task): seq<ChunkResponse> {
    match k
    case InternalTask => resp.internal
    case WebTask => resp.web
    case FileTask => resp.file
    case UrlTask => resp.url
  }

  /** Each list of `resp` is its search's gathered chunks converted in order,
      and empty for a search that did not run. */
  ghost predicate ListsGathered(resp: ResearchResponse, g: Gathered) {
    forall k :: (k in g.plan.index ==> g.plan.index[k] < |g.results| && ToChunkResponses(g.results[g.plan.index[k]]) == Ok(ListOf(resp, k)))
                && (k !in g.plan.index ==> ListOf(resp, k) == [])
  }

  /** The response built from well-gathered research lists every search's
      chunks under its own key. */
  lemma RespondLists(g: Gathered)
    requires WellGathered(g)
    ensures forall k :: TaskResponses(g, k).Ok?
    ensures ListsGathered(Respond(g), g)
  {
    ResponsesOfGathered(g);
    var resp := Respond(g);
    forall k
      ensures k in g.plan.index ==> g.plan.index[k] < |g.results| && ToChunkResponses(g.results[g.plan.index[k]]) == Ok(ListOf(resp, k))
      ensures k !in g.plan.index ==> ListOf(resp, k) == []
    {
      RespondList(g, k);
    }
  }

  /** One search's list in the response is its converted chunks. */
  lemma RespondList(g: Gathered, k: Task)
    requires forall k :: k in g.plan.index ==> g.plan.index[k] < |g.results|
    requires forall k :: TaskResponses(g, k).Ok?
    ensures ListOf(Respond(g), k) == TaskResponses(g, k).value
    ensures k !in g.plan.index ==> ListOf(Respond(g), k) == []
  {
  }

  /** `ResearchResponseModel(internal=..., web=...)`, then `file` and `url`
      set when their tasks ran. */
  function Respond(g: Gathered): ResearchResponse
    requires forall k :: k in g.plan.index ==> g.plan.index[k] < |g.results|
    requires forall k :: TaskResponses(g, k).Ok?
  {
    ResearchResponse(TaskResponses(g, InternalTask).value, TaskResponses(g, WebTask).value,
                     TaskResponses(g, FileTask).value, TaskResponses(g, UrlTask).value)
  }

  /** Every list of well-gathered research converts, one response per chunk,
      each with its type tag; a task that did not run gives no responses. */
  lemma ResponsesOfGathered(g: Gathered)
    requires WellGathered(g)
    ensures forall k :: TaskResponses(g, k).Ok?
    ensures forall k, x :: x in TaskResponses(g, k).value ==> x.kind == TypeTag(TaskKind(k))
    ensures forall k :: k in g.plan.index ==> |TaskResponses(g, k).value| == |g.results[g.plan.index[k]]|
    ensures forall k :: k !in g.plan.index ==> TaskResponses(g, k).value == []
  {
    forall k ensures TaskResponses(g, k).Ok? && forall x :: x in TaskResponses(g, k).value ==> x.kind == TypeTag(TaskKind(k)) {
      TaskResponseKinds(g, k);
    }
    forall k | k in g.plan.index ensures |TaskResponses(g, k).value| == |g.results[g.plan.index[k]]| {
      var i := g.plan.index[k];
      ShapedResponses(g.results[i], TaskKind(k));
    }
  }

  /** Each list of the response holds only chunks of its own type. */
  lemma RespondKinds(g: Gathered)
    requires WellGathered(g)
    ensures forall k :: TaskResponses(g, k).Ok?
    ensures forall x :: x in Respond(g).internal ==> x.kind == TypeTag(Internal)
    ensures forall x :: x in Respond(g).web ==> x.kind == TypeTag(Web)
    ensures forall x :: x in Respond(g).file ==> x.kind == TypeTag(File)
    ensures forall x :: x in Respond(g).url ==> x.kind == TypeTag(Url)
  {
    forall k ensures TaskResponses(g, k).Ok? {
      TaskResponseKinds(g, k);
    }
    var r := Respond(g);
    TaskResponseKinds(g, InternalTask);
    assert r.internal == TaskResponses(g, InternalTask).value && TaskKind(InternalTask) == Internal;
    TaskResponseKinds(g, WebTask);
    assert r.web == TaskResponses(g, WebTask).value && TaskKind(WebTask) == Web;
    TaskResponseKinds(g, FileTask);
    assert r.file == TaskResponses(g, FileTask).value && TaskKind(FileTask) == File;
    TaskResponseKinds(g, UrlTask);
    assert r.url == TaskResponses(g, UrlTask).value && TaskKind(UrlTask) == Url;
  }

  /** One search's responses all carry its type tag. */
  lemma TaskResponseKinds(g: Gathered, k: Task)
    requires WellGathered(g)
    ensures TaskResponses(g, k).Ok?
    ensures forall x :: x in TaskResponses(g, k).value ==> x.kind == TypeTag(TaskKind(k))
  {
    if k in g.plan.index {
      ShapedResponses(g.results[g.plan.index[k]], TaskKind(k));
    }
  }

  // ---------------------------------------------------------------------------
  // generate_section_chunks
  // ---------------------------------------------------------------------------

  /** One entry of the `task_methods` of `generate_section_chunks`: the web
      search writes its own queries for the section. */
  function SectionTask(task: Task, section: Section, config: Config, queries: seq<string>, urls: seq<string>,
                       ctx: Context): (r: Result<seq<Chunk>>)
    ensures r.Ok? ==> forall c :: c in r.value ==> Shaped(c, TaskKind(task))
    ensures r.Ok? && config.topTotal == Some(Defaults.topTotal) ==> |r.value| <= Defaults.topTotal
    ensures task != WebTask ==> r == ResearchTask(task, config, queries, urls, ctx)
    ensures task == WebTask ==>
              FansOut(r, ctx.writers.sectionWeb(section, Effective(config).numberOfQueries),
                      WebRunner(Effective(config).topEachQuery, ctx), Effective(config).topTotal, SectionOf(config), ctx.score)
  {
    match task
    case InternalTask => RunInternalSearch(config, Some(queries), ctx)
    case WebTask => RunWebSearchForSection(section, config, None, ctx)
    case FileTask => RunCustomFileSearch(config, Some(queries), ctx)
    case UrlTask => RunUrlSearch(urls, config, Some(queries), ctx)
  }

  /** The configuration `generate_section_chunks` builds: the defaults, and
      the section as `section_info`. */
  function SectionConfig(section: Section): Config {
    Config(Some(Defaults.topTotal), Some(Defaults.topEachQuery), Some(Defaults.numberOfQueries), Some(Some(section)))
  }

  /** The searches of `generate_section_chunks`, by task. */
  function SectionRun(section: Section, queries: seq<string>, urls: seq<string>, ctx: Context): Task -> Result<seq<Chunk>> {
    t => SectionTask(t, section, SectionConfig(section), queries, urls, ctx)
  }

  /** The chunks `generate_section_chunks` gathers before sorting: the
      searches' results joined in task order (internal, web, then file and
      url when present), at most 5 from each of at most four searches, every
      one of some search's type. */
  function SectionCandidates(section: Section, hasFiles: bool, ctx: Context): (r: Result<seq<Chunk>>)
    ensures r.Ok? ==> |r.value| <= 4 * Defaults.topTotal
    ensures r.Ok? ==> forall c :: c in r.value ==> exists k :: Shaped(c, TaskKind(k))
    ensures r.Ok? ==> ctx.additionalInfo.Some?
    ensures r.Ok? ==>
              && ctx.writers.sectionRag(section, Defaults.numberOfQueries).Ok?
              && var urls := StringUtil.ExtractUrls(ctx.additionalInfo.value);
                 var run := SectionRun(section, ctx.writers.sectionRag(section, Defaults.numberOfQueries).value, urls, ctx);
                 var tasks := Enumerate(TaskEntries(hasFiles, urls != [])).tasks;
                 && (forall i :: 0 <= i < |tasks| ==> run(tasks[i]).Ok?)
                 && r.value == Flatten(Returned(tasks, run))
  {
    var config := SectionConfig(section);
    var queries :- ctx.writers.sectionRag(section, Defaults.numberOfQueries);
    var urls :- ReportUrls(ctx.additionalInfo);
    var plan := Enumerate(TaskEntries(hasFiles, urls != []));
    ResearchPlan(hasFiles, urls != []);
    var run := SectionRun(section, queries, urls, ctx);
    var results :- RunTasks(plan.tasks, run);
    TasksReturned(plan.tasks, run);
    forall i | 0 <= i < |results|
      ensures SectionTask(plan.tasks[i], section, config, queries, urls, ctx) == Ok(results[i])
    {
      assert run(plan.tasks[i]).Ok?;
    }
    SectionResults(plan.tasks, results, section, config, queries, urls, ctx);
    FlattenLength(results, Defaults.topTotal);
    FlattenShaped(plan.tasks, results);
    Ok(Flatten(results))
  }

  /** Every successful section search returns at most the default total, of
      its own kind. */
  lemma SectionResults(tasks: seq<Task>, results: seq<seq<Chunk>>, section: Section, config: Config,
                       queries: seq<string>, urls: seq<string>, ctx: Context)
    requires config.topTotal == Some(Defaults.topTotal)
    requires |results| == |tasks|
    requires forall i :: 0 <= i < |results| ==> SectionTask(tasks[i], section, config, queries, urls, ctx) == Ok(results[i])
    ensures forall i :: 0 <= i < |results| ==> |results[i]| <= Defaults.topTotal
    ensures forall i :: 0 <= i < |results| ==> forall c :: c in results[i] ==> Shaped(c, TaskKind(tasks[i]))
  {
    forall i | 0 <= i < |results|
      ensures |results[i]| <= Defaults.topTotal
      ensures forall c :: c in results[i] ==> Shaped(c, TaskKind(tasks[i]))
    {
      assert SectionTask(tasks[i], section, config, queries, urls, ctx) == Ok(results[i]);
    }
  }

  /** Flattening results of the searches keeps every chunk shaped as some
      search's result. */
  lemma FlattenShaped(tasks: seq<Task>, results: seq<seq<Chunk>>)
    requires |results| == |tasks|
    requires forall i :: 0 <= i < |results| ==> forall c :: c in results[i] ==> Shaped(c, TaskKind(tasks[i]))
    ensures forall c :: c in Flatten(results) ==> exists k :: Shaped(c, TaskKind(k))
  {
    forall c | c in Flatten(results) ensures exists k :: Shaped(c, TaskKind(k)) {
      FlattenMember(results, c);
      var i :| 0 <= i < |results| && c in results[i];
      assert Shaped(c, TaskKind(tasks[i]));
    }
  }

  function LlmScore(c: Chunk): int {
    c.llmScore
  }

  /** `generate_section_chunks`: the 5 gathered chunks with the highest LLM
      scores, highest first. */
  function GenerateSectionChunks(section: Section, hasFiles: bool, ctx: Context): (r: Result<seq<Chunk>>)
    ensures r.Ok? <==> SectionCandidates(section, hasFiles, ctx).Ok?
    ensures r.Ok? ==> TopByKey(r.value, SectionCandidates(section, hasFiles, ctx).value, LlmScore, Defaults.topTotal)
  {
    var cs :- SectionCandidates(section, hasFiles, ctx);
    SortedPrefixIsTop(cs, LlmScore, Defaults.topTotal);
    Ok(PyPrefix(SortDesc(cs, LlmScore), Defaults.topTotal))
  }

  // ---------------------------------------------------------------------------
  // run_custom_query
  // ---------------------------------------------------------------------------

  /** The per-query search `run_custom_query` dispatches on the chunk type;
      the url search reads the urls of the additional information. */
  function CustomQueryChunks(query: string, kind: ChunkType, top: int, ctx: Context): (r: Result<seq<Chunk>>)
    ensures kind == Internal || kind == File ==> r.Ok?
    ensures kind == Web ==> (r.Ok? <==> ctx.backends.web(query, top).Ok?)
    ensures kind == Url ==> (r.Ok? <==> ctx.additionalInfo.Some?
                                         && ctx.backends.exa(StringUtil.ExtractUrls(ctx.additionalInfo.value), query, top).Ok?)
    ensures r.Ok? ==> NoDupKeys(r.value) && forall c :: c in r.value ==> Shaped(c, kind)
  {
    RunnersShaped([], top, ctx);
    match kind
    case Internal => InternalRunner(top, ctx)(query)
    case Web => WebRunner(top, ctx)(query)
    case File => FileRunner(top, ctx)(query)
    case Url =>
      var urls :- ReportUrls(ctx.additionalInfo);
      RunnersShaped(urls, top, ctx);
      UrlRunner(urls, top, ctx)(query)
  }

  /** `run_custom_query`: the reranked list is computed and then replaced by
      the search's own list. The per-query searches already drop repeats, so
      the reranker's list holds the very chunk objects of the search list, in
      the same order, and its score writes show through: the result is the
      search list, in search order and complete, with LLM scores written. */
  function RunCustomQuery(query: string, kind: ChunkType, top: int, ctx: Context): (r: Result<seq<Chunk>>)
    ensures r.Ok? <==> CustomQueryChunks(query, kind, top, ctx).Ok?
                       && GetTopChunks(CustomQueryChunks(query, kind, top, ctx).value, top, None, ctx.score).Ok?
    ensures r.Ok? ==> |r.value| == |CustomQueryChunks(query, kind, top, ctx).value|
    ensures r.Ok? ==> forall p :: 0 <= p < |r.value| ==> Rescored(r.value[p], CustomQueryChunks(query, kind, top, ctx).value[p])
    ensures r.Ok? ==> r.value == GetTopChunks(CustomQueryChunks(query, kind, top, ctx).value, top, None, ctx.score).value.updated
  {
    var chunks :- CustomQueryChunks(query, kind, top, ctx);
    var ranked :- GetTopChunks(chunks, top, None, ctx.score);
    DedupNoDupIdentity(chunks);
    Ok(ranked.updated)
  }

  /** Under an LLM that returns the ids it was sent, with at most 50 chunks
      found, `run_custom_query` succeeds, and its list is the search's list
      with exactly the picked chunks rescored: each pick sits at its position
      with the score its reply gave, and every other chunk is unchanged. */
  lemma CustomQueryScores(query: string, kind: ChunkType, top: int, ctx: Context)
    requires IdFaithful(ctx.score)
    requires CustomQueryChunks(query, kind, top, ctx).Ok? ==> |CustomQueryChunks(query, kind, top, ctx).value| <= 50
    ensures CustomQueryChunks(query, kind, top, ctx).Ok? ==>
              var chunks := CustomQueryChunks(query, kind, top, ctx).value;
              var ranked := GetTopChunks(chunks, top, None, ctx.score);
              var r := RunCustomQuery(query, kind, top, ctx);
              && ranked.Ok? && r.Ok?
              && |r.value| == |chunks|
              && |ranked.value.picked| == |PyPrefix(chunks, top)|
              && (forall t :: 0 <= t < |ranked.value.positions| ==>
                    ranked.value.positions[t] < |r.value| && r.value[ranked.value.positions[t]] == ranked.value.picked[t])
              && (forall p :: 0 <= p < |chunks| && p !in ranked.value.positions ==> r.value[p] == chunks[p])
  {
    if CustomQueryChunks(query, kind, top, ctx).Ok? {
      var chunks := CustomQueryChunks(query, kind, top, ctx).value;
      DedupNoDupIdentity(chunks);
      IdsTopChunksAsWritten(chunks, top, None, ctx.score);
    }
  }
}

=== FILE: sorting.dfy ===
/** Python's `sorted(xs, key=f, reverse=True)` on integer keys: a stable sort
    into non-increasing key order. Equal keys keep their input order, as
    Python guarantees for `reverse=True` too.
 */
module Sorting {

  predicate SortedDesc<T>(xs: seq<T>, key: T -> int) {
    forall i, j :: 0 <= i < j < |xs| ==> key(xs[i]) >= key(xs[j])
  }

  /** The elements with key `v`, in order. */
  function WithKey<T>(xs: seq<T>, key: T -> int, v: int): (r: seq<T>)
    ensures |r| <= |xs|
  {
    if |xs| == 0 then []
    else (if key(xs[0]) == v then [xs[0]] else []) + WithKey(xs[1..], key, v)
  }

  /** `x` placed after every element whose key is at least its own. */
  function Insert<T>(x: T, s: seq<T>, key: T -> int): (r: seq<T>)
    ensures |r| == |s| + 1
    ensures forall k :: 0 <= k < |r| ==> r[k] == x || r[k] in s
  {
    if |s| == 0 || key(s[0]) < key(x) then [x] + s
    else [s[0]] + Insert(x, s[1..], key)
  }

  /** Insertion sort, taking the elements in input order. */
  function SortDesc<T(==)>(xs: seq<T>, key: T -> int): (r: seq<T>)
    ensures |r| == |xs|
    ensures SortedDesc(r, key)
    ensures multiset(r) == multiset(xs)
    ensures forall v :: WithKey(r, key, v) == WithKey(xs, key, v)
  {
    if |xs| == 0 then []
    else
      var p := xs[..|xs| - 1];
      var x := xs[|xs| - 1];
      var s := SortDesc(p, key);
      assert xs == p + [x];
      InsertStep(p, x, s, key);
      Insert(x, s, key)
  }

  /** One step of the insertion sort keeps the result a stable sort of the
      input read so far. */
  lemma InsertStep<T>(p: seq<T>, x: T, s: seq<T>, key: T -> int)
    requires SortedDesc(s, key)
    requires multiset(s) == multiset(p)
    requires forall v :: WithKey(s, key, v) == WithKey(p, key, v)
    ensures SortedDesc(Insert(x, s, key), key)
    ensures multiset(Insert(x, s, key)) == multiset(p + [x])
    ensures forall v :: WithKey(Insert(x, s, key), key, v) == WithKey(p + [x], key, v)
  {
    InsertSorted(x, s, key);
    InsertMultiset(x, s, key);
    forall v ensures WithKey(Insert(x, s, key), key, v) == WithKey(p + [x], key, v) {
      InsertWithKey(x, s, key, v);
      WithKeyAppend(p, [x], key, v);
    }
  }

  lemma {:induction false} InsertSorted<T>(x: T, s: seq<T>, key: T -> int)
    requires SortedDesc(s, key)
    ensures SortedDesc(Insert(x, s, key), key)
  {
    if |s| > 0 && key(s[0]) >= key(x) {
      InsertSorted(x, s[1..], key);
      var t := Insert(x, s[1..], key);
      assert forall k :: 0 <= k < |t| ==> key(t[k]) <= key(s[0]) by {
        forall k | 0 <= k < |t| ensures key(t[k]) <= key(s[0]) {
          if t[k] != x {
            var m :| 0 <= m < |s[1..]| && s[1..][m] == t[k];
            assert s[m + 1] == t[k];
          }
        }
      }
    }
  }

  lemma {:induction false} InsertMultiset<T>(x: T, s: seq<T>, key: T -> int)
    ensures multiset(Insert(x, s, key)) == multiset(s) + multiset{x}
  {
    if |s| > 0 && key(s[0]) >= key(x) {
      InsertMultiset(x, s[1..], key);
      assert s == [s[0]] + s[1..];
    }
  }

  lemma {:induction false} WithKeyAppend<T>(a: seq<T>, b: seq<T>, key: T -> int, v: int)
    ensures WithKey(a + b, key, v) == WithKey(a, key, v) + WithKey(b, key, v)
  {
    if |a| == 0 {
      assert a + b == b;
    } else {
      var head := if key(a[0]) == v then [a[0]] else [];
      assert (a + b)[0] == a[0];
      assert (a + b)[1..] == a[1..] + b;
      assert WithKey(a + b, key, v) == head + WithKey(a[1..] + b, key, v);
      WithKeyAppend(a[1..], b, key, v);
      assert WithKey(a, key, v) == head + WithKey(a[1..], key, v);
      assert head + (WithKey(a[1..], key, v) + WithKey(b, key, v))
          == (head + WithKey(a[1..], key, v)) + WithKey(b, key, v);
    }
  }

  /** In a sorted list whose first key is below `v`, nothing has key `v`. */
  lemma {:induction false} WithKeyBelow<T>(s: seq<T>, key: T -> int, v: int)
    requires SortedDesc(s, key)
    requires |s| > 0 ==> key(s[0]) < v
    ensures WithKey(s, key, v) == []
  {
    if |s| > 0 {
      WithKeyBelow(s[1..], key, v);
    }
  }

  /** Inserting `x` puts it after all earlier elements with its key. */
  lemma {:induction false} InsertWithKey<T>(x: T, s: seq<T>, key: T -> int, v: int)
    requires SortedDesc(s, key)
    ensures WithKey(Insert(x, s, key), key, v) == WithKey(s, key, v) + (if key(x) == v then [x] else [])
  {
    if |s| == 0 || key(s[0]) < key(x) {
      if key(x) == v {
        WithKeyBelow(s, key, v);
      }
      assert ([x] + s)[1..] == s;
    } else {
      InsertWithKey(x, s[1..], key, v);
      assert ([s[0]] + Insert(x, s[1..], key))[1..] == Insert(x, s[1..], key);
    }
  }

  /** Python slicing `xs[:n]`: a negative `n` counts from the end. */
  function PyPrefix<T>(xs: seq<T>, n: int): (r: seq<T>)
    ensures 0 <= n ==> |r| == if n < |xs| then n else |xs|
    ensures n < 0 ==> |r| == if |xs| + n > 0 then |xs| + n else 0
    ensures r == xs[..|r|]
  {
    if n >= 0 then (if n < |xs| then xs[..n] else xs)
    else if |xs| + n > 0 then xs[..|xs| + n] else []
  }

  /** `r` is the `n` highest-keyed elements of `xs`, highest first: as many as
      there are (at most `n`), drawn from `xs`, and no element left out has a
      higher key than one taken. */
  ghost predicate TopByKey<T>(r: seq<T>, xs: seq<T>, key: T -> int, n: nat) {
    |r| == (if n < |xs| then n else |xs|)
    && SortedDesc(r, key)
    && multiset(r) <= multiset(xs)
    && forall x, y :: x in multiset(xs) - multiset(r) && y in r ==> key(x) <= key(y)
  }

  /** `sorted(xs, key, reverse=True)[:n]` takes the top `n`. */
  lemma SortedPrefixIsTop<T>(xs: seq<T>, key: T -> int, n: nat)
    ensures TopByKey(PyPrefix(SortDesc(xs, key), n), xs, key, n)
  {
    var s := SortDesc(xs, key);
    var r := PyPrefix(s, n);
    assert r == s[..|r|];
    SortedCut(s, key, |r|);
  }

  /** The head of a sorted list is sorted, drawn from the list, and keys at
      least as high as everything left after it. */
  lemma SortedCut<T>(s: seq<T>, key: T -> int, m: nat)
    requires SortedDesc(s, key) && m <= |s|
    ensures SortedDesc(s[..m], key)
    ensures multiset(s[..m]) <= multiset(s)
    ensures forall x, y :: x in multiset(s) - multiset(s[..m]) && y in s[..m] ==> key(x) <= key(y)
  {
    SplitSorted(s, key, m);
    assert s == s[..m] + s[m..];
  }

  /** Cutting a sorted list: everything after the cut keys no higher than
      anything before it. */
  lemma SplitSorted<T>(s: seq<T>, key: T -> int, m: nat)
    requires SortedDesc(s, key) && m <= |s|
    ensures multiset(s) - multiset(s[..m]) == multiset(s[m..])
    ensures forall x, y :: x in multiset(s[m..]) && y in s[..m] ==> key(x) <= key(y)
  {
    assert s == s[..m] + s[m..];
    forall x, y | x in multiset(s[m..]) && y in s[..m] ensures key(x) <= key(y) {
      var j :| 0 <= j < |s[m..]| && s[m..][j] == x;
      var i :| 0 <= i < m && s[..m][i] == y;
      assert s[i] == y && s[m + j] == x;
    }
  }
}

=== FILE: string_util.dfy ===
/** `StringUtil` (backend/app/utils/string.py): citation-marker extraction,
    NUL cleansing and URL extraction.

    The two regular expressions of that file are modelled by hand-written
    scanners that follow Python's `re` semantics for these particular patterns
    (leftmost match, scanning resumes after a match, one character forward
    when no match starts at a position).
 */
module StringUtil {
  import opened Outcomes
  import opened Text

  // ---------------------------------------------------------------------------
  // Distinct values (the `set(...)` of `extract_chunks_and_content`)
  // ---------------------------------------------------------------------------

  /** The values of `xs` not in `seen`, each once. Python's `list(set(xs))` has
      an unspecified order; this model lists them in first-occurrence order,
      and no contract of the model depends on that order. */
  function DistinctFrom(xs: seq<string>, seen: set<string>): (r: seq<string>)
    ensures NoDup(r)
    ensures forall x :: x in r <==> x in xs && x !in seen
  {
    if |xs| == 0 then []
    else if xs[0] in seen then DistinctFrom(xs[1..], seen)
    else [xs[0]] + DistinctFrom(xs[1..], seen + {xs[0]})
  }

  function Distinct(xs: seq<string>): (r: seq<string>)
    ensures NoDup(r)
    ensures forall x :: x in r <==> x in xs
  {
    DistinctFrom(xs, {})
  }

  // ---------------------------------------------------------------------------
  // Citation markers: the pattern  <citation>(.*?)</citation>
  // ---------------------------------------------------------------------------

  const Open: string := "<citation>"
  const Close: string := "</citation>"

  /** The position in `t` where the non-greedy `(.*?)` stops: the first place
      `</citation>` starts, provided no newline (which `.` does not match)
      comes before it. */
  function FindClose(t: string): (r: Option<nat>)
    ensures r.Some? ==> r.value + |Close| <= |t| && StartsWith(t[r.value..], Close)
    ensures r.Some? ==> '\n' !in t[..r.value]
    ensures r.Some? ==> forall k :: 0 <= k < r.value ==> !StartsWith(t[k..], Close)
    ensures r.None? ==> forall k :: 0 <= k <= |t| && '\n' !in t[..k] ==> !StartsWith(t[k..], Close)
  {
    if StartsWith(t, Close) then Some(0)
    else if |t| == 0 || t[0] == '\n' then None
    else match FindClose(t[1..])
      case None =>
        CloseAbsentShift(t);
        None
      case Some(j) =>
        CloseFirstShift(t, j);
        Some(j + 1)
  }

  /** No close tag before a newline in `t[1..]`, none at 0 and no newline at
      0: none before a newline in `t`. */
  lemma CloseAbsentShift(t: string)
    requires |t| > 0 && t[0] != '\n' && !StartsWith(t, Close)
    requires forall k :: 0 <= k <= |t[1..]| && '\n' !in t[1..][..k] ==> !StartsWith(t[1..][k..], Close)
    ensures forall k :: 0 <= k <= |t| && '\n' !in t[..k] ==> !StartsWith(t[k..], Close)
  {
    forall k | 1 <= k <= |t| && '\n' !in t[..k]
      ensures !StartsWith(t[k..], Close)
    {
      assert t[k..] == t[1..][k - 1..];
      assert t[..k] == [t[0]] + t[1..][..k - 1];
    }
  }

  /** The first close tag of `t[1..]` at `j`, none at 0: the first of `t` is
      at `j + 1`. */
  lemma CloseFirstShift(t: string, j: nat)
    requires |t| > 0 && t[0] != '\n' && !StartsWith(t, Close)
    requires j + |Close| <= |t[1..]| && StartsWith(t[1..][j..], Close)
    requires '\n' !in t[1..][..j]
    requires forall k :: 0 <= k < j ==> !StartsWith(t[1..][k..], Close)
    ensures j + 1 + |Close| <= |t| && StartsWith(t[j + 1..], Close)
    ensures '\n' !in t[..j + 1]
    ensures forall k :: 0 <= k < j + 1 ==> !StartsWith(t[k..], Close)
  {
    assert t[j + 1..] == t[1..][j..];
    assert t[..j + 1] == [t[0]] + t[1..][..j];
    forall k | 1 <= k < j + 1
      ensures !StartsWith(t[k..], Close)
    {
      assert t[k..] == t[1..][k - 1..];
    }
  }

  /** The text as the pattern sees it: single characters that no match starts
      at, and complete markers carrying their captured id. */
  datatype Piece = Plain(c: char) | Marker(id: string)

  predicate MarkerAt(s: string) {
    StartsWith(s, Open) && FindClose(s[|Open|..]).Some?
  }

  /** Left-to-right scan for non-overlapping leftmost matches. */
  function Tokenize(s: string): (ps: seq<Piece>)
    decreases |s|
  {
    if |s| == 0 then []
    else if MarkerAt(s) then
      var j := FindClose(s[|Open|..]).value;
      [Marker(s[|Open|..|Open| + j])] + Tokenize(s[|Open| + j + |Close|..])
    else [Plain(s[0])] + Tokenize(s[1..])
  }

  function Render(ps: seq<Piece>): string {
    if |ps| == 0 then []
    else match ps[0]
      case Plain(c) => [c] + Render(ps[1..])
      case Marker(id) => Open + id + Close + Render(ps[1..])
  }

  /** `citation_pattern.sub('', content)`: the plain characters only. */
  function Texts(ps: seq<Piece>): string {
    if |ps| == 0 then []
    else match ps[0]
      case Plain(c) => [c] + Texts(ps[1..])
      case Marker(_) => Texts(ps[1..])
  }

  /** `citation_pattern.findall(content)`: the captured ids, in order. */
  function Ids(ps: seq<Piece>): (ids: seq<string>)
    ensures |ids| <= |ps|
  {
    if |ps| == 0 then []
    else match ps[0]
      case Plain(_) => Ids(ps[1..])
      case Marker(id) => [id] + Ids(ps[1..])
  }

  /** An id the pattern can capture: no newline, and no `</citation>` inside
      (the match is non-greedy). */
  predicate Capturable(id: string) {
    '\n' !in id && forall k :: 0 <= k <= |id| ==> !StartsWith(id[k..], Close)
  }

  /** How a match splits the text it starts: marker, captured id, rest. */
  lemma MarkerSplit(s: string)
    requires MarkerAt(s)
    ensures var j := FindClose(s[|Open|..]).value;
      && s == Open + s[|Open|..|Open| + j] + Close + s[|Open| + j + |Close|..]
      && Capturable(s[|Open|..|Open| + j])
  {
    var t := s[|Open|..];
    var j := FindClose(t).value;
    var a, b := |Open| + j, |Open| + j + |Close|;
    assert s[..|Open|] == Open;
    assert s[a..b] == t[j..j + |Close|] == Close;
    assert s[|Open|..a] == t[..j];
    CutFour(s, |Open|, a, b);
    CapturedIsCapturable(t, j);
  }

  /** Three cuts split a text into four consecutive parts. */
  lemma CutFour(s: string, a: nat, b: nat, c: nat)
    requires a <= b <= c <= |s|
    ensures s == s[..a] + s[a..b] + s[b..c] + s[c..]
  {
    assert s[..b] == s[..a] + s[a..b];
    assert s[..c] == s[..b] + s[b..c];
    assert s == s[..c] + s[c..];
  }

  /** What the non-greedy group stops short of can itself be captured. */
  lemma CapturedIsCapturable(t: string, j: nat)
    requires FindClose(t) == Some(j)
    ensures Capturable(t[..j])
  {
    var id := t[..j];
    forall k | 0 <= k <= |id|
      ensures !StartsWith(id[k..], Close)
    {
      if k + |Close| <= |id| {
        assert id[k..][..|Close|] == t[k..][..|Close|];
      }
    }
  }

  /** Scanning loses nothing: the pieces spell the input back exactly. */
  lemma {:induction false} TokenizeRender(s: string)
    ensures Render(Tokenize(s)) == s
    decreases |s|
  {
    if |s| == 0 {
    } else if MarkerAt(s) {
      var j := FindClose(s[|Open|..]).value;
      var rest := s[|Open| + j + |Close|..];
      MarkerSplit(s);
      TokenizeRender(rest);
    } else {
      TokenizeRender(s[1..]);
    }
  }

  /** Every id the scan captures is one the pattern can capture. */
  lemma {:induction false} TokenizeCapturable(s: string)
    ensures forall id :: id in Ids(Tokenize(s)) ==> Capturable(id)
    decreases |s|
  {
    if |s| == 0 {
    } else if MarkerAt(s) {
      var j := FindClose(s[|Open|..]).value;
      var rest := s[|Open| + j + |Close|..];
      MarkerSplit(s);
      TokenizeCapturable(rest);
      assert Ids(Tokenize(s)) == [s[|Open|..|Open| + j]] + Ids(Tokenize(rest));
    } else {
      TokenizeCapturable(s[1..]);
      assert Ids(Tokenize(s)) == Ids(Tokenize(s[1..]));
    }
  }

  lemma {:induction false} RenderAppend(a: seq<Piece>, b: seq<Piece>)
    ensures Render(a + b) == Render(a) + Render(b)
  {
    if |a| == 0 {
      assert a + b == b;
    } else {
      assert (a + b)[1..] == a[1..] + b;
      RenderAppend(a[1..], b);
    }
  }

  /** A character that cannot start either marker. */
  predicate Inert(c: char) {
    c != '<'
  }

  /** Pieces whose rendering scans back to the same pieces: plain characters
      that cannot start a marker, and ids with neither `<` nor a newline. */
  predicate WellFormed(ps: seq<Piece>) {
    forall i :: 0 <= i < |ps| ==>
      match ps[i]
      case Plain(c) => Inert(c)
      case Marker(id) => '<' !in id && '\n' !in id
  }

  lemma FindCloseOfRendered(id: string, rest: string)
    requires '<' !in id && '\n' !in id
    ensures FindClose(id + Close + rest) == Some(|id|)
    decreases |id|
  {
    var t := id + Close + rest;
    if |id| == 0 {
      assert t[..|Close|] == Close;
    } else {
      assert !StartsWith(t, Close) by { assert t[0] == id[0]; }
      assert t[1..] == id[1..] + Close + rest;
      FindCloseOfRendered(id[1..], rest);
    }
  }

  /** Citation round trip: writing well-formed markers into inert text and
      scanning the result recovers exactly the pieces written, so the cleaned
      text and the id list are those that were put in. */
  lemma {:induction false} RenderTokenize(ps: seq<Piece>)
    requires WellFormed(ps)
    ensures Tokenize(Render(ps)) == ps
  {
    if |ps| > 0 {
      assert WellFormed(ps[1..]);
      RenderTokenize(ps[1..]);
      match ps[0]
      case Plain(c) =>
        TokenizePlain(c, Render(ps[1..]));
      case Marker(id) =>
        TokenizeMarker(id, Render(ps[1..]));
    }
  }

  /** A character that cannot start a marker is scanned on its own. */
  lemma TokenizePlain(c: char, rest: string)
    requires Inert(c)
    ensures Tokenize([c] + rest) == [Plain(c)] + Tokenize(rest)
  {
    var s := [c] + rest;
    assert !StartsWith(s, Open) by { assert s[0] == c; }
    assert s[1..] == rest;
  }

  /** A well-formed marker is scanned as one piece. */
  lemma TokenizeMarker(id: string, rest: string)
    requires '<' !in id && '\n' !in id
    ensures Tokenize(Open + id + Close + rest) == [Marker(id)] + Tokenize(rest)
  {
    var s := Open + id + Close + rest;
    assert s[..|Open|] == Open;
    assert s[|Open|..] == id + Close + rest;
    FindCloseOfRendered(id, rest);
    assert s[|Open|..|Open| + |id|] == id;
    assert s[|Open| + |id| + |Close|..] == rest;
  }

  /** The two results of `extract_chunks_and_content`. */
  datatype Extracted = Extracted(content: string, citations: seq<string>)

  /** `StringUtil.extract_chunks_and_content`: every marker removed in one
      left-to-right pass, the rest stripped; the captured ids, each once. */
  function ExtractChunksAndContent(s: string): (r: Extracted)
    ensures NoDup(r.citations)
    ensures forall id :: id in r.citations <==> id in Ids(Tokenize(s))
    ensures forall id :: id in r.citations ==> Capturable(id)
    ensures |r.content| <= |s|
  {
    var ps := Tokenize(s);
    TokenizeRender(s);
    TokenizeCapturable(s);
    TextsShorter(ps);
    Extracted(Strip(Texts(ps)), Distinct(Ids(ps)))
  }

  lemma {:induction false} TextsShorter(ps: seq<Piece>)
    ensures |Texts(ps)| <= |Render(ps)|
  {
    if |ps| > 0 {
      TextsShorter(ps[1..]);
    }
  }

  /** Each character as a piece of its own. */
  function Plains(s: string): (ps: seq<Piece>)
    ensures |ps| == |s|
    ensures forall k :: 0 <= k < |s| ==> ps[k] == Plain(s[k])
  {
    if |s| == 0 then [] else [Plain(s[0])] + Plains(s[1..])
  }

  lemma {:induction false} NoOpenPlain(s: string)
    requires !Contains(s, Open)
    ensures Tokenize(s) == Plains(s)
    decreases |s|
  {
    if |s| > 0 {
      assert !StartsWith(s[0..], Open);
      assert s[0..] == s;
      assert !Contains(s[1..], Open) by {
        forall i | 0 <= i <= |s[1..]|
          ensures !StartsWith(s[1..][i..], Open)
        {
          assert s[1..][i..] == s[i + 1..];
        }
      }
      NoOpenPlain(s[1..]);
    }
  }

  lemma {:induction false} PlainsParts(s: string)
    ensures Texts(Plains(s)) == s && Ids(Plains(s)) == [] && Render(Plains(s)) == s
  {
    if |s| > 0 {
      PlainsParts(s[1..]);
    }
  }

  /** Text without any `<citation>` is only stripped, and cites nothing. */
  lemma ExtractWithoutMarkers(s: string)
    requires !Contains(s, Open)
    ensures ExtractChunksAndContent(s) == Extracted(Strip(s), [])
  {
    NoOpenPlain(s);
    PlainsParts(s);
  }

  /** An empty marker captures the empty id (not the id the docstring example
      shows). */
  lemma EmptyMarker(prefix: string)
    requires '<' !in prefix
    ensures ExtractChunksAndContent(prefix + Open + Close) == Extracted(Strip(prefix), [""])
  {
    var empty := "";
    var s := prefix + Open + Close;
    assert s == prefix + Open + empty + Close + empty by {
      AppendEmpty(prefix + Open);
      AppendEmpty(prefix + Open + Close);
    }
    ExtractSingleCitation(prefix, empty, empty);
    AppendEmpty(prefix);
  }

  lemma AppendEmpty(s: string)
    ensures s + "" == s
  {
  }

  /** The extracted content neither starts nor ends with whitespace. */
  lemma ExtractedContentTrimmed(s: string)
    ensures var c := ExtractChunksAndContent(s).content;
            |c| > 0 ==> !IsSpace(c[0]) && !IsSpace(c[|c| - 1])
  {
    StripIsTrimmedSlice(Texts(Tokenize(s)));
  }

  /** Extraction from text written as well-formed pieces. */
  lemma ExtractRendered(ps: seq<Piece>)
    requires WellFormed(ps)
    ensures ExtractChunksAndContent(Render(ps)) == Extracted(Strip(Texts(ps)), Distinct(Ids(ps)))
  {
    RenderTokenize(ps);
  }

  lemma SingleCitationWellFormed(claim: string, id: string, tail: string)
    requires '<' !in claim && '<' !in tail && '<' !in id && '\n' !in id
    ensures WellFormed(Plains(claim) + [Marker(id)] + Plains(tail))
  {
    var a, b := Plains(claim), Plains(tail);
    var ps := a + [Marker(id)] + b;
    forall i | 0 <= i < |ps|
      ensures match ps[i] case Plain(c) => Inert(c) case Marker(x) => '<' !in x && '\n' !in x
    {
      if i < |a| {
        assert ps[i] == Plain(claim[i]);
      } else if i == |a| {
        assert ps[i] == Marker(id);
      } else {
        assert ps[i] == Plain(tail[i - |a| - 1]);
      }
    }
  }

  lemma SingleCitationRender(claim: string, id: string, tail: string)
    ensures Render(Plains(claim) + [Marker(id)] + Plains(tail)) == claim + Open + id + Close + tail
  {
    var a, m, b := Plains(claim), [Marker(id)], Plains(tail);
    PlainsParts(claim);
    PlainsParts(tail);
    assert m[1..] == [];
    assert Render(m) == Open + id + Close + Render([]);
    RenderAppend(a, m);
    RenderAppend(a + m, b);
  }

  lemma SingleCitationTexts(claim: string, id: string, tail: string)
    ensures Texts(Plains(claim) + [Marker(id)] + Plains(tail)) == claim + tail
  {
    var a, m, b := Plains(claim), [Marker(id)], Plains(tail);
    PlainsParts(claim);
    PlainsParts(tail);
    assert m[1..] == [];
    assert Texts(m) == Texts(m[1..]) == [];
    TextsAppend(a, m);
    assert Texts(a + m) == claim;
    TextsAppend(a + m, b);
    assert Texts(a + m + b) == claim + tail;
  }

  lemma SingleCitationIds(claim: string, id: string, tail: string)
    ensures Ids(Plains(claim) + [Marker(id)] + Plains(tail)) == [id]
  {
    var a, m, b := Plains(claim), [Marker(id)], Plains(tail);
    PlainsParts(claim);
    PlainsParts(tail);
    assert m[1..] == [];
    assert Ids(m) == [id];
    IdsAppend(a, m);
    IdsAppend(a + m, b);
  }

  lemma DistinctSingleton(id: string)
    ensures Distinct([id]) == [id]
  {
    var ids := [id];
    assert ids[1..] == [];
    assert DistinctFrom(ids, {}) == [id] + DistinctFrom([], {id});
  }

  /** A claim followed by one marker and more text (as in
      `A.<citation>id1</citation> B.`): the marker goes, its id is reported. */
  lemma ExtractSingleCitation(claim: string, id: string, tail: string)
    requires '<' !in claim && '<' !in tail && '<' !in id && '\n' !in id
    ensures ExtractChunksAndContent(claim + Open + id + Close + tail) == Extracted(Strip(claim + tail), [id])
  {
    SingleCitationWellFormed(claim, id, tail);
    SingleCitationRender(claim, id, tail);
    SingleCitationTexts(claim, id, tail);
    SingleCitationIds(claim, id, tail);
    ExtractRendered(Plains(claim) + [Marker(id)] + Plains(tail));
    DistinctSingleton(id);
  }

  lemma {:induction false} TextsAppend(a: seq<Piece>, b: seq<Piece>)
    ensures Texts(a + b) == Texts(a) + Texts(b)
  {
    if |a| == 0 {
      assert a + b == b;
    } else {
      assert (a + b)[1..] == a[1..] + b;
      TextsAppend(a[1..], b);
    }
  }

  lemma {:induction false} IdsAppend(a: seq<Piece>, b: seq<Piece>)
    ensures Ids(a + b) == Ids(a) + Ids(b)
  {
    if |a| == 0 {
      assert a + b == b;
    } else {
      assert (a + b)[1..] == a[1..] + b;
      IdsAppend(a[1..], b);
    }
  }

  // ---------------------------------------------------------------------------
  // cleanse_text
  // ---------------------------------------------------------------------------

  const Nul: char := '\0'

  /** `StringUtil.cleanse_text`: `None` and `""` come back as they are; any
      other text loses every NUL character. */
  function CleanseText(text: Option<string>): (r: Option<string>)
    ensures r.None? <==> text.None?
    ensures r.Some? ==> Nul !in r.value
    ensures r.Some? ==> |r.value| == |text.value| - Count(text.value, Nul)
    ensures text.Some? && Nul !in text.value ==> r == text
  {
    match text
    case None => None
    case Some(s) =>
      if |s| == 0 then text
      else
        var r := RemoveChar(s, Nul);
        assert Nul !in s ==> r == s by { if Nul !in s { RemoveCharAbsent(s, Nul); } }
        Some(r)
  }

  lemma CleanseTextIdempotent(text: Option<string>)
    ensures CleanseText(CleanseText(text)) == CleanseText(text)
  {
  }

  /** Cleansing works piecewise: the cleansed concatenation is the
      concatenation of the cleansed parts, so the non-NUL characters keep
      their order. */
  lemma CleanseTextAppend(a: string, b: string)
    ensures CleanseText(Some(a + b)).value == CleanseText(Some(a)).value + CleanseText(Some(b)).value
  {
    RemoveCharAppend(a, b, Nul);
    if |a| == 0 { assert a + b == b; }
    if |b| == 0 { assert a + b == a; }
  }

  // ---------------------------------------------------------------------------
  // extract_urls
  // ---------------------------------------------------------------------------

  /** End of the whitespace-free run starting at `p`. */
  function RunEnd(s: string, p: nat): (e: nat)
    requires p <= |s|
    ensures p <= e <= |s|
    ensures NoSpace(s[p..e])
    ensures e == |s| || IsSpace(s[e])
    decreases |s| - p
  {
    if p == |s| || IsSpace(s[p]) then p
    else
      var e := RunEnd(s, p + 1);
      assert s[p..e] == [s[p]] + s[p + 1..e];
      e
  }

  predicate AlnumOrDash(c: char) {
    IsAsciiAlnum(c) || c == '-'
  }

  /** `[a-zA-Z0-9][a-zA-Z0-9-]+[a-zA-Z0-9]\.[^\s]{2,}` with the `.` at `k + 1`. */
  predicate DashedHostAt(u: string, k: int) {
    2 <= k && k + 4 <= |u|
    && IsAsciiAlnum(u[0]) && (forall m :: 1 <= m < k ==> AlnumOrDash(u[m]))
    && IsAsciiAlnum(u[k]) && u[k + 1] == '.'
  }

  /** `[a-zA-Z0-9]+\.[^\s]{2,}` with the `.` at `k`. */
  predicate PlainHostAt(u: string, k: int) {
    1 <= k && k + 3 <= |u|
    && (forall m :: 0 <= m < k ==> IsAsciiAlnum(u[m]))
    && u[k] == '.'
  }

  /** Whether either host alternative has its `.` at some position from `k` on. */
  predicate HostFrom(u: string, k: nat)
    decreases |u| - k
  {
    k < |u| && (DashedHostAt(u, k) || PlainHostAt(u, k) || HostFrom(u, k + 1))
  }

  /** The host part of either alternative, on a whitespace-free run. */
  predicate Host(u: string) {
    HostFrom(u, 0)
  }

  lemma {:induction false} HostFromSome(u: string, j: nat)
    ensures HostFrom(u, j) <==> exists k | j <= k < |u| :: DashedHostAt(u, k) || PlainHostAt(u, k)
    decreases |u| - j
  {
    if j < |u| {
      HostFromSome(u, j + 1);
      if exists k | j <= k < |u| :: DashedHostAt(u, k) || PlainHostAt(u, k) {
        var k :| j <= k < |u| && (DashedHostAt(u, k) || PlainHostAt(u, k));
        if k > j { assert j + 1 <= k; }
      }
    }
  }

  /** The search is the existential the pattern's alternation states. */
  lemma HostAlternatives(u: string)
    ensures Host(u) <==> (exists k | 0 <= k < |u| :: DashedHostAt(u, k)) || (exists k | 0 <= k < |u| :: PlainHostAt(u, k))
  {
    HostFromSome(u, 0);
  }

  /** `(?:www\.|(?!www))` followed by a host. */
  predicate AfterScheme(u: string) {
    (StartsWith(u, "www.") && Host(u[4..])) || (!StartsWith(u, "www") && Host(u))
  }

  /** Whether the URL pattern matches at the start of the whitespace-free run
      `t`; when it does, the greedy `[^\s]{2,}` takes the whole run. */
  predicate UrlAt(t: string) {
    || (StartsWith(t, "http://") && AfterScheme(t[7..]))
    || (StartsWith(t, "https://") && AfterScheme(t[8..]))
    || (StartsWith(t, "www.") && Host(t[4..]))
  }

  datatype Span = Span(start: nat, end: nat)

  predicate UrlPrefix(t: string) {
    StartsWith(t, "http://") || StartsWith(t, "https://") || StartsWith(t, "www.")
  }

  lemma UrlAtPrefix(t: string)
    requires UrlAt(t)
    ensures UrlPrefix(t) && |t| >= 4
  {
  }

  /** A URL prefix of a run is a prefix of the text the run starts. */
  lemma UrlPrefixOfRun(u: string, n: nat)
    requires n <= |u|
    ensures UrlPrefix(u[..n]) ==> UrlPrefix(u)
  {
    if StartsWith(u[..n], "http://") { assert u[..n][..7] == u[..7]; }
    if StartsWith(u[..n], "https://") { assert u[..n][..8] == u[..8]; }
    if StartsWith(u[..n], "www.") { assert u[..n][..4] == u[..4]; }
  }

  // The scan `re.findall` performs, for any test `accept` of a whole run:
  // at each position the whitespace-free run starting there either matches
  // (and the scan resumes after it) or the scan moves on by one character.
  // The URL pattern is one such test; keeping the test abstract keeps the
  // facts about the scan apart from the facts about the pattern.

  function ScanFrom(s: string, p: nat, accept: string -> bool): seq<Span>
    requires p <= |s|
    decreases |s| - p
  {
    if p == |s| then []
    else
      var e := RunEnd(s, p);
      if p < e && accept(s[p..e]) then [Span(p, e)] + ScanFrom(s, e, accept)
      else ScanFrom(s, p + 1, accept)
  }

  /** A reported span is an accepted, whitespace-free run that ends at
      whitespace or at the end of the text. */
  predicate AcceptedRun(s: string, sp: Span, accept: string -> bool) {
    sp.start < sp.end <= |s| && NoSpace(s[sp.start..sp.end]) && (sp.end == |s| || IsSpace(s[sp.end]))
    && accept(s[sp.start..sp.end])
  }

  /** Every span of `r` is an accepted run starting at or after `p`. */
  predicate AllAccepted(s: string, r: seq<Span>, p: nat, accept: string -> bool) {
    forall i :: 0 <= i < |r| ==> AcceptedRun(s, r[i], accept) && p <= r[i].start
  }

  /** The spans of `r` are in order and do not overlap. */
  predicate Disjoint(r: seq<Span>) {
    forall i, j :: 0 <= i < j < |r| ==> r[i].end <= r[j].start
  }

  lemma {:induction false} ScanGood(s: string, p: nat, accept: string -> bool)
    requires p <= |s|
    ensures AllAccepted(s, ScanFrom(s, p, accept), p, accept)
    ensures Disjoint(ScanFrom(s, p, accept))
    decreases |s| - p
  {
    if p < |s| {
      var e := RunEnd(s, p);
      if p < e && accept(s[p..e]) {
        ScanGood(s, e, accept);
        var rest := ScanFrom(s, e, accept);
        assert AllAccepted(s, rest, e, accept) && Disjoint(rest);
        var r := [Span(p, e)] + rest;
        assert ScanFrom(s, p, accept) == r;
        assert AcceptedRun(s, Span(p, e), accept);
        forall i | 0 <= i < |r|
          ensures AcceptedRun(s, r[i], accept) && p <= r[i].start
        {
          if i > 0 {
            assert r[i] == rest[i - 1];
          }
        }
        forall i, j | 0 <= i < j < |r|
          ensures r[i].end <= r[j].start
        {
          assert r[j] == rest[j - 1];
          if i > 0 {
            assert r[i] == rest[i - 1];
          }
        }
      } else {
        ScanGood(s, p + 1, accept);
      }
    }
  }

  /** Positions whose runs are not accepted are scanned past. */
  lemma {:induction false} ScanSkip(s: string, p: nat, n: nat, accept: string -> bool)
    requires p <= n <= |s|
    requires forall q :: p <= q < n ==> !accept(s[q..RunEnd(s, q)])
    ensures ScanFrom(s, p, accept) == ScanFrom(s, n, accept)
    decreases n - p
  {
    if p < n {
      ScanSkip(s, p + 1, n, accept);
    }
  }

  /** `b` is what `s` holds from position `d` to its end. */
  predicate TailIs(s: string, d: nat, b: string) {
    d + |b| == |s| && forall i :: 0 <= i < |b| ==> s[d + i] == b[i]
  }

  lemma TailOf(pre: string, b: string)
    ensures TailIs(pre + b, |pre|, b)
  {
  }

  /** Runs are found the same way in the tail as in the whole text. */
  lemma {:induction false} RunEndShift(s: string, d: nat, b: string, k: nat)
    requires TailIs(s, d, b) && k <= |b|
    ensures RunEnd(s, d + k) == d + RunEnd(b, k)
    decreases |b| - k
  {
    if k < |b| {
      assert s[d + k] == b[k];
      if !IsSpace(b[k]) {
        RunEndShift(s, d, b, k + 1);
      }
    }
  }

  lemma SliceShift(s: string, d: nat, b: string, i: nat, j: nat)
    requires TailIs(s, d, b) && i <= j <= |b|
    ensures s[d + i..d + j] == b[i..j]
  {
    forall m | 0 <= m < j - i
      ensures s[d + i..d + j][m] == b[i..j][m]
    {
      assert s[d + (i + m)] == b[i + m];
    }
  }

  /** A whitespace-free run ends where the whitespace after it begins. */
  lemma {:induction false} RunEndOver(u: string, b: string, k: nat)
    requires k <= |u| && NoSpace(u)
    requires |b| == 0 || IsSpace(b[0])
    ensures RunEnd(u + b, k) == |u|
    decreases |u| - k
  {
    if k < |u| {
      assert (u + b)[k] == u[k];
      RunEndOver(u, b, k + 1);
    } else if |b| > 0 {
      assert (u + b)[k] == b[0];
    }
  }

  /** An accepted run from `m` to `e`, with no accepted run before it, is
      the first match; the scan then resumes at `e`. */
  lemma ScanFirst(s: string, m: nat, e: nat, accept: string -> bool)
    requires m < e <= |s| && RunEnd(s, m) == e && accept(s[m..e])
    requires forall q :: 0 <= q < m ==> !accept(s[q..RunEnd(s, q)])
    ensures ScanFrom(s, 0, accept) == [Span(m, e)] + ScanFrom(s, e, accept)
  {
    ScanSkip(s, 0, m, accept);
  }

  /** Where the whole word `u` lies in `a + u + b`. */
  lemma WordRun(a: string, u: string, b: string)
    requires NoSpace(u)
    requires |b| == 0 || IsSpace(b[0])
    ensures RunEnd(a + u + b, |a|) == |a| + |u|
    ensures (a + u + b)[|a|..|a| + |u|] == u
  {
    var s, ub := a + u + b, u + b;
    assert s == a + ub;
    TailOf(a, ub);
    WordRunEnd(s, |a|, u, b, ub);
    SliceShift(s, |a|, ub, 0, |u|);
    assert ub[0..|u|] == u;
  }

  lemma WordRunEnd(s: string, d: nat, u: string, b: string, ub: string)
    requires ub == u + b && TailIs(s, d, ub) && NoSpace(u)
    requires |b| == 0 || IsSpace(b[0])
    ensures RunEnd(s, d) == d + |u|
  {
    RunEndShift(s, d, ub, 0);
    RunEndOver(u, b, 0);
  }

  /** What every reported span is: a whitespace-free, maximal-to-the-right
      stretch of `s` on which the URL pattern matches, so in particular one
      that starts with `http://`, `https://` or `www.`. */
  predicate GoodSpan(s: string, sp: Span) {
    AcceptedRun(s, sp, UrlAt) && UrlPrefix(s[sp.start..sp.end])
  }

  /** `StringUtil.extract_urls`, as positions: the matches of the URL pattern,
      left to right and non-overlapping. */
  function ExtractUrlSpans(s: string): (r: seq<Span>)
    ensures forall i :: 0 <= i < |r| ==> GoodSpan(s, r[i])
    ensures forall i, j :: 0 <= i < j < |r| ==> r[i].end <= r[j].start
  {
    var r := ScanFrom(s, 0, UrlAt);
    ScanGood(s, 0, UrlAt);
    assert AllAccepted(s, r, 0, UrlAt) && Disjoint(r);
    forall i | 0 <= i < |r|
      ensures GoodSpan(s, r[i])
    {
      assert AcceptedRun(s, r[i], UrlAt);
      UrlAtPrefix(s[r[i].start..r[i].end]);
    }
    r
  }

  /** The text a span covers (nothing for a span outside the text). */
  function Cover(s: string, sp: Span): string {
    if sp.start <= sp.end <= |s| then s[sp.start..sp.end] else []
  }

  function Covers(s: string, r: seq<Span>): (t: seq<string>)
    ensures |t| == |r| && forall i :: 0 <= i < |r| ==> t[i] == Cover(s, r[i])
  {
    seq(|r|, i requires 0 <= i < |r| => Cover(s, r[i]))
  }

  lemma CoversCons(s: string, x: Span, r: seq<Span>)
    ensures Covers(s, [x] + r) == [Cover(s, x)] + Covers(s, r)
  {
  }

  /** `StringUtil.extract_urls`: the matched text of each span. */
  function ExtractUrls(s: string): (urls: seq<string>)
    ensures |urls| == |ExtractUrlSpans(s)|
    ensures forall i :: 0 <= i < |urls| ==>
      var sp := ExtractUrlSpans(s)[i]; urls[i] == s[sp.start..sp.end] && NoSpace(urls[i]) && UrlAt(urls[i])
  {
    Covers(s, ExtractUrlSpans(s))
  }

  /** A position that does not start with a URL prefix does not start a match. */
  lemma NoPrefixNoMatch(s: string, q: nat)
    requires q < |s| && !UrlPrefix(s[q..])
    ensures !UrlAt(s[q..RunEnd(s, q)])
  {
    var e := RunEnd(s, q);
    UrlPrefixOfRun(s[q..], e - q);
    assert s[q..][..e - q] == s[q..e];
    if UrlAt(s[q..e]) { UrlAtPrefix(s[q..e]); }
  }

  /** Text in which no position starts with `http://`, `https://` or `www.`
      yields no URL. */
  lemma NoUrlPrefixNoUrls(s: string)
    requires forall q :: 0 <= q < |s| ==> !UrlPrefix(s[q..])
    ensures ExtractUrls(s) == []
  {
    forall q | 0 <= q < |s|
      ensures !UrlAt(s[q..RunEnd(s, q)])
    {
      NoPrefixNoMatch(s, q);
    }
    ScanSkip(s, 0, |s|, UrlAt);
  }

  /** Completeness: a URL `u` standing as a whole word, after text `a` in
      which nothing starts like a URL, is the first url found. */
  lemma ExtractUrlsWord(a: string, u: string, b: string)
    requires forall q :: 0 <= q < |a| ==> !UrlPrefix((a + u + b)[q..])
    requires UrlAt(u) && NoSpace(u)
    requires |b| == 0 || IsSpace(b[0])
    ensures |ExtractUrls(a + u + b)| > 0 && ExtractUrls(a + u + b)[0] == u
  {
    var s := a + u + b;
    WordFirst(a, u, b);
    CoversCons(s, Span(|a|, |a| + |u|), ScanFrom(s, |a| + |u|, UrlAt));
  }

  /** ... and when nothing in `b` starts like a URL either, it is the only one. */
  lemma ExtractUrlsSole(a: string, u: string, b: string)
    requires forall q :: 0 <= q < |a| ==> !UrlPrefix((a + u + b)[q..])
    requires UrlAt(u) && NoSpace(u)
    requires |b| == 0 || IsSpace(b[0])
    requires forall q :: 0 <= q < |b| ==> !UrlPrefix(b[q..])
    ensures ExtractUrls(a + u + b) == [u]
  {
    var s := a + u + b;
    var d := |a| + |u|;
    WordFirst(a, u, b);
    var au := a + u;
    assert s == au + b;
    TailOf(au, b);
    TailNoMatch(s, d, b);
    ScanSkip(s, d, |s|, UrlAt);
    assert ScanFrom(s, d, UrlAt) == [];
    SoleCover(s, Span(|a|, d), u);
  }

  lemma SoleCover(s: string, sp: Span, u: string)
    requires ExtractUrlSpans(s) == [sp] + [] && sp.start <= sp.end <= |s| && s[sp.start..sp.end] == u
    ensures ExtractUrls(s) == [u]
  {
    assert ExtractUrlSpans(s) == [sp];
  }

  lemma TailNoMatch(s: string, d: nat, b: string)
    requires TailIs(s, d, b)
    requires forall q :: 0 <= q < |b| ==> !UrlPrefix(b[q..])
    ensures forall q :: d <= q < |s| ==> !UrlAt(s[q..RunEnd(s, q)])
  {
    forall q | d <= q < |s|
      ensures !UrlAt(s[q..RunEnd(s, q)])
    {
      TailSuffix(s, d, b, q - d);
      NoPrefixNoMatch(s, q);
    }
  }

  /** The scan of `a + u + b` finds `u` first and then goes on after it. */
  lemma WordFirst(a: string, u: string, b: string)
    requires forall q :: 0 <= q < |a| ==> !UrlPrefix((a + u + b)[q..])
    requires UrlAt(u) && NoSpace(u)
    requires |b| == 0 || IsSpace(b[0])
    ensures ExtractUrlSpans(a + u + b) == [Span(|a|, |a| + |u|)] + ScanFrom(a + u + b, |a| + |u|, UrlAt)
    ensures (a + u + b)[|a|..|a| + |u|] == u
  {
    var s := a + u + b;
    forall q | 0 <= q < |a|
      ensures !UrlAt(s[q..RunEnd(s, q)])
    {
      NoPrefixNoMatch(s, q);
    }
    UrlAtPrefix(u);
    WordRun(a, u, b);
    ScanFirst(s, |a|, |a| + |u|, UrlAt);
  }

  lemma TailSuffix(s: string, d: nat, b: string, i: nat)
    requires TailIs(s, d, b) && i <= |b|
    ensures s[d + i..] == b[i..]
  {
    SliceShift(s, d, b, i, |b|);
  }

  /** A concrete instance: one URL after a word. */
  lemma ExtractUrlsExample()
    ensures ExtractUrls("see https://example.com") == ["https://example.com"]
  {
    var a, u, b := "see ", "https://example.com", "";
    ExampleText(a, u, b);
    ExampleUrl(u);
    ExtractUrlsSole(a, u, b);
  }

  lemma ExampleText(a: string, u: string, b: string)
    requires a == "see " && u == "https://example.com" && b == ""
    ensures a + u + b == "see https://example.com"
    ensures forall q :: 0 <= q < |a| ==> !UrlPrefix((a + u + b)[q..])
  {
    var s := a + u + b;
    assert s == a + u;
    forall q | 0 <= q < |a|
      ensures !UrlPrefix(s[q..])
    {
      assert s[q..][0] == a[q] && a[q] in "se ";
      UrlPrefixStart(s[q..]);
    }
  }

  /** Every URL prefix starts with `h` or `w`. */
  lemma UrlPrefixStart(t: string)
    ensures UrlPrefix(t) ==> t[0] == 'h' || t[0] == 'w'
  {
    if StartsWith(t, "http://") {
      assert t[0] == t[..7][0];
    } else if StartsWith(t, "https://") {
      assert t[0] == t[..8][0];
    } else if StartsWith(t, "www.") {
      assert t[0] == t[..4][0];
    }
  }

  lemma ExampleUrl(u: string)
    requires u == "https://example.com"
    ensures UrlAt(u) && NoSpace(u)
  {
    var h := u[8..];
    assert h == "example.com";
    ExampleHost(h);
    assert u[..8] == "https://";
    ExampleNoSpace(u);
  }

  lemma ExampleHost(h: string)
    requires h == "example.com"
    ensures Host(h) && !StartsWith(h, "www")
  {
    assert h[0] == 'e';
    assert PlainHostAt(h, 7);
    HostFromSome(h, 0);
  }

  lemma ExampleNoSpace(u: string)
    requires u == "https://example.com"
    ensures NoSpace(u)
  {
    forall k | 0 <= k < |u|
      ensures !IsSpace(u[k])
    {
      assert ' ' < u[k] < '\U{85}';
    }
  }
}

=== FILE: synthesis.dfy ===
/** `generate_report_from_chunks` (backend/app/services/report.py): the
    report is written by the LLM and stored, with up to five retries when any
    step of an attempt raises.

    The outcome of attempt number `i` (`retrying == i`) is an input: `Some`
    with the `content` of the LLM's JSON reply when the call, the decoding
    and the update all succeed, `None` when one of them raises.
 */
module Synthesis {
  import opened Outcomes
  import opened Chunks
  import opened Reports
  import StringUtil

  /** The largest `retrying` that still retries: attempts 0 to 5 are made. */
  const MaxRetrying: nat := 5

  type Attempts = nat -> Option<string>

  /** The chunk ids, in order (`[str(chunk.uuid) for chunk in chunks]`). */
  function Uuids(chunks: seq<Chunk>): (r: seq<string>)
    ensures |r| == |chunks|
    ensures forall i :: 0 <= i < |chunks| ==> r[i] == chunks[i].uuid
  {
    seq(|chunks|, i requires 0 <= i < |chunks| => chunks[i].uuid)
  }

  /** The `self.report.update(...)` of a successful attempt: every input
      chunk id in order, the content exactly as the LLM wrote it (markers
      included), and the ids the markers cite. */
  function Store(report: Report, chunks: seq<Chunk>, content: string): (r: Report)
    ensures r.chunkIds == Uuids(chunks)
    ensures r.content == Some(content)
    ensures r.citations == StringUtil.ExtractChunksAndContent(content).citations
    ensures r.(content := report.content, citations := report.citations, chunkIds := report.chunkIds) == report
  {
    report.(chunkIds := Uuids(chunks), content := Some(content),
            citations := StringUtil.ExtractChunksAndContent(content).citations)
  }

  /** The first attempt at or after `from` that succeeds, if one of the
      attempts up to `MaxRetrying` does. */
  function FirstSuccessFrom(attempt: Attempts, from: nat): (k: Option<nat>)
    ensures k.Some? ==> from <= k.value <= MaxRetrying && attempt(k.value).Some?
                        && forall j :: from <= j < k.value ==> attempt(j).None?
    ensures k.None? ==> forall j :: from <= j <= MaxRetrying ==> attempt(j).None?
    decreases MaxRetrying + 1 - from
  {
    if from > MaxRetrying then None
    else if attempt(from).Some? then Some(from)
    else FirstSuccessFrom(attempt, from + 1)
  }

  /** The report the retries should leave: stored from the first successful
      attempt, or unchanged when all six fail. */
  function Intended(report: Report, chunks: seq<Chunk>, attempt: Attempts): Report {
    match FirstSuccessFrom(attempt, 0)
    case None => report
    case Some(k) => Store(report, chunks, attempt(k).value)
  }

  // ---------------------------------------------------------------------------
  // As written
  // ---------------------------------------------------------------------------

  /** What one call leaves: the value it returns, and the state of
      `self.report` afterwards (updated by whichever nested call succeeded). */
  datatype Outcome = Outcome(returned: Option<Report>, state: Report)

  /** The recursive method as written: a failed attempt below the limit calls
      itself again but does not return that call's result, so the caller
      gets `None`; at the limit it returns the report as it stands. */
  function AsWrittenFrom(report: Report, chunks: seq<Chunk>, attempt: Attempts, retrying: nat): (o: Outcome)
    requires retrying <= MaxRetrying
    ensures o.returned.Some? ==> o.returned.value == o.state
    ensures o.returned.Some? <==> attempt(retrying).Some? || retrying == MaxRetrying
    decreases MaxRetrying - retrying
  {
    match attempt(retrying)
    case Some(content) =>
      var stored := Store(report, chunks, content);
      Outcome(Some(stored), stored)
    case None =>
      if retrying < MaxRetrying then
        Outcome(None, AsWrittenFrom(report, chunks, attempt, retrying + 1).state)
      else Outcome(Some(report), report)
  }

  /** `await service.generate_report_from_chunks(chunks)`. */
  function AsWritten(report: Report, chunks: seq<Chunk>, attempt: Attempts): (o: Outcome)
    ensures o.returned.Some? <==> attempt(0).Some?
  {
    AsWrittenFrom(report, chunks, attempt, 0)
  }

  /** The stored report is the one the first successful attempt writes, and
      nothing is stored when every attempt fails. */
  lemma {:induction false} AsWrittenStateFrom(report: Report, chunks: seq<Chunk>, attempt: Attempts, retrying: nat)
    requires retrying <= MaxRetrying
    ensures FirstSuccessFrom(attempt, retrying).None? ==> AsWrittenFrom(report, chunks, attempt, retrying).state == report
    ensures FirstSuccessFrom(attempt, retrying).Some? ==>
              AsWrittenFrom(report, chunks, attempt, retrying).state
              == Store(report, chunks, attempt(FirstSuccessFrom(attempt, retrying).value).value)
    decreases MaxRetrying - retrying
  {
    if attempt(retrying).None? && retrying < MaxRetrying {
      AsWrittenStateFrom(report, chunks, attempt, retrying + 1);
    }
  }

  /** Whatever is returned, the report ends in the intended state. */
  lemma AsWrittenState(report: Report, chunks: seq<Chunk>, attempt: Attempts)
    ensures AsWritten(report, chunks, attempt).state == Intended(report, chunks, attempt)
  {
    AsWrittenStateFrom(report, chunks, attempt, 0);
  }

  /** Only the six attempts 0 to 5 are ever made: two attempt sequences that
      agree on them give the same outcome. */
  lemma {:induction false} AtMostSixAttempts(report: Report, chunks: seq<Chunk>, a: Attempts, b: Attempts, retrying: nat)
    requires retrying <= MaxRetrying
    requires forall i :: retrying <= i <= MaxRetrying ==> a(i) == b(i)
    ensures AsWrittenFrom(report, chunks, a, retrying) == AsWrittenFrom(report, chunks, b, retrying)
    decreases MaxRetrying - retrying
  {
    if a(retrying).None? && retrying < MaxRetrying {
      AtMostSixAttempts(report, chunks, a, b, retrying + 1);
    }
  }

  /** A first attempt that fails and a second that succeeds: the report is
      stored, but the caller receives `None`. */
  lemma StoredButNotReturned(report: Report, chunks: seq<Chunk>, content: string)
    ensures var attempt: Attempts := i => if i == 1 then Some(content) else None;
            AsWritten(report, chunks, attempt).returned == None
            && AsWritten(report, chunks, attempt).state == Store(report, chunks, content)
  {
    var attempt: Attempts := i => if i == 1 then Some(content) else None;
    assert AsWrittenFrom(report, chunks, attempt, 1).state == Store(report, chunks, content);
  }

  /** The stored citations are not checked against the chunks the report was
      written from: content citing an unknown id stores that id. */
  lemma CitationsNotChecked(report: Report, claim: string, id: string)
    requires '<' !in claim && '<' !in id && '\n' !in id
    ensures Store(report, [], claim + StringUtil.Open + id + StringUtil.Close).citations == [id]
    ensures Store(report, [], claim + StringUtil.Open + id + StringUtil.Close).chunkIds == []
  {
    StringUtil.ExtractSingleCitation(claim, id, "");
    assert claim + StringUtil.Open + id + StringUtil.Close + "" == claim + StringUtil.Open + id + StringUtil.Close;
  }

  // ---------------------------------------------------------------------------
  // Corrected
  // ---------------------------------------------------------------------------

  /** The retry with the nested result returned (`return await
      self.generate_report_from_chunks(chunks, retrying + 1)`), written as the
      bounded loop it amounts to: the report from the first successful
      attempt, or the unchanged report after six failures. */
  method GenerateReport(report: Report, chunks: seq<Chunk>, attempt: Attempts) returns (r: Report)
    ensures r == Intended(report, chunks, attempt)
    ensures r == AsWritten(report, chunks, attempt).state
  {
    AsWrittenState(report, chunks, attempt);
    var retrying := 0;
    while retrying <= MaxRetrying
      invariant 0 <= retrying <= MaxRetrying + 1
      invariant FirstSuccessFrom(attempt, 0) == FirstSuccessFrom(attempt, retrying)
    {
      if attempt(retrying).Some? {
        assert FirstSuccessFrom(attempt, retrying) == Some(retrying);
        return Store(report, chunks, attempt(retrying).value);
      }
      assert FirstSuccessFrom(attempt, retrying) == FirstSuccessFrom(attempt, retrying + 1);
      retrying := retrying + 1;
    }
    assert FirstSuccessFrom(attempt, retrying) == None;
    return report;
  }
}

=== FILE: text.dfy ===
/** Character classes and small string operations of Python's `str` that the
    modelled code relies on: `isspace`/`\s`, `strip()`, `replace(c, '')`,
    `startswith` and substring search. Strings are `seq<char>` of Unicode
    scalar values, as Python 3 `str` values are.
 */
module Text {

  /** Python's notion of whitespace (`str.isspace()`, also what `\s` and
      `str.strip()` use for `str` values). */
  predicate IsSpace(c: char) {
    || c == ' ' || c == '\t' || c == '\n' || c == '\r' || c == '\U{b}' || c == '\U{c}'
    || ('\U{1c}' <= c <= '\U{1f}')
    || c == '\U{85}' || c == '\U{a0}' || c == '\U{1680}'
    || ('\U{2000}' <= c <= '\U{200a}')
    || c == '\U{2028}' || c == '\U{2029}' || c == '\U{202f}' || c == '\U{205f}' || c == '\U{3000}'
  }

  predicate IsAsciiLetter(c: char) {
    ('a' <= c <= 'z') || ('A' <= c <= 'Z')
  }

  predicate IsAsciiDigit(c: char) {
    '0' <= c <= '9'
  }

  /** `[a-zA-Z0-9]` */
  predicate IsAsciiAlnum(c: char) {
    IsAsciiLetter(c) || IsAsciiDigit(c)
  }

  predicate IsAscii(c: char) {
    (c as int) < 128
  }

  predicate NoSpace(s: string) {
    forall k :: 0 <= k < |s| ==> !IsSpace(s[k])
  }

  predicate AllSpace(s: string) {
    forall k :: 0 <= k < |s| ==> IsSpace(s[k])
  }

  predicate StartsWith(s: string, prefix: string) {
    |prefix| <= |s| && s[..|prefix|] == prefix
  }

  /** `needle in s` for a non-empty needle. */
  predicate Contains(s: string, needle: string) {
    exists i | 0 <= i <= |s| :: StartsWith(s[i..], needle)
  }

  /** Number of occurrences of `c` in `s`. */
  function Count(s: string, c: char): (n: nat)
    ensures n <= |s|
  {
    if |s| == 0 then 0 else (if s[0] == c then 1 else 0) + Count(s[1..], c)
  }

  /** `s.replace(c, '')` for a single character `c`: every occurrence removed,
      everything else kept in order. */
  function RemoveChar(s: string, c: char): (r: string)
    ensures c !in r
    ensures |r| == |s| - Count(s, c)
    ensures forall k :: 0 <= k < |r| ==> r[k] in s
  {
    if |s| == 0 then []
    else if s[0] == c then RemoveChar(s[1..], c)
    else [s[0]] + RemoveChar(s[1..], c)
  }

  lemma {:induction false} RemoveCharAbsent(s: string, c: char)
    requires c !in s
    ensures RemoveChar(s, c) == s
  {
    if |s| > 0 {
      assert c !in s[1..];
      RemoveCharAbsent(s[1..], c);
    }
  }

  lemma {:induction false} RemoveCharAppend(a: string, b: string, c: char)
    ensures RemoveChar(a + b, c) == RemoveChar(a, c) + RemoveChar(b, c)
  {
    if |a| == 0 {
      assert a + b == b;
    } else {
      assert (a + b)[1..] == a[1..] + b;
      RemoveCharAppend(a[1..], b, c);
    }
  }

  /** `s.encode('ascii', 'ignore').decode('ascii')`: non-ASCII characters dropped. */
  function KeepAscii(s: string): (r: string)
    ensures forall k :: 0 <= k < |r| ==> IsAscii(r[k])
    ensures forall k :: 0 <= k < |r| ==> r[k] in s
    ensures (forall k :: 0 <= k < |s| ==> IsAscii(s[k])) ==> r == s
  {
    if |s| == 0 then []
    else if IsAscii(s[0]) then [s[0]] + KeepAscii(s[1..])
    else KeepAscii(s[1..])
  }

  /** Filtering distributes over concatenation, so with the all-ASCII case
      above and `KeepAsciiDrops` it pins down the whole result: every ASCII
      character kept, in order, every other one dropped. */
  lemma {:induction false} KeepAsciiAppend(a: string, b: string)
    ensures KeepAscii(a + b) == KeepAscii(a) + KeepAscii(b)
  {
    if |a| == 0 {
      assert a + b == b;
    } else {
      assert (a + b)[0] == a[0];
      assert (a + b)[1..] == a[1..] + b;
      KeepAsciiAppend(a[1..], b);
    }
  }

  lemma KeepAsciiDrops(c: char)
    requires !IsAscii(c)
    ensures KeepAscii([c]) == []
  {
    assert [c][1..] == [];
  }

  /** Leading whitespace removed (`str.lstrip()`). */
  function StripLeft(s: string): (r: string)
    ensures |r| <= |s| && r == s[|s| - |r|..]
    ensures AllSpace(s[..|s| - |r|])
    ensures |r| > 0 ==> !IsSpace(r[0])
  {
    if |s| > 0 && IsSpace(s[0]) then StripLeft(s[1..]) else s
  }

  /** Trailing whitespace removed (`str.rstrip()`). */
  function StripRight(s: string): (r: string)
    ensures |r| <= |s| && r == s[..|r|]
    ensures AllSpace(s[|r|..])
    ensures |r| > 0 ==> !IsSpace(r[|r| - 1])
  {
    if |s| > 0 && IsSpace(s[|s| - 1]) then StripRight(s[..|s| - 1]) else s
  }

  /** `str.strip()` */
  function Strip(s: string): (r: string)
  {
    StripRight(StripLeft(s))
  }

  /** What `strip()` returns: the slice of `s` between a whitespace-only prefix
      and a whitespace-only suffix, itself neither starting nor ending with
      whitespace. */
  lemma StripIsTrimmedSlice(s: string)
    ensures exists i, j :: 0 <= i <= j <= |s| && Strip(s) == s[i..j] && AllSpace(s[..i]) && AllSpace(s[j..])
    ensures |Strip(s)| > 0 ==> !IsSpace(Strip(s)[0]) && !IsSpace(Strip(s)[|Strip(s)| - 1])
  {
    var l := StripLeft(s);
    var r := StripRight(l);
    var i := |s| - |l|;
    var j := i + |r|;
    assert s[i..j] == r;
    assert s[j..] == l[|r|..];
  }

  lemma StripUntrimmed(s: string)
    requires |s| == 0 || (!IsSpace(s[0]) && !IsSpace(s[|s| - 1]))
    ensures Strip(s) == s
  {
  }
}
